=== FILE: README.md ===
# Echo time capsules — a verified model

Echo lets users write time capsules: a title, some content and images,
addressed to receivers, and sealed until an open date. This project models:

- the server's temporal access-control engine:
  - a capsule's lifecycle (`unsealed` → `sealed` → `opened`), derived from its open date and the clock;
  - who may read a capsule or one of its images in each state;
  - the response projection that hides a sealed capsule's content;
  - create, edit and delete, with the sender, lock and `sealedAt` rules;
  - the capsule listings, with their filters, ordering and paging.
- The validation layer: the password and username rules, object-id parsing, multipart booleans and id arrays, the shared action schemas, and the upload file-name scheme.
- The clients' small pure helpers:
  - multipart form encoding;
  - the route table of the vanilla client;
  - the base-URL interceptor and image URLs;
  - initials, the sender check and input-error lookup;
  - the capsule editor's step wizard;
  - the toast list.

The clock (`now`), the database lookup (the stored record is an
`Option<Capsule>` parameter), `JSON.parse`, `JSON.stringify`, the date
parser and the e-mail/datetime/id syntaxes are all parameters. Every module
is a pure function of its inputs. The editor's `ChangeStep` takes the
step order as a parameter, so its laws are proved for every order without
repeated names; `Next`, `Back` and `SkipStep` pass the wizard's own `Steps`.

| file | module | what it holds |
|---|---|---|
| wrappers.dfy | Wrappers | `Option`, `Result` |
| errors.dfy | Errors | the error kinds and their HTTP statuses |
| objectid.dfy | ObjectIds | 24-hex-digit object ids and their text form |
| js.dfy | Js | the JSON/multipart values a handler receives |
| capsule.dfy | CapsuleModel | the capsule record, the state rule, sender/receiver tests, the pre-save hook |
| access.dfy | Access | the view gate and the image gate |
| projection.dfy | Projection | `filterCapsuleResponse` and `getCapsuleById` |
| partial.dfy | PartialUpdate | `onlyDefinedValues` |
| mutation.dfy | Mutation | create, edit, delete |
| listing.dfy | Listing | the user and public listings |
| validation.dfy | Validation | server validation schemas |
| actions.dfy | Actions | the shared register/login/capsule action schemas |
| files.dfy | Files | upload names, `getFileId`, `deleteFile` |
| formdata.dfy | FormData | `createFormData` |
| router.dfy | Router | `createRoute` / `handleRoute` and the client's route table |
| client.dfy | Client | interceptor, image URLs, initials, `isSender`, input errors |
| editor.dfy | Editor | the capsule editor wizard |
| toast.dfy | Toasts | the toast list |

## Model

| member | source | states |
|---|---|---|
| Errors.Status | packages/server/api/index.js:62-110 | every error kind is answered with a 4xx or 5xx status |
| Errors.StatusInjective | packages/server/api/index.js:62-110 | the status alone tells the error kinds apart |
| ObjectIds.FromText | packages/server/lib/validation.ts:32-42 | parsing valid id text yields a well-formed id of the same length, case-folded digit by digit |
| ObjectIds.TextRoundTrip | packages/server/lib/validation.ts:32-42 | a well-formed id's text is valid and parses back to the same id |
| ObjectIds.TextHasNoDash | packages/server/api/index.js:308-312 | id text never contains '-', so it can prefix an upload name |
| Js.Utf16Length | packages/server/lib/validation.ts:8-9 | a string's JavaScript length lies between its number of characters and twice that |
| Js.Utf16LengthAppend | packages/server/lib/validation.ts:8-9 | the JavaScript length of a concatenation is the sum of the lengths |
| Js.Utf16LengthOfBmp | packages/server/lib/validation.ts:15-18 | a string without characters beyond U+FFFF has as many code units as characters |
| Js.Trim | packages/server/models/capsule.ts:7-11 | the `trim: true` setter keeps an infix of the input with only white space cut from its ends, whose ends are not white space; it is empty iff the input is all white space |
| Js.TrimIdempotent | packages/server/models/capsule.ts:7-11 | trimming a trimmed title changes nothing |
| Js.TrimIgnoresPadding | packages/server/models/capsule.ts:7-11 | white space added before or after a title does not survive the trim |
| CapsuleModel.StateGetter | packages/server/models/capsule.ts:50-54 | always yields a state; unsealed iff there is no open date; sealed iff now ≤ open date; opened iff open date < now |
| CapsuleModel.Switch | packages/server/controller/capsule.ts:99-116 | the first true branch's value, or nothing iff no branch is true |
| CapsuleModel.PipelineAgreesWithGetter | packages/server/controller/capsule.ts:99-116 | the listing aggregation's `$switch` computes the same state as the record's getter, on every input |
| CapsuleModel.TieBelongsToSealed | packages/server/models/capsule.ts:50-54 | at the exact open instant the capsule is still sealed |
| CapsuleModel.StateMonotoneInTime | packages/server/models/capsule.ts:50-54 | as time advances the state only moves forward, and unsealed never changes by time alone |
| CapsuleModel.ContainsViewer | packages/server/api/index.js:627-638 | true iff a viewer is present and in the id list |
| CapsuleModel.IsSentBy | packages/server/models/capsule.ts:56-58 | true iff the user occurs among the senders, at any position |
| CapsuleModel.IsReceivedBy | packages/server/models/capsule.ts:60-62 | true iff the user occurs among the receivers, at any position |
| CapsuleModel.SenderStatusOfPermutation | packages/server/models/capsule.ts:56-58 | reordering the senders changes no one's sender status, and every listed sender is a sender |
| CapsuleModel.PreSave | packages/server/models/capsule.ts:64-72 | stamps `sealedAt` with now exactly when the open date was modified, and touches no other field |
| CapsuleModel.ParseVisibility | packages/server/models/capsule.ts:23-27 | accepts exactly "public" and "private", and maps each back to its own text |
| CapsuleModel.VisibilityRoundTrip | packages/validation/src/data.ts:26-31 | printing then parsing a visibility gives it back |
| Access.AuthorizeView | packages/server/controller/capsule.ts:249-316 | allowed iff the viewer is a sender, or the capsule is sealed, public and shows a countdown, or it is opened and public or the viewer is a receiver; locked iff it is sealed, public, without countdown and the viewer is not a sender; every other denial is forbidden |
| Access.FindImage | packages/server/controller/image.ts:85-88 | the first image with that name, and nothing iff no image has it |
| Access.ImageDecision | packages/server/controller/image.ts:90-118 | a draft image is for senders only; a sealed image is always locked; an opened one follows the visibility rule |
| Access.GetCapsuleImage | packages/server/controller/image.ts:76-120 | not found for a missing capsule or image; otherwise succeeds exactly when the image gate allows, returning the named stored image |
| Access.ImageAllowedImpliesViewAllowed | packages/server/controller/image.ts:90-118 | whoever may fetch an image may also view its capsule |
| Access.GatesDifferOnlyWhenSealed | packages/server/controller/image.ts:101-105 | the image gate and the view gate disagree only while the capsule is sealed |
| Access.SealedImagesAlwaysLocked | packages/server/controller/image.ts:101-105 | an existing image of a sealed capsule is locked for everyone, senders included |
| Access.MissingImageIsNotFound | packages/server/controller/image.ts:85-88 | an unknown image name is "not found" whatever the state and the viewer |
| Access.LockedResolvesOnOpening | packages/server/controller/capsule.ts:261-310 | a viewer who is locked out is allowed once the open date has passed |
| Access.ForbiddenOnOpenedIsFinal | packages/server/controller/capsule.ts:261-310 | a viewer forbidden from an opened capsule stays forbidden at every later time |
| Projection.FilterCapsuleResponse | packages/server/controller/capsule.ts:20-58 | fails validation iff no sender resolves to a stored user, a stored sender or receiver lacks a first or last name, or an opened capsule lacks `sealedAt`; otherwise its variant is the capsule's state, every disclosed field comes from the record, and the response fits exactly one of the three response schemas of packages/validation/src/data.ts |
| Projection.SealedNeverDisclosesContent | packages/validation/src/data.ts:43-45 | a sealed response carries only the base fields and the open date: no title, content or images |
| Projection.VariantAllowLists | packages/validation/src/data.ts:33-61 | a draft response carries no open date or seal time, an opened one carries the seal time but no countdown flag, and content appears iff the capsule is not sealed and has content |
| Projection.ImagesDisclosedByNameAndType | packages/validation/src/data.ts:5-8 | disclosed images keep their order, name and type, and nothing else |
| Projection.GetCapsuleById | packages/server/controller/capsule.ts:249-316 | not found for a missing record; the gate's error when denied; the projection when allowed |
| Projection.SealedViewHidesContentFromEveryone | packages/server/controller/capsule.ts:261-310 | no viewer, sender or not, sees a sealed capsule's title, content or images |
| Projection.ParseUser | packages/validation/src/data.ts:16-22 | a user projects iff both names are present; id, username and names are copied and an image keeps only its name and type |
| Projection.ProjectUsers | packages/server/controller/capsule.ts:252-253 | resolving user ids as `populate` does keeps the ids' order, drops unknown ids, succeeds iff every known user has both names, and is empty iff no id is known |
| Projection.ProjectUsersSingle | packages/server/controller/capsule.ts:252-253 | one id projects to nothing when unknown, to its user when named, and fails when a name is missing |
| Projection.ProjectUsersDistributes | packages/server/controller/capsule.ts:252-253 | populating a concatenation of ids succeeds iff both parts do, and gives the concatenated users, an id repeated across the parts appearing once per occurrence |
| Projection.ProjectUsersAllPresent | packages/server/controller/capsule.ts:252-253 | when every id is a named stored user, populating gives those users in id order, repeats included |
| Projection.NamelessSenderBreaksResponse | packages/validation/src/data.ts:16-22 | a stored first sender without a first name makes the whole response fail validation |
| Projection.DeletedSendersBreakResponse | packages/validation/src/data.ts:26-31 | a capsule none of whose senders exists any more cannot be answered |
| PartialUpdate.OnlyDefinedValues | lib/only-defined-values.ts:1-6 | keeps exactly the entries whose value is defined |
| PartialUpdate.OnlyDefinedValuesDistributes | lib/only-defined-values.ts:1-6 | filtering a concatenation is concatenating the filtered parts |
| PartialUpdate.OnlyDefinedValuesKeepsDefined | lib/only-defined-values.ts:1-6 | an object without undefined values is left as it is |
| PartialUpdate.OnlyDefinedValuesIdempotent | lib/only-defined-values.ts:1-6 | filtering twice is filtering once |
| Mutation.CreateCapsule | packages/server/controller/capsule.ts:155-164 | succeeds iff the title is not all white space, otherwise the save fails with an unexpected (500) error; the stored title is the trimmed title; the caller is the first sender, followed by the collaborators; every supplied field is copied; `showCountdown` defaults to false; `sealedAt` is set iff an open date was given, so a capsule without one starts unsealed |
| Mutation.EditCapsule | packages/server/controller/capsule.ts:188-209 | in order: not found, forbidden for a non-sender, locked unless unsealed, and an unexpected (500) error when the edited title trims to nothing; on success only defined fields change, a new title is stored trimmed, the senders are reset and `sealedAt` follows the open date |
| Mutation.EditOverwritesSenders | packages/server/controller/capsule.ts:202-209 | an edit with no values still replaces the senders with the caller alone (and fails as unexpected only if the stored title is empty) |
| Mutation.CheckTitle | packages/server/models/capsule.ts:7-11 | the `required` check on save: passes the record iff its title is non-empty, otherwise an unexpected error |
| Mutation.ApplyEdit | packages/server/controller/capsule.ts:202-207 | each field takes the supplied value when defined and keeps the stored one otherwise; a title is trimmed; the senders become the caller and the collaborators; id, creation time and `sealedAt` are untouched |
| Mutation.ApplyEmptyEdit | packages/server/controller/capsule.ts:202-207 | applying no values only resets the senders to the caller |
| Mutation.CreatedDraftIsEditable | packages/server/controller/capsule.ts:155-209 | a capsule created without an open date can later be edited by its creator, by any edit whose title is absent or not all white space |
| Mutation.CreatedTitleIsTrimmed | packages/server/models/capsule.ts:7-11 | a created capsule's title is already trimmed |
| Mutation.StoredTitlesStayTrimmed | packages/server/models/capsule.ts:7-11 | an edit of a capsule with a trimmed title leaves a trimmed, non-empty title |
| Mutation.SealingDraftStampsSealedAt | packages/server/models/capsule.ts:64-72 | an edit that sets a future open date stamps `sealedAt` with now and leaves the capsule sealed |
| Mutation.NoEditAfterSealing | packages/server/controller/capsule.ts:188-200 | a capsule with an open date can never be edited; a sender gets "locked" |
| Mutation.DeleteCapsule | packages/server/controller/capsule.ts:229-243 | not found, then forbidden for a non-sender; succeeds iff the caller is a sender |
| Mutation.DeleteIgnoresLifecycle | packages/server/controller/capsule.ts:229-243 | the delete outcome does not depend on the open date or `sealedAt` |
| Mutation.DeleteBroaderThanEdit | packages/server/controller/capsule.ts:229-243 | whoever may edit may delete; a sender may delete a sealed capsule they cannot edit |
| Listing.UserDefaultIsSentOrReceived | packages/server/controller/capsule.ts:319-340 | the default user listing is the union of sent and received; drafts are among sent |
| Listing.UserListingIsViewable | packages/server/controller/capsule.ts:319-340 | every capsule a user listing returns passes that user's view gate |
| Listing.PublicListingIsViewable | packages/server/controller/capsule.ts:363-380 | every public-feed capsule is public, not a draft, and viewable by anyone |
| Listing.Matches | packages/server/controller/capsule.ts:319-340 | a user's default listing holds what the user sent or received once opened; a user listing only holds capsules the user sent or receives; the default public feed holds public capsules that are opened or sealed with a countdown; a public listing never holds private capsules or drafts |
| Listing.FilterCapsules | packages/server/controller/capsule.ts:128 | exactly the records that match the audience, each as many times as it is stored |
| Listing.FilterCapsulesSingle | packages/server/controller/capsule.ts:128 | one record is kept iff it matches |
| Listing.FilterCapsulesDistributes | packages/server/controller/capsule.ts:128 | filtering a concatenation is concatenating the filtered parts, so the filter keeps the stored order |
| Listing.NotAfterMeans | packages/server/controller/capsule.ts:117-136 | the order is: dated before undated, then the soonest open date, then the latest `sealedAt`, then the newest `createdAt`; it does not depend on the clock |
| Listing.Compare | packages/server/controller/capsule.ts:130-135 | the comparator yields -1, 0 or 1, and 0 iff both capsules agree on open date, `sealedAt` and `createdAt` |
| Listing.CompareAntisymmetric | packages/server/controller/capsule.ts:117-136 | the comparator is antisymmetric |
| Listing.NotAfterTransitive | packages/server/controller/capsule.ts:117-136 | the order it induces is transitive |
| Listing.Insert | packages/server/controller/capsule.ts:117-136 | inserting into a sorted list keeps it sorted and adds exactly that element |
| Listing.SortCapsules | packages/server/controller/capsule.ts:117-136 | the result is sorted and a permutation of the input |
| Listing.SortedListingOrder | packages/server/controller/capsule.ts:117-136 | in a sorted listing, later items are never dated when earlier ones are not, open dates never decrease, and ties put the newer capsule first |
| Listing.Page | packages/server/controller/capsule.ts:137-142 | `skip` then `limit`: exactly min(take, remaining) items, the i-th being item skip+i |
| Listing.PagesTile | packages/server/controller/capsule.ts:137-142 | consecutive pages concatenate to the combined page |
| Listing.ParsePaging | packages/server/controller/capsule.ts:351-357 | rejects a supplied take or skip below 1; a missing take is 10 and a missing skip is 0 |
| Listing.ParseUserKind | packages/server/controller/capsule.ts:351-357 | accepts draft, sent, received or nothing; anything else fails validation |
| Listing.ParsePublicKind | packages/server/controller/capsule.ts:390-397 | accepts sealed, opened or nothing; anything else fails validation |
| Listing.ListCapsules | packages/server/controller/capsule.ts:60-150 | only matching records, at most `take` of them, in listing order |
| Listing.FullListingIsPermutationOfMatches | packages/server/controller/capsule.ts:60-150 | a page covering everything is a permutation of the matching records |
| Listing.RespondAll | packages/server/controller/capsule.ts:60-150 | succeeds iff every record projects, element by element, and otherwise fails validation |
| Listing.RespondedFromListing | packages/server/controller/capsule.ts:60-150 | each response item is the projection of the listed record in the same position |
| Listing.GetUserCapsules | packages/server/controller/capsule.ts:317-360 | bad parameters fail validation; at most `take` results; received capsules are all opened and drafts all unsealed |
| Listing.GetPublicCapsules | packages/server/controller/capsule.ts:361-399 | bad parameters fail validation; at most `take` results; public and never a draft; the sealed feed is all sealed |
| Listing.UserPageAt | packages/server/controller/capsule.ts:73-75 | a user page with an explicit take is the response to that window of the sorted matches; a missing skip starts at 0 |
| Listing.PublicPageAt | packages/server/controller/capsule.ts:73-75 | a public page with an explicit take is the response to that window of the sorted matches; a missing skip starts at 0 |
| Listing.RespondAllJoins | packages/server/controller/capsule.ts:384-386 | two responses that succeed concatenate to the response to the concatenated records |
| Listing.RespondAllSplits | packages/server/controller/capsule.ts:384-386 | if the response to concatenated records succeeds, so do the responses to each part |
| Listing.RespondAllDistributes | packages/server/controller/capsule.ts:384-386 | responding to a concatenation succeeds iff both parts do, and is the concatenation of the two responses |
| Listing.RespondedPagesTile | packages/server/controller/capsule.ts:137-142 | the response to a page of take1 + take2 items succeeds iff the responses to the two consecutive pages do, and is their concatenation |
| Listing.UserPagesTile | packages/server/controller/capsule.ts:317-360 | fetching take1 then take2 user capsules from where the first page ended gives, together, exactly the page of take1 + take2 |
| Listing.PublicPagesTile | packages/server/controller/capsule.ts:361-399 | fetching take1 then take2 public capsules from where the first page ended gives, together, exactly the page of take1 + take2 |
| Listing.UserListingItemsOpenById | packages/server/controller/capsule.ts:249-360 | with listing users resolved as `populate` resolves them, every capsule in a user's listing response is, for that user, what fetching a stored capsule by id returns |
| Listing.PublicListingItemsOpenById | packages/server/controller/capsule.ts:249-399 | with listing users resolved as `populate` resolves them, every capsule in a public listing response is, for any viewer, what fetching a stored capsule by id returns |
| Listing.UserResponseStates | packages/server/controller/capsule.ts:328-331 | a response to capsules of the received listing is all opened, and of the draft listing all unsealed |
| Listing.PublicResponseStates | packages/server/controller/capsule.ts:363-372 | a response to public-listing capsules is all public and never a draft, and the sealed feed is all sealed |
| Validation.PasswordIssues | packages/server/lib/validation.ts:6-13 | no issue iff 8–20 UTF-16 code units with an upper, a lower, a digit and one of !@#$%^&*; each issue is present iff its rule fails (the legacy lib/validation.ts states the same rule) |
| Validation.IssuesOf | packages/server/lib/validation.ts:6-13 | from a length and the four class flags: no issue iff all rules hold, and each issue present iff its own rule fails |
| Validation.HasClassExtend | packages/server/lib/validation.ts:10-13 | a prefix one longer has a class iff the shorter prefix or the new character has it |
| Validation.CheckPassword | packages/server/lib/validation.ts:6-13 | the single-pass scan reports exactly the issues of the declarative rule |
| Validation.LongPasswordStaysRejected | packages/server/lib/validation.ts:9 | no extension of an over-long password is accepted |
| Validation.ClassesSurviveAppending | packages/server/lib/validation.ts:10-13 | appending never removes a character class |
| Validation.UsernameIssues | packages/server/lib/validation.ts:15-18 | accepted iff 3–30 UTF-16 code units; at most one issue, too short or too long (the legacy lib/validation.ts states the same rule) |
| Validation.UsernameBoundsOfBmp | packages/server/lib/validation.ts:15-18 | for text without characters beyond U+FFFF the bound is 3–30 characters |
| Validation.UsernameLengthMonotone | packages/server/lib/validation.ts:15-18 | a username rejected while at least 3 units long stays rejected when extended; an accepted one has at most 30 characters |
| Validation.ParseObjectId | packages/server/lib/validation.ts:32-42 | accepts valid id text (converted) or an id object (as is); anything else fails validation |
| Validation.ObjectIdTextRoundTrip | packages/server/lib/validation.ts:32-42 | an id's text parses back to that id |
| Validation.MultipartFormBoolean | packages/server/lib/validation.ts:44-47 | true exactly for the string "true"; non-strings are false |
| Validation.OptionalBoolean | packages/server/lib/validation.ts:44-47 | absent stays absent; otherwise as the multipart boolean |
| Validation.NonStringTrueIsFalse | packages/server/lib/validation.ts:44-47 | a real boolean true is read as false |
| Validation.ParseObjectIds | packages/server/lib/validation.ts:49-51 | succeeds iff every item is an id, element by element |
| Validation.MultipartFormObjectIdArray | packages/server/lib/validation.ts:49-63 | a string is JSON-decoded first, and unparseable JSON is an unexpected error; the result is a non-empty id array |
| Validation.OptionalObjectIdArray | packages/server/lib/validation.ts:49-63 | absent stays absent; otherwise as the array schema |
| Validation.ObjectIdArrayRoundTrip | packages/server/lib/validation.ts:49-63 | the JSON text of a non-empty id list decodes back to that list |
| Validation.Validate | packages/server/lib/validation.ts:65-80 | no schema gives no value; otherwise the schema's verdict, with its error |
| Validation.ValidateIdParam | packages/server/lib/validation.ts:65-80 | validating the text of a well-formed id against the id schema gives back that id |
| Validation.ValidateRejectsBadId | packages/server/lib/validation.ts:65-80 | text that is not a valid id fails validation |
| Actions.Get | packages/validation/src/actions.ts:13-21 | a key's value comes from an entry with that key, and a missing key is undefined |
| Actions.StringAtLeast | packages/validation/src/actions.ts:15-16 | a string of at least n UTF-16 code units is accepted unchanged, otherwise validation fails; for n ≤ 1 that is at least n characters |
| Actions.Optional | packages/validation/src/actions.ts:15-20 | undefined passes as absent; otherwise the inner schema decides |
| Actions.StringWhere | packages/validation/src/actions.ts:17 | a string passes iff the syntax accepts it |
| Actions.ParseImageMetadata | packages/validation/src/actions.ts:5-9 | accepted iff an object with string name and type and a numeric size, which are copied |
| Actions.ParseRegister | packages/validation/src/actions.ts:13-21 | accepted iff an object whose username, email and password satisfy their rules, whose names are absent or non-empty strings and whose image is absent or valid metadata; every value is the field as given |
| Actions.RegisterNamesOptional | packages/validation/src/actions.ts:15-16 | a registration without first or last name is accepted |
| Actions.ParseLogin | packages/validation/src/actions.ts:25-33 | accepted iff an object with a non-empty password, a username absent or non-empty, an email absent or valid, and at least one of a username and a non-empty email; the values are the fields as given |
| Actions.LoginWithEitherIdentifier | packages/validation/src/actions.ts:31-33 | a username alone or a non-empty email alone is enough |
| Actions.EmptyEmailIsNoIdentifier | packages/validation/src/actions.ts:31-33 | an empty email is falsy, so without a username the login body is rejected |
| Actions.ParseVisibilityField | packages/validation/src/actions.ts:43 | exactly "public" or "private" |
| Actions.FileNames | packages/validation/src/actions.ts:45 | the i-th name is the i-th file's name, and nothing iff some item is not a file |
| Actions.ParseFiles | packages/validation/src/actions.ts:45 | accepted iff a non-empty array of files; the names in item order |
| Actions.ParseIds | packages/validation/src/actions.ts:46-47 | a non-empty array of ids, kept as given |
| Actions.ParseCapsuleAction | packages/validation/src/actions.ts:39-48 | accepted iff an object whose scalar fields and array fields are both accepted, with their values; a title is then non-empty, arrays are non-empty, an open date satisfies the datetime syntax, and an empty receiver list fails |
| Actions.ParseHeading | packages/validation/src/actions.ts:40-44 | accepted iff the title is a non-empty string, the open date absent or a datetime, the countdown flag absent or a boolean, the visibility "public" or "private" and the content absent or a string; each value is the field as given |
| Actions.ParseAttachments | packages/validation/src/actions.ts:45-47 | accepted iff images, collaborators and receivers are each absent or a non-empty array of files or ids; each value is the array as given |
| Actions.MinimalCapsuleAction | packages/validation/src/actions.ts:39-48 | a title and a visibility alone are a valid capsule action |
| Files.PrefixBeforeDash | packages/server/lib/file.ts:11 | the longest dash-free prefix of the name |
| Files.GetFileId | packages/server/lib/file.ts:10-15 | succeeds iff the part before the first dash is valid id text; otherwise validation fails (the legacy lib/file.ts is the same) |
| Files.UploadName | packages/server/api/index.js:308-312 | the stored name is the id text, a dash and the original name |
| Files.PrefixOfUploadName | packages/server/api/index.js:286-290 | splitting an upload name at its first dash gives back the id text |
| Files.PrefixStopsAtDash | packages/server/lib/file.ts:11 | the prefix of head-dash-tail is head when head has no dash |
| Files.FileIdRoundTrip | packages/server/lib/file.ts:10-15 | the id of an upload name is the id it was stored under, whatever the original name |
| Files.DeleteFile | packages/server/lib/file.ts:17-21 | a bad name fails validation; an unknown id is unexpected; success removes exactly that id |
| Files.DeleteUploaded | packages/server/lib/file.ts:17-21 | deleting by upload name removes the id it was stored under |
| FormData.AppendAll | packages/angular-client/src/utils/create-form-data.ts:13-17 | one part per item, in order |
| FormData.EncodeValue | packages/angular-client/src/utils/create-form-data.ts:5-43 | undefined, null and empty arrays produce nothing; file arrays produce a part per file; other arrays, plain objects and ids one JSON part; a file a file part; a date its ISO text; a string itself; a boolean "true" or "false"; an integer its decimal text |
| FormData.CreateFormData | packages/angular-client/src/utils/create-form-data.ts:1-47 | every part is under a key of the input; all-skipped input gives nothing |
| FormData.CreateFormDataIsFlatMap | packages/angular-client/src/utils/create-form-data.ts:4-44 | the form is each property's fields in turn, in property order |
| FormData.CreateFormDataDistributes | packages/angular-client/src/utils/create-form-data.ts:4-44 | encoding is done key by key, so concatenations encode to concatenations |
| FormData.SkippedPropertyIsInvisible | packages/angular-client/src/utils/create-form-data.ts:5-11 | inserting an undefined, null or empty-array property changes nothing |
| FormData.BooleanRoundTrip | packages/angular-client/src/utils/create-form-data.ts:43 | a boolean sent as a form part is read back as the same boolean by the server's multipart boolean reader, which maps the text "true"/"false" |
| FormData.ObjectIdListRoundTrip | packages/angular-client/src/utils/create-form-data.ts:13-25 | a non-empty id list sent as one JSON part is read back as the same ids by the server, which JSON-decodes the part into an id array |
| Router.Run | packages/client/src/core/router.ts:56-59 | the length of the leading run without '/' |
| Router.Compile | packages/client/src/core/router.ts:46-63 | only the empty pattern compiles to nothing, and a leading '/' stays a leading literal |
| Router.CompileWellFormed | packages/client/src/core/router.ts:56-59 | every capture of a compiled pattern is a non-empty, slash-free name followed by '/' or the end |
| Router.CompileRenders | packages/client/src/core/router.ts:46-63 | rendering the compiled tokens gives the pattern back, so compiling loses nothing |
| Router.ParamCompiles | packages/client/src/core/router.ts:56-59 | a colon followed by a non-empty run compiles to one capture named by that run |
| Router.ParamText | packages/client/src/core/router.ts:56-59 | the run after a colon is a segment, ended by '/' or the end of the pattern |
| Router.ParamNames | packages/client/src/core/router.ts:46-63 | one name per parameter |
| Router.MatchPath | packages/client/src/core/router.ts:65-83 | a match gives one non-empty, slash-free capture per parameter, and filling them in rebuilds the path |
| Router.MatchComplete | packages/client/src/core/router.ts:56-59 | every path built from valid captures matches, with exactly those captures |
| Router.CapturesAreSegments | packages/client/src/core/router.ts:56-59 | a parameter captures one non-empty segment without '/' |
| Router.ParamMap | packages/client/src/core/router.ts:65-83 | the map's keys are exactly the parameter names |
| Router.ParamMapLast | packages/client/src/core/router.ts:65-83 | a name bound more than once keeps the capture of its last occurrence |
| Router.HandleFrom | packages/client/src/core/router.ts:65-83 | from a start index: a routed result names a matching route every earlier one misses, with that route's captures bound to its names; not found iff every route misses |
| Router.HandleRoute | packages/client/src/core/router.ts:65-83 | the first matching route, with every earlier route missing, and the parameters that route's pattern binds from the path; not found iff none matches |
| Router.LaterRoutesNeverConsulted | packages/client/src/core/router.ts:65-83 | once a route matches, routes appended after it change nothing |
| Router.Lits | packages/client/src/core/router.ts:46-63 | a literal pattern has no parameters |
| Router.CompileLiteralPrefix | packages/client/src/core/router.ts:46-63 | a colon-free prefix compiles to literals |
| Router.LiteralMatch | packages/client/src/core/router.ts:65-83 | a literal prefix must appear verbatim in the path |
| Router.LiteralRoute | packages/client/src/core/router.ts:65-83 | a pattern without parameters matches only itself |
| Router.ParamRouteShape | packages/client/src/core/router.ts:46-63 | a prefix and one parameter compile to literals then a parameter |
| Router.SingleParam | packages/client/src/core/router.ts:56-59 | a colon and a segment compile to exactly one capture |
| Router.ParamRouteMatches | packages/client/src/core/router.ts:65-83 | such a route matches prefix+segment, capturing the segment under its name |
| Router.SkipMiss | packages/client/src/core/router.ts:65-83 | a non-matching route is passed over |
| Router.TakeMatch | packages/client/src/core/router.ts:65-83 | a matching route is taken |
| Router.EarlyRoutesMiss | packages/client/src/main.ts:6-21 | `/`, `/sent` and `/received` miss every path longer than nine characters |
| Router.CreateAndEditShadowed | packages/client/src/main.ts:6-21 | `/capsule/create` and `/capsule/edit` are routed to the `/capsule/:id` page with that word as the id |
| Router.PassEarlyRoutes | packages/client/src/main.ts:6-21 | those paths skip the first three routes |
| Router.IdRouteCaptures | packages/client/src/main.ts:6-21 | the fourth route captures the word as `id` |
| Router.ParamNamesOfLits | packages/client/src/core/router.ts:46-63 | literals contribute no parameter names |
| Client.TrimSlashes | packages/angular-client/src/app/interceptors/base-url.interceptor.ts:10-13 | drops at most one leading and one trailing slash, and nothing else |
| Client.IsAbsolute | packages/angular-client/src/app/interceptors/base-url.interceptor.ts:6 | true iff the URL starts with "http://" or "https://", in any letter case |
| Client.IsAbsoluteExtends | packages/angular-client/src/app/interceptors/base-url.interceptor.ts:6 | anything appended to an absolute URL leaves it absolute |
| Client.Intercept | packages/angular-client/src/app/interceptors/base-url.interceptor.ts:5-17 | absolute URLs pass untouched; others are joined to the server URL with one slash, with credentials |
| Client.LeadingSlashIrrelevant | packages/angular-client/src/app/interceptors/base-url.interceptor.ts:10-13 | "/x" and "x" are sent to the same place |
| Client.CleanJoin | packages/angular-client/src/app/interceptors/base-url.interceptor.ts:10-14 | clean parts join as server + "/" + path |
| Client.GetImageUrl | packages/client/src/utils/get-image-url.ts:10-24 | capsule images need a name, and an empty one gives ""; otherwise the URL is the base, then `/capsules/<capsule id>/images/<image name>`, `/users/<id>/image` or `/users/me/image` |
| Client.ImageUrlsDistinct | packages/client/src/utils/get-image-url.ts:10-24 | different image names give different URLs |
| Client.CapsuleImageUrlsInjective | packages/client/src/utils/get-image-url.ts:14-18 | for capsule ids without a '/', equal capsule image URLs mean the same capsule and the same image name |
| Client.MeUrlOnlyForMe | packages/client/src/utils/get-image-url.ts:10-24 | a user's image URL equals the own-image URL iff the id is "me" |
| Client.Initials | packages/angular-client/src/app/pipes/initials.pipe.ts:7-10 | two characters, each name's first, iff both names are non-empty |
| Client.InitialsIgnoreTheRest | packages/angular-client/src/app/pipes/initials.pipe.ts:7-10 | only the first letters matter |
| Client.IsSender | packages/client/src/utils/is-sender.ts:1-8 | true iff some sender has that id |
| Client.NoSendersNoSender | packages/client/src/utils/is-sender.ts:1-8 | nobody sends a capsule without senders |
| Client.IsSenderOrderFree | packages/client/src/utils/is-sender.ts:1-8 | the order of senders is irrelevant |
| Client.IsSenderMonotone | packages/client/src/utils/is-sender.ts:1-8 | adding senders keeps a sender a sender |
| Client.GetValidationError | packages/angular-client/src/app/components/input.component.ts:78-88 | null without errors; otherwise the message of the first error key, or undefined when it has none |
| Client.FirstErrorWins | packages/angular-client/src/app/components/input.component.ts:78-88 | only the first error key decides the message |
| Client.ShowError | packages/angular-client/src/app/components/input.component.ts:64-66 | shown iff there is a non-empty message and the input is dirty or touched |
| Client.ErrorText | packages/angular-client/src/app/components/input.component.ts:58 | the input's error is the looked-up message, and null when there is none |
| Client.NoErrorsShowNothing | packages/angular-client/src/app/components/input.component.ts:64-88 | an input without validation errors never shows one |
| Client.PristineShowsNothing | packages/angular-client/src/app/components/input.component.ts:64-66 | an input neither dirty nor touched shows no error |
| Client.ShowErrorMonotone | packages/angular-client/src/app/components/input.component.ts:64-66 | a shown error stays shown once the input becomes dirty or touched |
| Client.ShownErrorIsRegistered | packages/angular-client/src/app/components/input.component.ts:64-88 | a shown error is the non-empty message registered for the first error key |
| Toasts.Close | packages/angular-client/src/app/services/toast.service.ts:26-29 | removes exactly the toasts with that id; an absent id changes nothing |
| Toasts.Error | packages/angular-client/src/app/services/toast.service.ts:31-48 | appends one error toast, with the alert icon and the warning colour, and keeps the rest |
| Toasts.CloseUndoesError | packages/angular-client/src/app/services/toast.service.ts:26-48 | closing a freshly raised toast restores the previous list |
| Toasts.CloseDistributes | packages/angular-client/src/app/services/toast.service.ts:26-29 | closing works element by element |
| Toasts.CloseIdempotent | packages/angular-client/src/app/services/toast.service.ts:26-29 | closing twice is closing once |
| Toasts.CloseCommutes | packages/angular-client/src/app/services/toast.service.ts:26-29 | closing two ids in either order gives the same list |
| Toasts.FirstError | packages/angular-client/src/app/services/toast.service.spec.ts:16-28 | the first error on an empty list is the only toast, with the given message |
| Editor.StepControls | packages/angular-client/src/app/services/capsule-editor.service.ts:21-34 | every known step has at least one control, and only known steps have any |
| Editor.LastSegment | packages/angular-client/src/app/services/capsule-editor.service.ts:192-195 | the slash-free suffix after the last '/' |
| Editor.IndexOf | packages/angular-client/src/app/services/capsule-editor.service.ts:199-200 | the first position of the step, or -1 iff absent |
| Editor.Navigate | packages/angular-client/src/app/services/capsule-editor.service.ts:234-245 | "/capsule", then the id, the mode and the step, each only when truthy and each at its position |
| Editor.ChangeStep | packages/angular-client/src/app/services/capsule-editor.service.ts:197-217 | over a step order: moves iff the neighbouring position exists, stores that step and navigates there |
| Editor.IndexOfDistinct | packages/angular-client/src/app/services/capsule-editor.service.ts:199-200 | in a step order without repeats each name is found at its own position |
| Editor.StepsDistinct | packages/angular-client/src/app/services/capsule-editor.service.ts:21-34 | the wizard's four step names are distinct |
| Editor.ForwardThenBack | packages/angular-client/src/app/services/capsule-editor.service.ts:197-217 | in any step order without repeats, going forward then back returns to the same step and route |
| Editor.LastStepStops | packages/angular-client/src/app/services/capsule-editor.service.ts:205-213 | the last step has no successor |
| Editor.FirstStepStops | packages/angular-client/src/app/services/capsule-editor.service.ts:208-213 | the first step has no predecessor |
| Editor.UnknownStepStays | packages/angular-client/src/app/services/capsule-editor.service.ts:208-213 | a URL naming no step cannot go back |
| Editor.UnknownStepStartsOver | packages/angular-client/src/app/services/capsule-editor.service.ts:199-216 | going forward from a URL naming no step lands on the first step |
| Editor.BackMoves | packages/angular-client/src/app/services/capsule-editor.service.ts:197-217 | going back succeeds exactly from a step after the first, and stores the step before it |
| Editor.BackFromLater | packages/angular-client/src/app/services/capsule-editor.service.ts:208-216 | from position k ≥ 1 going back stores and navigates to the step at k − 1 |
| Editor.BackFromStart | packages/angular-client/src/app/services/capsule-editor.service.ts:208-213 | from the first step, or a URL naming no step, going back does nothing |
| Editor.ValidateStep | packages/angular-client/src/app/services/capsule-editor.service.ts:130-146 | an unknown step is an error; otherwise valid iff no control is invalid, marking the first invalid one as touched |
| Editor.FirstInvalid | packages/angular-client/src/app/services/capsule-editor.service.ts:133-143 | the first invalid control, or -1 iff none is |
| Editor.Next | packages/angular-client/src/app/services/capsule-editor.service.ts:219-223 | an unknown step is an error; otherwise it moves forward, as the step change does, iff the step validates, and always returns the controls the validation touched |
| Editor.Back | packages/angular-client/src/app/services/capsule-editor.service.ts:225-227 | moves back iff the current step is a known step after the first, to the step before it, navigating to that step |
| Editor.SkipStep | packages/angular-client/src/app/services/capsule-editor.service.ts:247-249 | moves iff the current step is not the last: an unknown step to the first step, a known one to the next, navigating to it |
| Editor.ForwardMoves | packages/angular-client/src/app/services/capsule-editor.service.ts:197-217 | a forward step change moves iff the URL is not at the last step |
| Editor.SkipIsUncheckedNext | packages/angular-client/src/app/services/capsule-editor.service.ts:219-249 | when every control is valid, next and skip agree |
| Editor.CheckOpenDate | packages/angular-client/src/app/services/capsule-editor.service.ts:66-83 | only the "seal" type needs a date; a falsy value is "required"; a truthy one is valid iff it parses to a time strictly after now, and "past" otherwise |
| Editor.OpenDateValidEarlier | packages/angular-client/src/app/services/capsule-editor.service.ts:66-83 | a date valid now was valid at every earlier time |
| Editor.OpenDateValidIsSealed | packages/angular-client/src/app/services/capsule-editor.service.ts:66-83 | a date the editor accepts for sealing gives a capsule that is sealed now, by the server's state rule |
| Editor.DisplayTitle | packages/angular-client/src/app/services/capsule-editor.service.ts:119-128 | never empty: the title when truthy, otherwise "Untitled capsule" |
| Editor.DisplayTitleStable | packages/angular-client/src/app/services/capsule-editor.service.ts:119-128 | feeding the shown title back in shows the same title |
| Editor.DisplayTitleDefault | packages/angular-client/src/app/services/capsule-editor.service.ts:119-128 | the default title is shown iff the title is falsy or is itself the default text |
| Editor.GetFormValues | packages/angular-client/src/app/services/capsule-editor.service.ts:265-276 | empty content and an empty open date become absent; the other fields are copied |
| Editor.GetFormValuesIdempotent | packages/angular-client/src/app/services/capsule-editor.service.ts:265-276 | reading the values of a form filled from read values gives the same values |
| Editor.GetFormValuesKeepsFilledForm | packages/angular-client/src/app/services/capsule-editor.service.ts:265-276 | a form whose content and open date are filled is read back unchanged |

## Left out

- Persistence, HTTP transport, authentication and tokens, logging, GridFS streaming, the Angular and DOM rendering, and `localStorage`. The stored record, the clock, the upload store and the JSON/date functions are parameters instead.
- The user controller, the image upload and download handlers beyond their gates, and the React/Angular components other than those named above. They are outside this core.
- The mutating, same-object aliasing of `onlyDefinedValues`. The model returns a new entry list.
- Mongoose `includes` on possibly populated sender arrays. It is modelled as membership of the user id.
- Regular-expression metacharacters in route patterns. Patterns are treated as literal text apart from `:name` parameters.
- `openDateDiff` is divided by the milliseconds of a day in the pipeline. The division is monotone, so the model compares the undivided difference.
- The coercion of `take` and `skip` from query text to numbers. They arrive as optional integers.
- Ties in the listing sort. MongoDB leaves their order unspecified; the model uses a stable insertion sort.
- The older copy of the handlers in controller/capsule.ts calls a `getState()` method whose definition is not part of this model. It is taken to be the state rule of packages/server/models/capsule.ts, and the model follows the current handlers.
- The editor's `getMode` and `getId` URL regexes. Their results are parameters of `Navigate`.
- Packages/validation/src/partials is not part of this model. The `username`, `password`, `_id`, e-mail and datetime syntaxes are `Syntax` parameters of the action schemas.
- Validation.ParseObjectId: accepts only 24-hex-digit text. The driver's `isValid` also accepts any 12-character string as 12 raw bytes, which is not modelled.
- Files.DeleteFile: the bucket's rejection of an unknown id is modelled as an unexpected (500) error; other storage failures are not modelled.
- Editor.CheckOpenDate: an unparseable date is a `parse` result of none and is reported as a past date, as an invalid `Date` is never in the future.
- Listing.ListCapsules: states a filtered, sorted, paged sub-list, not which page of the full order it is; `Listing.UserPageAt` and `Listing.PublicPageAt` state that for the endpoints.
- Listing.GetUserCapsules: does not restate the per-kind filters for the sent and default listings; they are stated by `Listing.Matches`, `Listing.UserDefaultIsSentOrReceived` and `Listing.UserListingIsViewable`.
- Client.Initials: takes the first character of each name, where JavaScript's `name[0]` takes the first UTF-16 code unit; the two differ only for a name starting beyond U+FFFF.
- Actions.ParseImageMetadata: the size is an integer; JavaScript numbers with a fraction are not modelled.
- FormData.EncodeValue: numbers are integers, so `String(1.5)` is not modelled; an invalid `Date`, whose `toISOString` throws, is not represented.
- Projection.GetCapsuleById: the repository holds two versions of `getCapsuleById`. The model follows the TypeScript controller (packages/server/controller/capsule.ts:249-253), which populates both senders and receivers. The bundled build (packages/server/api/index.js:856-859) populates senders only. Its raw receiver ids then fail the response schema's user objects (packages/validation/src/data.ts:16-22, :30), so that build answers 400 for every viewable capsule that has a receiver; the model does not state this. The membership test follows the bundle's `isSentBy`/`isReceivedBy` (a missing viewer is no member; ids compare by text, packages/server/api/index.js:627-638). The TypeScript `includes` on populated arrays (packages/server/models/capsule.ts:56-62) is a known difference, not a modelled path.
- Projection.ProjectUsers: models `populate` (packages/server/controller/capsule.ts:252-253), which keeps the id order and repeats an id stored twice. The listing's `$lookup` (packages/server/controller/capsule.ts:144-147) instead returns each matching user once, in the users collection's order. Senders and receivers can hold repeated ids, because create and edit store `[userId, ...collaborators]` unchecked (packages/server/controller/capsule.ts:158, :204). The model resolves listing users the `populate` way, so it does not state the listing's order or its collapse of repeated ids.
- Projection.ProjectUsersDistributes: states concatenation for `populate`; `$lookup` does not distribute over a concatenation whose parts share an id, and the model does not state that.
- Projection.ProjectUsersAllPresent: the id order and the repeats hold for `populate` only; a `$lookup` result is not promised in id order.
- Listing.UserListingItemsOpenById: the equality with `getCapsuleById` holds for the model's listing, which resolves users as `populate` does; the real listing can order senders and receivers differently and list a repeated id once.
- Listing.PublicListingItemsOpenById: as for Listing.UserListingItemsOpenById, the equality is up to the order and repeats of senders and receivers.

=== FILE: access.dfy ===
/**
 * Who may see a capsule, and who may fetch one of its images, given its
 * lifecycle state, its visibility and the viewer's relation to it.
 */
module Access {
  import opened Wrappers
  import opened Errors
  import opened ObjectIds
  import opened CapsuleModel

  datatype Decision = Allow | Deny(error: Error)

  /** The viewer is signed in and is one of the capsule's senders. */
  predicate ViewerIsSender(c: Capsule, viewer: Option<UserId>) {
    viewer.Some? && IsSentBy(c, viewer.value)
  }

  /** The viewer is signed in and is one of the capsule's receivers. */
  predicate ViewerIsReceiver(c: Capsule, viewer: Option<UserId>) {
    viewer.Some? && IsReceivedBy(c, viewer.value)
  }

  /** The checks `getCapsuleById` makes, in the order it makes them. */
  function AuthorizeView(c: Capsule, viewer: Option<UserId>, now: Timestamp): (d: Decision)
    ensures d == Allow <==>
      || ViewerIsSender(c, viewer)
      || (StateAt(c.openDate, now) == Sealed && c.visibility.Public? && c.showCountdown)
      || (StateAt(c.openDate, now) == Opened && (c.visibility.Public? || ViewerIsReceiver(c, viewer)))
    ensures d == Deny(Locked) <==>
      StateAt(c.openDate, now) == Sealed && c.visibility.Public? && !c.showCountdown && !ViewerIsSender(c, viewer)
    ensures d.Deny? ==> d.error == Forbidden || d.error == Locked
  {
    var state := StateAt(c.openDate, now);
    if state == Unsealed then
      if !ViewerIsSender(c, viewer) then Deny(Forbidden) else Allow
    else if state == Sealed then
      if c.visibility.Private? && !ViewerIsSender(c, viewer) then Deny(Forbidden)
      else if c.visibility.Public? && !ViewerIsSender(c, viewer) && !c.showCountdown then Deny(Locked)
      else Allow
    else
      if c.visibility.Private? && !ViewerIsSender(c, viewer) && !ViewerIsReceiver(c, viewer)
      then Deny(Forbidden)
      else Allow
  }

  /** The first image with exactly this name (`images.find`). */
  function FindImage(images: seq<Image>, name: string): (r: Option<Image>)
    ensures r.None? <==> forall i :: 0 <= i < |images| ==> images[i].name != name
    ensures r.Some? ==> exists i :: 0 <= i < |images| && images[i] == r.value && r.value.name == name
                                  && forall j :: 0 <= j < i ==> images[j].name != name
  {
    if |images| == 0 then None
    else if images[0].name == name then Some(images[0])
    else
      var rest := FindImage(images[1..], name);
      assert forall i :: 1 <= i < |images| ==> images[i] == images[1..][i - 1];
      if rest.Some? then
        ghost var k :| 0 <= k < |images[1..]| && images[1..][k] == rest.value && rest.value.name == name
                       && forall j :: 0 <= j < k ==> images[1..][j].name != name;
        assert images[k + 1] == rest.value && forall j :: 0 <= j < k + 1 ==> images[j].name != name;
        rest
      else rest
  }

  /** The authorisation switch of `getCapsuleImageByName`. */
  function ImageDecision(c: Capsule, viewer: Option<UserId>, now: Timestamp): (d: Decision)
    ensures d == Allow <==>
      || (StateAt(c.openDate, now) == Unsealed && ViewerIsSender(c, viewer))
      || (StateAt(c.openDate, now) == Opened
          && (c.visibility.Public? || ViewerIsSender(c, viewer) || ViewerIsReceiver(c, viewer)))
    ensures d == Deny(Locked) <==> StateAt(c.openDate, now) == Sealed
    ensures d.Deny? ==> d.error == Forbidden || d.error == Locked
  {
    var state := StateAt(c.openDate, now);
    if state == Unsealed then
      if !ViewerIsSender(c, viewer) then Deny(Forbidden) else Allow
    else if state == Sealed then
      Deny(Locked)
    else
      if c.visibility.Private? && !ViewerIsSender(c, viewer) && !ViewerIsReceiver(c, viewer)
      then Deny(Forbidden)
      else Allow
  }

  /**
   * `getCapsuleImageByName` up to streaming: the image metadata to stream,
   * or the error thrown. The image lookup precedes every authorisation check.
   */
  function GetCapsuleImage(stored: Option<Capsule>, name: string, viewer: Option<UserId>, now: Timestamp)
    : (r: Result<Image, Error>)
    ensures stored.None? ==> r == Failure(NotFound)
    ensures stored.Some? && FindImage(stored.value.images, name).None? ==> r == Failure(NotFound)
    ensures r.Success? ==> r.value.name == name && r.value in stored.value.images
    ensures r.Success? <==>
      stored.Some? && FindImage(stored.value.images, name).Some? && ImageDecision(stored.value, viewer, now) == Allow
    ensures stored.Some? && FindImage(stored.value.images, name).Some? && ImageDecision(stored.value, viewer, now).Deny?
            ==> r == Failure(ImageDecision(stored.value, viewer, now).error)
  {
    if stored.None? then Failure(NotFound)
    else
      var metadata := FindImage(stored.value.images, name);
      if metadata.None? then Failure(NotFound)
      else
        match ImageDecision(stored.value, viewer, now)
        case Allow => Success(metadata.value)
        case Deny(e) => Failure(e)
  }

  /** Image access is never more permissive than viewing the capsule. */
  lemma ImageAllowedImpliesViewAllowed(c: Capsule, viewer: Option<UserId>, now: Timestamp)
    ensures ImageDecision(c, viewer, now) == Allow ==> AuthorizeView(c, viewer, now) == Allow
  {
  }

  /** The two gates disagree only on sealed capsules, where the image gate is the stricter. */
  lemma GatesDifferOnlyWhenSealed(c: Capsule, viewer: Option<UserId>, now: Timestamp)
    ensures ImageDecision(c, viewer, now) != AuthorizeView(c, viewer, now) ==> StateAt(c.openDate, now) == Sealed
  {
  }

  /** A sealed capsule's images are locked for everyone, its senders included. */
  lemma SealedImagesAlwaysLocked(c: Capsule, name: string, viewer: Option<UserId>, now: Timestamp)
    requires StateAt(c.openDate, now) == Sealed
    requires exists i :: 0 <= i < |c.images| && c.images[i].name == name
    ensures GetCapsuleImage(Some(c), name, viewer, now) == Failure(Locked)
  {
  }

  /** A missing image is reported as not found whoever asks, before any authorisation. */
  lemma MissingImageIsNotFound(c: Capsule, name: string, viewer: Option<UserId>, now: Timestamp)
    requires forall i :: 0 <= i < |c.images| ==> c.images[i].name != name
    ensures GetCapsuleImage(Some(c), name, viewer, now) == Failure(NotFound)
  {
  }

  /**
   * 423 means "wait until it opens": it is only ever returned for a sealed
   * capsule, and once that capsule has opened the same public view is allowed.
   */
  lemma LockedResolvesOnOpening(c: Capsule, viewer: Option<UserId>, now: Timestamp, later: Timestamp)
    requires AuthorizeView(c, viewer, now) == Deny(Locked)
    requires c.openDate.Some? && c.openDate.value < later
    ensures AuthorizeView(c, viewer, later) == Allow
  {
  }

  /** 403 on an opened capsule is final: no later time lets the same viewer in. */
  lemma ForbiddenOnOpenedIsFinal(c: Capsule, viewer: Option<UserId>, now: Timestamp, later: Timestamp)
    requires StateAt(c.openDate, now) == Opened
    requires AuthorizeView(c, viewer, now) == Deny(Forbidden)
    requires now <= later
    ensures AuthorizeView(c, viewer, later) == Deny(Forbidden)
  {
    StateMonotoneInTime(c.openDate, now, later);
  }
}

=== FILE: actions.dfy ===
/**
 * The form-action schemas shared by the clients: register, log in, and the
 * capsule editor's values. Bodies arrive as plain objects; unknown keys are
 * dropped. The `username`, `password` and `_id` field schemas and the email
 * and date-time syntaxes are parameters of the model.
 */
module Actions {
  import opened Wrappers
  import opened Errors
  import opened Js
  import opened CapsuleModel

  /** The value under `key` in an object's own entries, `undefined` when absent. */
  function Get(entries: seq<Entry>, key: string): (v: JsValue)
    ensures v != Undefined ==> exists i :: 0 <= i < |entries| && entries[i].key == key && entries[i].value == v
    ensures (forall i :: 0 <= i < |entries| ==> entries[i].key != key) ==> v == Undefined
  {
    if |entries| == 0 then Undefined
    else if entries[0].key == key then entries[0].value
    else
      var v := Get(entries[1..], key);
      assert forall i :: 1 <= i < |entries| ==> entries[i] == entries[1..][i - 1];
      v
  }

  /** `Get` on an object of at most three entries, as a case split on the key. */
  lemma GetOfThree(e: seq<Entry>, key: string)
    requires |e| <= 3
    ensures Get(e, key) == if |e| > 0 && e[0].key == key then e[0].value
                           else if |e| > 1 && e[1].key == key then e[1].value
                           else if |e| > 2 && e[2].key == key then e[2].value
                           else Undefined
  {
    if |e| > 0 && e[0].key != key {
      if |e| > 1 && e[1].key != key {
        assert Get(e, key) == Get(e[1..], key) == Get(e[2..], key);
      } else {
        assert Get(e, key) == Get(e[1..], key);
      }
    }
  }

  /** `z.string().min(n)`: a string whose JavaScript length (UTF-16 units) is at least `n`. */
  function StringAtLeast(v: JsValue, n: nat): (r: Result<string, Error>)
    ensures r.Success? <==> v.Str? && Utf16Length(v.s) >= n
    ensures r.Success? ==> r.value == v.s
    ensures r.Failure? ==> r.error == ValidationFailed
    ensures n <= 1 ==> (r.Success? <==> v.Str? && |v.s| >= n)
  {
    if v.Str? && Utf16Length(v.s) >= n then Success(v.s) else Failure(ValidationFailed)
  }

  /** A string value the syntax accepts. */
  predicate StrWhere(v: JsValue, syntax: string -> bool) {
    v.Str? && syntax(v.s)
  }

  /** An optional field given as a non-empty string, or left out. */
  predicate AbsentOrFilled(v: JsValue) {
    v == Undefined || (v.Str? && v.s != "")
  }

  /** The text of a string value, `None` for anything else. */
  function TextOrNone(v: JsValue): Option<string> {
    if v.Str? then Some(v.s) else None
  }

  /** `schema.optional()`: `undefined` passes as absent, anything else must satisfy the schema. */
  function Optional<T>(v: JsValue, schema: JsValue -> Result<T, Error>): (r: Result<Option<T>, Error>)
    ensures v == Undefined ==> r == Success(None)
    ensures v != Undefined ==> (r.Success? <==> schema(v).Success?)
    ensures v != Undefined && r.Success? ==> r.value == Some(schema(v).value)
  {
    if v == Undefined then Success(None)
    else
      var x :- schema(v);
      Success(Some(x))
  }

  /** `z.string()` narrowed by a syntax check such as `.email()` or `.datetime()`. */
  function StringWhere(v: JsValue, syntax: string -> bool): (r: Result<string, Error>)
    ensures r.Success? <==> v.Str? && syntax(v.s)
    ensures r.Success? ==> r.value == v.s
  {
    if v.Str? && syntax(v.s) then Success(v.s) else Failure(ValidationFailed)
  }

  /** The schemas imported from the shared partials, and the string syntaxes zod decides. */
  datatype Syntax = Syntax(
    username: string -> bool,
    password: string -> bool,
    id: JsValue -> bool,
    email: string -> bool,
    datetime: string -> bool)

  // ---------------------------------------------------------------- register

  datatype RegisterValues = RegisterValues(
    username: string,
    firstName: Option<string>,
    lastName: Option<string>,
    email: string,
    password: string,
    image: Option<Image>)

  /** `imageMetadata`: an object with a string name and type and a numeric size. */
  function ParseImageMetadata(v: JsValue): (r: Result<Image, Error>)
    ensures r.Success? <==> v.Obj? && Get(v.entries, "name").Str? && Get(v.entries, "type").Str?
                            && Get(v.entries, "size").Num?
    ensures r.Success? ==> r.value == Image(Get(v.entries, "name").s, Get(v.entries, "type").s,
                                            Get(v.entries, "size").n)
  {
    if !v.Obj? then Failure(ValidationFailed)
    else
      var name := Get(v.entries, "name");
      var kind := Get(v.entries, "type");
      var size := Get(v.entries, "size");
      if name.Str? && kind.Str? && size.Num? then Success(Image(name.s, kind.s, size.n))
      else Failure(ValidationFailed)
  }

  function NonEmptyString(v: JsValue): Result<string, Error> {
    StringAtLeast(v, 1)
  }

  /**
   * `registerActionSchema`: a username, an email and a password satisfying
   * their rules, optional non-empty names and optional image metadata; the
   * values are the fields as given.
   */
  function ParseRegister(body: JsValue, syn: Syntax): (r: Result<RegisterValues, Error>)
    ensures r.Success? <==>
      && body.Obj?
      && StrWhere(Get(body.entries, "username"), syn.username)
      && AbsentOrFilled(Get(body.entries, "firstName")) && AbsentOrFilled(Get(body.entries, "lastName"))
      && StrWhere(Get(body.entries, "email"), syn.email)
      && StrWhere(Get(body.entries, "password"), syn.password)
      && (Get(body.entries, "image") == Undefined || ParseImageMetadata(Get(body.entries, "image")).Success?)
    ensures r.Success? ==>
      && r.value.username == Get(body.entries, "username").s
      && r.value.firstName == TextOrNone(Get(body.entries, "firstName"))
      && r.value.lastName == TextOrNone(Get(body.entries, "lastName"))
      && r.value.email == Get(body.entries, "email").s
      && r.value.password == Get(body.entries, "password").s
      && r.value.image == (if Get(body.entries, "image") == Undefined then None
                           else Some(ParseImageMetadata(Get(body.entries, "image")).value))
    ensures r.Success? ==> body.Obj?
    ensures r.Success? ==> syn.username(r.value.username) && syn.password(r.value.password)
                           && syn.email(r.value.email)
    ensures r.Success? ==> (r.value.firstName.Some? ==> |r.value.firstName.value| >= 1)
                           && (r.value.lastName.Some? ==> |r.value.lastName.value| >= 1)
    ensures body.Obj? && Get(body.entries, "firstName") == Str("") ==> r.Failure?
    ensures body.Obj? && Get(body.entries, "email") == Undefined ==> r.Failure?
    ensures r.Failure? ==> r.error == ValidationFailed
  {
    if !body.Obj? then Failure(ValidationFailed)
    else
      var e := body.entries;
      var username :- StringWhere(Get(e, "username"), syn.username);
      var firstName :- Optional(Get(e, "firstName"), NonEmptyString);
      var lastName :- Optional(Get(e, "lastName"), NonEmptyString);
      var email :- StringWhere(Get(e, "email"), syn.email);
      var password :- StringWhere(Get(e, "password"), syn.password);
      var image :- Optional(Get(e, "image"), ParseImageMetadata);
      Success(RegisterValues(username, firstName, lastName, email, password, image))
  }

  /** A body whose fields read as the required strings and nothing else registers as given. */
  lemma RegisterRequiredOnly(e: seq<Entry>, username: string, email: string, password: string, syn: Syntax)
    requires syn.username(username) && syn.email(email) && syn.password(password)
    requires Get(e, "username") == Str(username) && Get(e, "email") == Str(email) && Get(e, "password") == Str(password)
    requires Get(e, "firstName") == Undefined && Get(e, "lastName") == Undefined && Get(e, "image") == Undefined
    ensures ParseRegister(Obj(e), syn) == Success(RegisterValues(username, None, None, email, password, None))
  {
  }

  /** The names are optional: a body with only the required fields registers as given. */
  lemma RegisterNamesOptional(username: string, email: string, password: string, syn: Syntax)
    requires syn.username(username) && syn.email(email) && syn.password(password)
    ensures ParseRegister(Obj([Entry("username", Str(username)), Entry("email", Str(email)),
                               Entry("password", Str(password))]), syn)
            == Success(RegisterValues(username, None, None, email, password, None))
  {
    var e := [Entry("username", Str(username)), Entry("email", Str(email)), Entry("password", Str(password))];
    assert "username"[0] != "password"[0];
    GetOfThree(e, "username");
    GetOfThree(e, "email");
    GetOfThree(e, "password");
    GetOfThree(e, "firstName");
    GetOfThree(e, "lastName");
    GetOfThree(e, "image");
    RegisterRequiredOnly(e, username, email, password, syn);
  }

  // ---------------------------------------------------------------- login

  datatype LoginValues = LoginValues(username: Option<string>, email: Option<string>, password: string)

  /**
   * `loginActionSchema`: a non-empty password and at least one of a
   * non-empty username and a valid email; the values are the fields as given.
   * The refinement tests truthiness, so an empty email accepted by the email
   * syntax still does not count as an identifier.
   */
  function ParseLogin(body: JsValue, syn: Syntax): (r: Result<LoginValues, Error>)
    ensures r.Success? <==>
      && body.Obj?
      && AbsentOrFilled(Get(body.entries, "username"))
      && (Get(body.entries, "email") == Undefined || StrWhere(Get(body.entries, "email"), syn.email))
      && Get(body.entries, "password").Str? && Get(body.entries, "password").s != ""
      && (Get(body.entries, "username") != Undefined
          || (Get(body.entries, "email") != Undefined && Get(body.entries, "email") != Str("")))
    ensures r.Success? ==>
      r.value == LoginValues(TextOrNone(Get(body.entries, "username")), TextOrNone(Get(body.entries, "email")),
                             Get(body.entries, "password").s)
    ensures r.Success? ==> |r.value.password| >= 1
    ensures r.Success? ==> r.value.username.Some? || r.value.email.Some?
    ensures r.Success? && r.value.username.Some? ==> |r.value.username.value| >= 1
    ensures r.Success? && r.value.email.Some? ==> syn.email(r.value.email.value)
    ensures body.Obj? && Get(body.entries, "username") == Undefined && Get(body.entries, "email") == Undefined
            ==> r.Failure?
    ensures r.Failure? ==> r.error == ValidationFailed
  {
    if !body.Obj? then Failure(ValidationFailed)
    else
      var e := body.entries;
      var username :- Optional(Get(e, "username"), NonEmptyString);
      var email :- Optional(Get(e, "email"), v => StringWhere(v, syn.email));
      var password :- NonEmptyString(Get(e, "password"));
      if username.None? && (email.None? || email.value == "") then Failure(ValidationFailed)
      else Success(LoginValues(username, email, password))
  }

  /** An empty email is falsy: with no username it is no identifier, whatever the email syntax says. */
  lemma EmptyEmailIsNoIdentifier(e: seq<Entry>, syn: Syntax)
    requires Get(e, "username") == Undefined && Get(e, "email") == Str("")
    ensures ParseLogin(Obj(e), syn).Failure?
  {
  }

  /** A body reading as a username and a password, without an email, logs in by username. */
  lemma LoginByUsername(e: seq<Entry>, username: string, password: string, syn: Syntax)
    requires |username| >= 1 && |password| >= 1
    requires Get(e, "username") == Str(username) && Get(e, "email") == Undefined
    requires Get(e, "password") == Str(password)
    ensures ParseLogin(Obj(e), syn) == Success(LoginValues(Some(username), None, password))
  {
  }

  /** A body reading as an email and a password, without a username, logs in by email. */
  lemma LoginByEmail(e: seq<Entry>, email: string, password: string, syn: Syntax)
    requires syn.email(email) && email != "" && |password| >= 1
    requires Get(e, "username") == Undefined && Get(e, "email") == Str(email)
    requires Get(e, "password") == Str(password)
    ensures ParseLogin(Obj(e), syn) == Success(LoginValues(None, Some(email), password))
  {
  }

  /** Either identifier alone, with a password, is enough to pass the schema. */
  lemma LoginWithEitherIdentifier(username: string, email: string, password: string, syn: Syntax)
    requires |username| >= 1 && |password| >= 1 && syn.email(email) && email != ""
    ensures ParseLogin(Obj([Entry("username", Str(username)), Entry("password", Str(password))]), syn)
            == Success(LoginValues(Some(username), None, password))
    ensures ParseLogin(Obj([Entry("email", Str(email)), Entry("password", Str(password))]), syn)
            == Success(LoginValues(None, Some(email), password))
  {
    assert "username"[0] != "password"[0];
    var e1 := [Entry("username", Str(username)), Entry("password", Str(password))];
    GetOfThree(e1, "username");
    GetOfThree(e1, "email");
    GetOfThree(e1, "password");
    LoginByUsername(e1, username, password, syn);
    var e2 := [Entry("email", Str(email)), Entry("password", Str(password))];
    GetOfThree(e2, "username");
    GetOfThree(e2, "email");
    GetOfThree(e2, "password");
    LoginByEmail(e2, email, password, syn);
  }

  // ---------------------------------------------------------------- capsule action

  datatype CapsuleValues = CapsuleValues(
    title: string,
    openDate: Option<string>,
    showCountdown: Option<bool>,
    visibility: Visibility,
    content: Option<string>,
    images: Option<seq<string>>,
    collaborators: Option<seq<JsValue>>,
    receivers: Option<seq<JsValue>>)

  function ParseBoolean(v: JsValue): Result<bool, Error> {
    if v.Bool? then Success(v.b) else Failure(ValidationFailed)
  }

  function ParseVisibilityField(v: JsValue): (r: Result<Visibility, Error>)
    ensures r.Success? <==> v == Str("public") || v == Str("private")
  {
    if v.Str? && ParseVisibility(v.s).Some? then Success(ParseVisibility(v.s).value)
    else Failure(ValidationFailed)
  }

  /** The names of an array of files, in order; nothing if any item is not a file. */
  function FileNames(items: seq<JsValue>): (r: Option<seq<string>>)
    ensures r.Some? <==> forall i :: 0 <= i < |items| ==> items[i].FileVal?
    ensures r.Some? ==> |r.value| == |items|
    ensures r.Some? ==> forall i :: 0 <= i < |items| ==> r.value[i] == items[i].fileName
  {
    if |items| == 0 then Some([])
    else if !items[0].FileVal? then None
    else
      var rest := FileNames(items[1..]);
      assert forall i :: 1 <= i < |items| ==> items[i] == items[1..][i - 1];
      if rest.None? then None else Some([items[0].fileName] + rest.value)
  }

  /** A non-empty array of files, read as their names in order. */
  function ParseFiles(v: JsValue): (r: Result<seq<string>, Error>)
    ensures r.Success? <==> v.Arr? && |v.items| >= 1 && forall i :: 0 <= i < |v.items| ==> v.items[i].FileVal?
    ensures r.Success? ==> |r.value| == |v.items|
    ensures r.Success? ==> forall i :: 0 <= i < |v.items| ==> r.value[i] == v.items[i].fileName
  {
    if !v.Arr? || |v.items| < 1 then Failure(ValidationFailed)
    else
      var names := FileNames(v.items);
      if names.None? then Failure(ValidationFailed) else Success(names.value)
  }

  /** A non-empty array of values the id schema accepts, kept as given. */
  function ParseIds(v: JsValue, isId: JsValue -> bool): (r: Result<seq<JsValue>, Error>)
    ensures r.Success? <==> v.Arr? && |v.items| >= 1 && forall i :: 0 <= i < |v.items| ==> isId(v.items[i])
    ensures r.Success? ==> r.value == v.items
  {
    if v.Arr? && |v.items| >= 1 && forall i :: 0 <= i < |v.items| ==> isId(v.items[i]) then Success(v.items)
    else Failure(ValidationFailed)
  }

  /** The scalar fields of a capsule action. */
  datatype Heading = Heading(
    title: string,
    openDate: Option<string>,
    showCountdown: Option<bool>,
    visibility: Visibility,
    content: Option<string>)

  /**
   * The scalar fields of `capsuleActionSchema`: a non-empty title, an
   * optional datetime, an optional boolean, a visibility and optional content.
   */
  function ParseHeading(e: seq<Entry>, syn: Syntax): (r: Result<Heading, Error>)
    ensures r.Success? <==>
      && Get(e, "title").Str? && Get(e, "title").s != ""
      && (Get(e, "openDate") == Undefined || StrWhere(Get(e, "openDate"), syn.datetime))
      && (Get(e, "showCountdown") == Undefined || Get(e, "showCountdown").Bool?)
      && (Get(e, "visibility") == Str("public") || Get(e, "visibility") == Str("private"))
      && (Get(e, "content") == Undefined || Get(e, "content").Str?)
    ensures r.Success? ==>
      && r.value.title == Get(e, "title").s
      && r.value.openDate == TextOrNone(Get(e, "openDate"))
      && r.value.showCountdown == (if Get(e, "showCountdown").Bool? then Some(Get(e, "showCountdown").b) else None)
      && VisibilityText(r.value.visibility) == Get(e, "visibility").s
      && r.value.content == TextOrNone(Get(e, "content"))
  {
    var title :- NonEmptyString(Get(e, "title"));
    var openDate :- Optional(Get(e, "openDate"), v => StringWhere(v, syn.datetime));
    var showCountdown :- Optional(Get(e, "showCountdown"), ParseBoolean);
    var visibility :- ParseVisibilityField(Get(e, "visibility"));
    var content :- Optional(Get(e, "content"), v => StringAtLeast(v, 0));
    Success(Heading(title, openDate, showCountdown, visibility, content))
  }

  /** The optional array fields of a capsule action: images, collaborators and receivers. */
  datatype Attachments = Attachments(
    images: Option<seq<string>>,
    collaborators: Option<seq<JsValue>>,
    receivers: Option<seq<JsValue>>)

  /** The array fields of `capsuleActionSchema`, each absent or a non-empty array of its kind. */
  function ParseAttachments(e: seq<Entry>, syn: Syntax): (r: Result<Attachments, Error>)
    ensures r.Success? <==>
      && (Get(e, "images") == Undefined || ParseFiles(Get(e, "images")).Success?)
      && (Get(e, "collaborators") == Undefined || ParseIds(Get(e, "collaborators"), syn.id).Success?)
      && (Get(e, "receivers") == Undefined || ParseIds(Get(e, "receivers"), syn.id).Success?)
    ensures r.Success? ==>
      && r.value.images == (if Get(e, "images") == Undefined then None else Some(ParseFiles(Get(e, "images")).value))
      && r.value.collaborators == (if Get(e, "collaborators") == Undefined then None
                                   else Some(Get(e, "collaborators").items))
      && r.value.receivers == (if Get(e, "receivers") == Undefined then None else Some(Get(e, "receivers").items))
  {
    var images :- Optional(Get(e, "images"), ParseFiles);
    var collaborators :- Optional(Get(e, "collaborators"), v => ParseIds(v, syn.id));
    var receivers :- Optional(Get(e, "receivers"), v => ParseIds(v, syn.id));
    Success(Attachments(images, collaborators, receivers))
  }

  /**
   * `capsuleActionSchema`: the scalar fields and the array fields both
   * accepted, the values being theirs.
   */
  function ParseCapsuleAction(body: JsValue, syn: Syntax): (r: Result<CapsuleValues, Error>)
    ensures r.Success? <==>
      body.Obj? && ParseHeading(body.entries, syn).Success? && ParseAttachments(body.entries, syn).Success?
    ensures r.Success? ==>
      && var h := ParseHeading(body.entries, syn).value;
      && var a := ParseAttachments(body.entries, syn).value;
      && r.value == CapsuleValues(h.title, h.openDate, h.showCountdown, h.visibility, h.content,
                                  a.images, a.collaborators, a.receivers)
    ensures r.Success? ==> |r.value.title| >= 1
    ensures r.Success? ==> body.Obj? && ParseVisibilityField(Get(body.entries, "visibility")).Success?
    ensures r.Success? && r.value.images.Some? ==> |r.value.images.value| >= 1
    ensures r.Success? && r.value.collaborators.Some? ==> |r.value.collaborators.value| >= 1
    ensures r.Success? && r.value.receivers.Some? ==> |r.value.receivers.value| >= 1
    ensures r.Success? && r.value.openDate.Some? ==> syn.datetime(r.value.openDate.value)
    ensures body.Obj? && Get(body.entries, "receivers") == Arr([]) ==> r.Failure?
  {
    if !body.Obj? then Failure(ValidationFailed)
    else
      var e := body.entries;
      var h :- ParseHeading(e, syn);
      var a :- ParseAttachments(e, syn);
      Success(CapsuleValues(h.title, h.openDate, h.showCountdown, h.visibility, h.content,
                            a.images, a.collaborators, a.receivers))
  }

  /** A body reading as a title and a visibility and nothing else is that minimal capsule action. */
  lemma CapsuleActionFields(e: seq<Entry>, title: string, v: Visibility, syn: Syntax)
    requires |title| >= 1
    requires Get(e, "title") == Str(title) && Get(e, "visibility") == Str(VisibilityText(v))
    requires Get(e, "openDate") == Undefined && Get(e, "showCountdown") == Undefined
    requires Get(e, "content") == Undefined && Get(e, "images") == Undefined
    requires Get(e, "collaborators") == Undefined && Get(e, "receivers") == Undefined
    ensures ParseCapsuleAction(Obj(e), syn) == Success(CapsuleValues(title, None, None, v, None, None, None, None))
  {
    VisibilityRoundTrip(v);
  }

  /** A title and a visibility are all a capsule action needs. */
  lemma MinimalCapsuleAction(title: string, v: Visibility, syn: Syntax)
    requires |title| >= 1
    ensures ParseCapsuleAction(Obj([Entry("title", Str(title)), Entry("visibility", Str(VisibilityText(v)))]), syn)
            == Success(CapsuleValues(title, None, None, v, None, None, None, None))
  {
    var e := [Entry("title", Str(title)), Entry("visibility", Str(VisibilityText(v)))];
    GetOfThree(e, "title");
    GetOfThree(e, "visibility");
    GetOfThree(e, "openDate");
    GetOfThree(e, "showCountdown");
    GetOfThree(e, "content");
    GetOfThree(e, "images");
    GetOfThree(e, "collaborators");
    GetOfThree(e, "receivers");
    CapsuleActionFields(e, title, v, syn);
  }
}

=== FILE: capsule.dfy ===
/**
 * The capsule record and the rules attached to it by its schema: the derived
 * lifecycle state, sender and receiver membership, the save hook that stamps
 * `sealedAt`, and the accepted visibility values.
 */
module CapsuleModel {
  import opened Wrappers
  import opened ObjectIds

  /** Milliseconds since the epoch. */
  type Timestamp = int

  type UserId = ObjectId

  datatype Visibility = Public | Private

  datatype State = Unsealed | Sealed | Opened

  /** An image sub-document: its storage name, MIME type and size in bytes. */
  datatype Image = Image(name: string, mimeType: string, size: int)

  datatype Capsule = Capsule(
    id: ObjectId,
    title: string,
    content: Option<string>,
    images: seq<Image>,
    visibility: Visibility,
    openDate: Option<Timestamp>,
    sealedAt: Option<Timestamp>,
    showCountdown: bool,
    senders: seq<UserId>,
    receivers: seq<UserId>,
    createdAt: Timestamp
  )

  /**
   * The `state` getter as written: three guarded returns tried in order, and
   * `undefined` (None) should none of them apply. The guards are exhaustive,
   * so the fall-through is never reached.
   */
  function StateGetter(openDate: Option<Timestamp>, now: Timestamp): (r: Option<State>)
    ensures r.Some?
    ensures r == Some(Unsealed) <==> openDate.None?
    ensures r == Some(Sealed) <==> openDate.Some? && now <= openDate.value
    ensures r == Some(Opened) <==> openDate.Some? && openDate.value < now
  {
    if openDate.None? then Some(Unsealed)
    else if openDate.value >= now then Some(Sealed)
    else if openDate.value <= now then Some(Opened)
    else None
  }

  /** The lifecycle state of a capsule whose open date is `openDate`, at time `now`. */
  function StateAt(openDate: Option<Timestamp>, now: Timestamp): State {
    StateGetter(openDate, now).value
  }

  /** The value of the first branch of a `$switch` whose case holds; None when none does. */
  function Switch<T>(branches: seq<(bool, T)>): (r: Option<T>)
    ensures r.None? <==> forall i :: 0 <= i < |branches| ==> !branches[i].0
    ensures r.Some? ==> exists i :: 0 <= i < |branches| && branches[i].0 && branches[i].1 == r.value
                                  && forall j :: 0 <= j < i ==> !branches[j].0
  {
    if |branches| == 0 then None
    else if branches[0].0 then Some(branches[0].1)
    else
      var rest := Switch(branches[1..]);
      assert forall i :: 1 <= i < |branches| ==> branches[i] == branches[1..][i - 1];
      if rest.Some? then
        ghost var k :| 0 <= k < |branches[1..]| && branches[1..][k].0 && branches[1..][k].1 == rest.value
                       && forall j :: 0 <= j < k ==> !branches[1..][j].0;
        assert branches[k + 1].0 && forall j :: 0 <= j < k + 1 ==> !branches[j].0;
        rest
      else rest
  }

  /** The `state` field the listing pipeline adds to each record, against `$$NOW`. */
  function PipelineState(openDate: Option<Timestamp>, now: Timestamp): Option<State> {
    Switch([
      (openDate.None?, Unsealed),
      (openDate.Some? && openDate.value >= now, Sealed),
      (openDate.Some? && openDate.value <= now, Opened)
    ])
  }

  /** The aggregation pipeline and the document getter derive the same state. */
  lemma PipelineAgreesWithGetter(openDate: Option<Timestamp>, now: Timestamp)
    ensures PipelineState(openDate, now) == StateGetter(openDate, now)
  {
    var b := [
      (openDate.None?, Unsealed),
      (openDate.Some? && openDate.value >= now, Sealed),
      (openDate.Some? && openDate.value <= now, Opened)
    ];
    if openDate.None? {
      assert b[0].0;
    } else if openDate.value >= now {
      assert !b[0].0 && b[1].0;
    } else {
      assert !b[0].0 && !b[1].0 && b[2].0;
    }
  }

  /** An open date equal to `now` counts as sealed: the `>=` test comes first. */
  lemma TieBelongsToSealed(t: Timestamp)
    ensures StateAt(Some(t), t) == Sealed
  {
  }

  function Rank(s: State): nat {
    match s
    case Unsealed => 0
    case Sealed => 1
    case Opened => 2
  }

  /** Time only moves a capsule forward: a later `now` never gives an earlier state. */
  lemma StateMonotoneInTime(openDate: Option<Timestamp>, now1: Timestamp, now2: Timestamp)
    requires now1 <= now2
    ensures Rank(StateAt(openDate, now1)) <= Rank(StateAt(openDate, now2))
    ensures StateAt(openDate, now1) == Unsealed <==> StateAt(openDate, now2) == Unsealed
  {
  }

  /** `isSentBy`: the user is one of the capsule's senders; neither order nor repeats matter. */
  function IsSentBy(c: Capsule, u: UserId): (b: bool)
    ensures b <==> multiset(c.senders)[u] > 0
  {
    u in c.senders
  }

  /** `isReceivedBy`: the user is one of the capsule's receivers; neither order nor repeats matter. */
  function IsReceivedBy(c: Capsule, u: UserId): (b: bool)
    ensures b <==> multiset(c.receivers)[u] > 0
  {
    u in c.receivers
  }

  /** Reordering the senders changes no one's sender status, and a listed id is always a sender. */
  lemma SenderStatusOfPermutation(c: Capsule, senders: seq<UserId>, u: UserId)
    requires multiset(senders) == multiset(c.senders)
    ensures IsSentBy(c.(senders := senders), u) <==> IsSentBy(c, u)
    ensures forall i :: 0 <= i < |c.senders| ==> IsSentBy(c, c.senders[i])
  {
  }

  /**
   * The bundled `isSentBy` / `isReceivedBy`: false for a missing viewer,
   * otherwise a scan comparing each id's text with the viewer's.
   */
  method ContainsViewer(ids: seq<UserId>, viewer: Option<UserId>) returns (found: bool)
    ensures found <==> viewer.Some? && viewer.value in ids
  {
    if viewer.None? {
      return false;
    }
    found := false;
    var i := 0;
    while i < |ids|
      invariant 0 <= i <= |ids|
      invariant found <==> viewer.value in ids[..i]
    {
      if ToText(ids[i]) == ToText(viewer.value) {
        found := true;
      }
      assert ids[..i + 1] == ids[..i] + [ids[i]];
      i := i + 1;
    }
    assert ids[..i] == ids;
  }

  /**
   * The pre-save hook: when `openDate` was modified by this save, `sealedAt`
   * becomes the save time; otherwise the record is saved as it is.
   */
  function PreSave(c: Capsule, openDateModified: bool, now: Timestamp): (r: Capsule)
    ensures openDateModified ==> r.sealedAt == Some(now)
    ensures !openDateModified ==> r == c
    ensures r.(sealedAt := c.sealedAt) == c
  {
    if openDateModified then c.(sealedAt := Some(now)) else c
  }

  /** The schema's enumeration text of a visibility. */
  function VisibilityText(v: Visibility): string {
    match v
    case Public => "public"
    case Private => "private"
  }

  /** `z.enum(['public', 'private'])` and the schema's `enum`: only those two strings. */
  function ParseVisibility(s: string): (r: Option<Visibility>)
    ensures r.Some? <==> s == "public" || s == "private"
    ensures r.Some? ==> VisibilityText(r.value) == s
  {
    if s == "public" then Some(Public)
    else if s == "private" then Some(Private)
    else None
  }

  lemma VisibilityRoundTrip(v: Visibility)
    ensures ParseVisibility(VisibilityText(v)) == Some(v)
  {
  }
}

=== FILE: client.dfy ===
/**
 * Small client helpers: the base-URL interceptor, image URLs, the initials
 * pipe, sender membership, and the input component's error lookup.
 */
module Client {
  import opened Wrappers

  // ---------------------------------------------------------------- base-URL interceptor

  predicate EqualsIgnoringCase(c: char, lower: char) {
    c == lower || c as int == lower as int - 32
  }

  /** `c` matches the pattern character `p` under a case-insensitive match: ASCII letters in either case, anything else exactly. */
  predicate FoldsTo(c: char, p: char) {
    if 'a' <= p <= 'z' then c == p || c as int == p as int - 32 else c == p
  }

  /** `s` starts with `pattern` under a case-insensitive match. */
  predicate StartsFolded(s: string, pattern: string) {
    |s| >= |pattern| && forall i :: 0 <= i < |pattern| ==> FoldsTo(s[i], pattern[i])
  }

  /**
   * The interceptor's test for an absolute URL: the scheme `http://` or
   * `https://` at the start, its letters in either case.
   */
  function IsAbsolute(url: string): (b: bool)
    ensures b <==> StartsFolded(url, "http://") || StartsFolded(url, "https://")
  {
    |url| >= 4 && EqualsIgnoringCase(url[0], 'h') && EqualsIgnoringCase(url[1], 't')
    && EqualsIgnoringCase(url[2], 't') && EqualsIgnoringCase(url[3], 'p')
    && (var rest := if |url| > 4 && EqualsIgnoringCase(url[4], 's') then url[5..] else url[4..];
        |rest| >= 3 && rest[..3] == "://")
  }

  /** Whatever follows the scheme does not matter. */
  lemma IsAbsoluteExtends(url: string, more: string)
    requires IsAbsolute(url)
    ensures IsAbsolute(url + more)
  {
    assert forall i :: 0 <= i < |url| ==> (url + more)[i] == url[i];
  }

  /**
   * `s.replace(/^\/|\/$/g, '')`: one leading slash goes, then one trailing
   * slash of what remains, so `//x` keeps a slash and `//` becomes empty.
   */
  function TrimSlashes(s: string): (r: string)
    ensures |s| - 2 <= |r| <= |s|
    ensures (|s| == 0 || (s[0] != '/' && s[|s| - 1] != '/')) ==> r == s
    ensures var lead := if |s| > 0 && s[0] == '/' then 1 else 0;
      lead + |r| <= |s| && r == s[lead..lead + |r|]
      && (lead + |r| < |s| ==> lead + |r| == |s| - 1 && s[|s| - 1] == '/')
  {
    var body := if |s| > 0 && s[0] == '/' then s[1..] else s;
    if |body| > 0 && body[|body| - 1] == '/' then body[..|body| - 1] else body
  }

  datatype Request = Request(url: string, withCredentials: bool)

  /** `baseUrlInterceptor`: absolute URLs pass untouched, others are joined to the server URL. */
  function Intercept(req: Request, serverUrl: string): (r: Request)
    ensures IsAbsolute(req.url) ==> r == req
    ensures !IsAbsolute(req.url) ==> r.withCredentials
    ensures !IsAbsolute(req.url) ==>
      exists i :: 0 <= i < |r.url| && r.url[i] == '/' && r.url[..i] == TrimSlashes(serverUrl)
                  && r.url[i + 1..] == TrimSlashes(req.url)
  {
    if IsAbsolute(req.url) then req
    else
      var joined := TrimSlashes(serverUrl) + "/" + TrimSlashes(req.url);
      var i := |TrimSlashes(serverUrl)|;
      assert joined[..i] == TrimSlashes(serverUrl) && joined[i] == '/' && joined[i + 1..] == TrimSlashes(req.url);
      Request(joined, true)
  }

  /** A single leading slash on a relative path makes no difference to the joined URL. */
  lemma LeadingSlashIrrelevant(path: string, serverUrl: string, creds: bool)
    requires |path| > 0 && path[0] != '/'
    requires !IsAbsolute(path) && !IsAbsolute("/" + path)
    ensures Intercept(Request("/" + path, creds), serverUrl) == Intercept(Request(path, creds), serverUrl)
  {
    assert ("/" + path)[1..] == path;
  }

  /** Relative paths already free of boundary slashes are joined with exactly one slash. */
  lemma CleanJoin(path: string, serverUrl: string, creds: bool)
    requires |serverUrl| > 0 && serverUrl[0] != '/' && serverUrl[|serverUrl| - 1] != '/'
    requires |path| > 0 && path[0] != '/' && path[|path| - 1] != '/' && !IsAbsolute(path)
    ensures Intercept(Request(path, creds), serverUrl) == Request(serverUrl + "/" + path, true)
  {
  }

  // ---------------------------------------------------------------- image URLs

  datatype ImageTarget =
    | CapsuleImage(capsuleId: string, imageName: Option<string>)
    | UserImage(id: string)
    | MyImage

  /**
   * `getImageUrl`. For a capsule the image name guards the URL with `&&`:
   * an absent name yields `undefined` (`None`) and an empty one yields the
   * empty string itself.
   */
  function GetImageUrl(base: string, target: ImageTarget): (r: Option<string>)
    ensures target.CapsuleImage? && target.imageName.None? ==> r.None?
    ensures target.CapsuleImage? && target.imageName == Some("") ==> r == Some("")
    ensures r.Some? && r.value != "" ==> |r.value| > |base| && r.value[..|base|] == base && r.value[|base|] == '/'
    ensures !target.CapsuleImage? ==> r.Some? && |r.value| >= 6 && r.value[|r.value| - 6..] == "/image"
    ensures target.CapsuleImage? && target.imageName.Some? && target.imageName.value != "" ==>
      r == Some(base + "/capsules/" + target.capsuleId + "/images/" + target.imageName.value)
    ensures target.UserImage? ==> r == Some(base + "/users/" + target.id + "/image")
    ensures target.MyImage? ==> r == Some(base + "/users/me/image")
  {
    match target
    case CapsuleImage(capsuleId, imageName) =>
      if imageName.None? then None
      else if imageName.value == "" then Some("")
      else Some(base + "/capsules/" + capsuleId + "/images/" + imageName.value)
    case UserImage(id) => Some(base + "/users/" + id + "/image")
    case MyImage => Some(base + "/users/me/image")
  }

  /** Different image names of one capsule get different URLs. */
  lemma ImageUrlsDistinct(base: string, capsuleId: string, a: string, b: string)
    requires a != "" && b != "" && a != b
    ensures GetImageUrl(base, CapsuleImage(capsuleId, Some(a))) != GetImageUrl(base, CapsuleImage(capsuleId, Some(b)))
  {
    var prefix := base + "/capsules/" + capsuleId + "/images/";
    var ua := prefix + a;
    var ub := prefix + b;
    assert ua[|prefix|..] == a;
    assert ub[|prefix|..] == b;
  }

  /** No '/' occurs in `s`. */
  predicate Slashless(s: string) {
    forall i :: 0 <= i < |s| ==> s[i] != '/'
  }

  /** A text cut at its first '/' splits one way only. */
  lemma SplitAtFirstSlash(x: string, y: string, x2: string, y2: string)
    requires Slashless(x) && Slashless(x2)
    requires x + "/" + y == x2 + "/" + y2
    ensures x == x2 && y == y2
  {
    var s := x + "/" + y;
    assert forall i :: 0 <= i < |x| ==> s[i] == x[i];
    assert forall i :: 0 <= i < |x2| ==> s[i] == x2[i];
    assert s[|x|] == '/' && s[|x2|] == '/';
    assert |x| == |x2|;
    assert x == s[..|x|] && x2 == (x2 + "/" + y2)[..|x2|];
    assert y == s[|x| + 1..] && y2 == (x2 + "/" + y2)[|x2| + 1..];
  }

  /** Capsule images with slash-free ids get one URL each: the URL names both the capsule and the image. */
  lemma CapsuleImageUrlsInjective(base: string, c1: string, n1: string, c2: string, n2: string)
    requires Slashless(c1) && Slashless(c2) && n1 != "" && n2 != ""
    requires GetImageUrl(base, CapsuleImage(c1, Some(n1))) == GetImageUrl(base, CapsuleImage(c2, Some(n2)))
    ensures c1 == c2 && n1 == n2
  {
    var p := base + "/capsules/";
    var u1 := p + c1 + "/images/" + n1;
    var u2 := p + c2 + "/images/" + n2;
    assert u1 == p + (c1 + "/" + ("images/" + n1));
    assert u2 == p + (c2 + "/" + ("images/" + n2));
    assert u1[|p|..] == c1 + "/" + ("images/" + n1);
    assert u2[|p|..] == c2 + "/" + ("images/" + n2);
    SplitAtFirstSlash(c1, "images/" + n1, c2, "images/" + n2);
    assert n1 == ("images/" + n1)[7..] && n2 == ("images/" + n2)[7..];
  }

  /** Only the literal user id `me` shares its image URL with the signed-in user's. */
  lemma MeUrlOnlyForMe(base: string, id: string)
    ensures GetImageUrl(base, UserImage(id)) == GetImageUrl(base, MyImage) <==> id == "me"
  {
    var p := base + "/users/";
    var u := p + id + "/image";
    var m := p + "me" + "/image";
    assert base + "/users/me/image" == m;
    if u == m {
      assert |id| == 2;
      assert u[|p|..|p| + 2] == id;
      assert m[|p|..|p| + 2] == "me";
    }
  }

  // ---------------------------------------------------------------- initials

  /** `InitialsPipe.transform`: both names must be present and non-empty. */
  function Initials(firstName: Option<string>, lastName: Option<string>): (r: Option<string>)
    ensures r.Some? <==> firstName.Some? && firstName.value != "" && lastName.Some? && lastName.value != ""
    ensures r.Some? ==> |r.value| == 2 && r.value[0] == firstName.value[0] && r.value[1] == lastName.value[0]
  {
    if firstName.None? || firstName.value == "" || lastName.None? || lastName.value == "" then None
    else Some([firstName.value[0], lastName.value[0]])
  }

  /** Only the first characters matter, and they are kept exactly, case included. */
  lemma InitialsIgnoreTheRest(f: string, l: string, f2: string, l2: string)
    requires |f| > 0 && |l| > 0 && |f2| > 0 && |l2| > 0 && f[0] == f2[0] && l[0] == l2[0]
    ensures Initials(Some(f), Some(l)) == Initials(Some(f2), Some(l2))
  {
  }

  // ---------------------------------------------------------------- sender membership

  /** Whether some sender in the list has exactly the given id. */
  function IsSender(userId: string, senders: seq<string>): (b: bool)
    ensures b <==> exists i :: 0 <= i < |senders| && senders[i] == userId
  {
    if |senders| == 0 then false
    else
      assert forall i :: 1 <= i < |senders| ==> senders[i] == senders[1..][i - 1];
      senders[0] == userId || IsSender(userId, senders[1..])
  }

  lemma NoSendersNoSender(userId: string)
    ensures !IsSender(userId, [])
  {
  }

  /** The answer depends only on which ids are present, not on their order or multiplicity. */
  lemma IsSenderOrderFree(userId: string, a: seq<string>, b: seq<string>)
    requires multiset(a) == multiset(b)
    ensures IsSender(userId, a) == IsSender(userId, b)
  {
    if IsSender(userId, a) {
      var i :| 0 <= i < |a| && a[i] == userId;
      assert userId in multiset(a);
      assert userId in b;
    }
    if IsSender(userId, b) {
      var i :| 0 <= i < |b| && b[i] == userId;
      assert userId in multiset(b);
      assert userId in a;
    }
  }

  /** Adding senders never revokes sender status. */
  lemma IsSenderMonotone(userId: string, a: seq<string>, more: seq<string>)
    requires IsSender(userId, a)
    ensures IsSender(userId, a + more) && IsSender(userId, more + a)
  {
    var i :| 0 <= i < |a| && a[i] == userId;
    assert (a + more)[i] == userId;
    assert (more + a)[|more| + i] == userId;
  }

  // ---------------------------------------------------------------- input errors

  /** What a property read yields: `null`, `undefined`, or a message. */
  datatype Lookup = NullValue | UndefinedValue | Message(text: string)

  /**
   * `getValidationError(errors, messages)`. `errors` is the control's error
   * keys in enumeration order, `None` when the control has no errors object.
   * With an empty errors object the first key is `undefined`, which a
   * property read turns into the key `"undefined"`.
   */
  function GetValidationError(errors: Option<seq<string>>, messages: map<string, string>): (r: Lookup)
    ensures errors.None? <==> r == NullValue
    ensures errors.Some? && |errors.value| > 0 ==>
      (if errors.value[0] in messages then r == Message(messages[errors.value[0]]) else r == UndefinedValue)
    ensures errors == Some([]) ==> r == (if "undefined" in messages then Message(messages["undefined"]) else UndefinedValue)
  {
    if errors.None? then NullValue
    else
      var key := if |errors.value| > 0 then errors.value[0] else "undefined";
      if key in messages then Message(messages[key]) else UndefinedValue
  }

  /** Only the first error counts: later errors never change the message. */
  lemma FirstErrorWins(first: string, rest1: seq<string>, rest2: seq<string>, messages: map<string, string>)
    ensures GetValidationError(Some([first] + rest1), messages) == GetValidationError(Some([first] + rest2), messages)
  {
  }

  /**
   * `showError`: the error text must be present and non-empty (the empty
   * string is falsy), and the control dirty or touched.
   */
  function ShowError(error: Option<string>, dirty: bool, touched: bool): (b: bool)
    ensures b <==> error.Some? && error.value != "" && (dirty || touched)
  {
    error.Some? && error.value != "" && (dirty || touched)
  }

  /** The text an input receives from a lookup: `null` and `undefined` both count as no message. */
  function ErrorText(l: Lookup): (t: Option<string>)
    ensures t.Some? <==> l.Message?
    ensures t.Some? ==> t.value == l.text
  {
    if l.Message? then Some(l.text) else None
  }

  /** A control without errors never shows one, however much it was edited. */
  lemma NoErrorsShowNothing(messages: map<string, string>, dirty: bool, touched: bool)
    ensures !ShowError(ErrorText(GetValidationError(None, messages)), dirty, touched)
  {
  }

  /** A pristine, untouched control shows no error, whatever it is. */
  lemma PristineShowsNothing(error: Option<string>)
    ensures !ShowError(error, false, false)
  {
  }

  /** Once shown, an error stays shown as the control gets dirtier or touched. */
  lemma ShowErrorMonotone(error: Option<string>, dirty: bool, touched: bool, dirty2: bool, touched2: bool)
    requires ShowError(error, dirty, touched) && (dirty ==> dirty2) && (touched ==> touched2)
    ensures ShowError(error, dirty2, touched2)
  {
  }

  /** A shown error is the non-empty message registered for the control's first error key. */
  lemma ShownErrorIsRegistered(errors: seq<string>, messages: map<string, string>, dirty: bool, touched: bool)
    requires |errors| > 0
    requires ShowError(ErrorText(GetValidationError(Some(errors), messages)), dirty, touched)
    ensures errors[0] in messages && messages[errors[0]] != ""
  {
  }
}

=== FILE: editor.dfy ===
/**
 * The capsule editor wizard: four steps in a fixed order, each owning some
 * form controls. Moving forward is gated by the current step's controls;
 * moving in either direction stores the new step and navigates to
 * `/capsule[/<id>][/<mode>]/<step>`. The current URL's id and mode (found by
 * regular expressions in the source) are inputs.
 */
module Editor {
  import opened Wrappers
  import opened Errors
  import opened CapsuleModel

  /** `Object.keys(steps)`, in declaration order. */
  const Steps: seq<string> := ["content", "visibility", "receivers", "open-date"]

  /** The controls each step validates; `None` for a name that is not a step. */
  function StepControls(step: string): (r: Option<seq<string>>)
    ensures r.Some? <==> step in Steps
    ensures r.Some? ==> |r.value| >= 1
  {
    if step == "content" then Some(["title", "content"])
    else if step == "visibility" then Some(["visibility"])
    else if step == "receivers" then Some(["receivers"])
    else if step == "open-date" then Some(["openDate", "showCountdown"])
    else None
  }

  /** The length of the run of non-slash characters that ends `url`. */
  function SuffixLen(url: string): (n: nat)
    ensures n <= |url|
    ensures forall i :: |url| - n <= i < |url| ==> url[i] != '/'
    ensures n < |url| ==> url[|url| - n - 1] == '/'
  {
    if |url| == 0 || url[|url| - 1] == '/' then 0
    else 1 + SuffixLen(url[..|url| - 1])
  }

  /** `url.split('/')` keeps the text after the last slash as its final segment. */
  function LastSegment(url: string): (r: string)
    ensures |r| <= |url| && r == url[|url| - |r|..]
    ensures forall i :: 0 <= i < |r| ==> r[i] != '/'
    ensures |r| < |url| ==> url[|url| - |r| - 1] == '/'
  {
    url[|url| - SuffixLen(url)..]
  }

  /** `stepPaths.indexOf(step)`: -1 when absent. */
  function IndexOf(s: seq<string>, x: string): (i: int)
    ensures -1 <= i < |s|
    ensures i >= 0 ==> s[i] == x && forall j :: 0 <= j < i ==> s[j] != x
    ensures i == -1 <==> x !in s
  {
    if |s| == 0 then -1
    else if s[0] == x then 0
    else
      var k := IndexOf(s[1..], x);
      if k == -1 then -1 else k + 1
  }

  /** A string is truthy when it is present and not empty. */
  predicate Truthy(s: Option<string>) {
    s.Some? && s.value != ""
  }

  /** `navigate(step)`: `/capsule`, then the id, the mode and the step, each only when truthy. */
  function Navigate(step: Option<string>, mode: Option<string>, id: Option<string>): (r: seq<string>)
    ensures |r| >= 1 && r[0] == "/capsule"
    ensures |r| == 1 + (if Truthy(id) then 1 else 0) + (if Truthy(mode) then 1 else 0) + (if Truthy(step) then 1 else 0)
    ensures Truthy(step) ==> r[|r| - 1] == step.value
    ensures Truthy(id) ==> r[1] == id.value
    ensures Truthy(mode) ==> r[1 + (if Truthy(id) then 1 else 0)] == mode.value
    ensures forall i :: 1 <= i < |r| ==> r[i] != ""
  {
    ["/capsule"]
    + (if Truthy(id) then [id.value] else [])
    + (if Truthy(mode) then [mode.value] else [])
    + (if Truthy(step) then [step.value] else [])
  }

  datatype Direction = Forward | Backward

  /** The position one step away in the given direction. */
  function Neighbour(i: int, dir: Direction): int {
    if dir == Forward then i + 1 else i - 1
  }

  /** The effect of a step change: the step written to storage and the route navigated to. */
  datatype Move = Move(stored: string, route: seq<string>)

  /**
   * `changeStep` over the step order `steps`: the neighbour of the step named
   * by the URL's last segment. An unknown step has index -1, so going forward
   * lands on the first step and going back finds nothing; past either end
   * nothing happens.
   */
  function ChangeStep(steps: seq<string>, url: string, dir: Direction, mode: Option<string>, id: Option<string>): (r: Option<Move>)
    ensures r.Some? <==> 0 <= Neighbour(IndexOf(steps, LastSegment(url)), dir) < |steps|
    ensures r.Some? ==> r.value.stored == steps[Neighbour(IndexOf(steps, LastSegment(url)), dir)]
    ensures r.Some? ==> r.value.route == Navigate(Some(r.value.stored), mode, id)
  {
    var j := Neighbour(IndexOf(steps, LastSegment(url)), dir);
    if 0 <= j < |steps| then
      var step := steps[j];
      Some(Move(step, Navigate(Some(step), mode, id)))
    else None
  }

  /** No step name appears twice. */
  predicate Distinct(steps: seq<string>) {
    forall a, b :: 0 <= a < b < |steps| ==> steps[a] != steps[b]
  }

  /** In a list without repeats each name is found at its own position. */
  lemma {:induction false} IndexOfDistinct(steps: seq<string>, k: int)
    requires Distinct(steps) && 0 <= k < |steps|
    ensures IndexOf(steps, steps[k]) == k
  {
    if k > 0 {
      assert steps[0] != steps[k];
      var tail := steps[1..];
      assert Distinct(tail) by {
        forall a, b | 0 <= a < b < |tail| ensures tail[a] != tail[b] {
          assert tail[a] == steps[a + 1] && tail[b] == steps[b + 1];
        }
      }
      assert tail[k - 1] == steps[k];
      IndexOfDistinct(tail, k - 1);
    }
  }

  /** The wizard's step names are distinct. */
  lemma StepsDistinct()
    ensures Distinct(Steps)
  {
  }

  /** On a known step of a list without repeats, moving forward then back returns to it. */
  lemma ForwardThenBack(steps: seq<string>, url: string, url2: string, mode: Option<string>, id: Option<string>)
    requires Distinct(steps) && LastSegment(url) in steps
    requires ChangeStep(steps, url, Forward, mode, id).Some?
    requires LastSegment(url2) == ChangeStep(steps, url, Forward, mode, id).value.stored
    ensures ChangeStep(steps, url2, Backward, mode, id) == Some(Move(LastSegment(url), Navigate(Some(LastSegment(url)), mode, id)))
  {
    var i := IndexOf(steps, LastSegment(url));
    assert Neighbour(i, Forward) == i + 1;
    IndexOfDistinct(steps, i + 1);
    BackFromLater(steps, url2, mode, id, i + 1);
  }

  /** The last step has no successor. */
  lemma LastStepStops(steps: seq<string>, url: string, mode: Option<string>, id: Option<string>)
    requires Distinct(steps) && |steps| > 0 && LastSegment(url) == steps[|steps| - 1]
    ensures ChangeStep(steps, url, Forward, mode, id).None?
  {
    IndexOfDistinct(steps, |steps| - 1);
    assert Neighbour(|steps| - 1, Forward) == |steps|;
  }

  /** The first step has no predecessor. */
  lemma FirstStepStops(steps: seq<string>, url: string, mode: Option<string>, id: Option<string>)
    requires Distinct(steps) && |steps| > 0 && LastSegment(url) == steps[0]
    ensures ChangeStep(steps, url, Backward, mode, id).None?
  {
    IndexOfDistinct(steps, 0);
    assert Neighbour(0, Backward) == -1;
  }

  /** A URL that names no step cannot go back. */
  lemma UnknownStepStays(steps: seq<string>, url: string, mode: Option<string>, id: Option<string>)
    requires LastSegment(url) !in steps
    ensures ChangeStep(steps, url, Backward, mode, id).None?
  {
    assert IndexOf(steps, LastSegment(url)) == -1;
  }

  /** Going forward from a URL that names no step lands on the first step. */
  lemma UnknownStepStartsOver(steps: seq<string>, url: string, mode: Option<string>, id: Option<string>)
    requires |steps| > 0 && LastSegment(url) !in steps
    ensures ChangeStep(steps, url, Forward, mode, id) == Some(Move(steps[0], Navigate(Some(steps[0]), mode, id)))
  {
    assert IndexOf(steps, LastSegment(url)) == -1;
  }

  /** Before the second position nothing at or after it has the name. */
  lemma NotAfterFirst(steps: seq<string>, s: string)
    requires Distinct(steps) && IndexOf(steps, s) < 1
    ensures forall k :: 1 <= k < |steps| ==> s != steps[k]
  {
    forall k | 1 <= k < |steps| ensures s != steps[k] {
      IndexOfDistinct(steps, k);
    }
  }

  /**
   * `validateStep`: the step's controls are checked in order and the first
   * invalid one is marked touched; `true` iff none is invalid. A URL whose
   * last segment is not a step makes the lookup throw.
   */
  function ValidateStep(url: string, invalid: string -> bool, touched: set<string>): (r: Result<(bool, set<string>), Error>)
    ensures r.Failure? <==> LastSegment(url) !in Steps
    ensures r.Success? ==> var controls := StepControls(LastSegment(url)).value;
      && (r.value.0 <==> forall i :: 0 <= i < |controls| ==> !invalid(controls[i]))
      && (r.value.0 ==> r.value.1 == touched)
      && (!r.value.0 ==> exists i :: 0 <= i < |controls| && invalid(controls[i])
                          && (forall j :: 0 <= j < i ==> !invalid(controls[j]))
                          && r.value.1 == touched + {controls[i]})
  {
    var controls := StepControls(LastSegment(url));
    if controls.None? then Failure(Unexpected)
    else
      var first := FirstInvalid(controls.value, invalid);
      if first == -1 then Success((true, touched))
      else Success((false, touched + {controls.value[first]}))
  }

  /** The index of the first control that is invalid, -1 when there is none (`Array.prototype.some`). */
  function FirstInvalid(controls: seq<string>, invalid: string -> bool): (i: int)
    ensures -1 <= i < |controls|
    ensures i == -1 <==> forall j :: 0 <= j < |controls| ==> !invalid(controls[j])
    ensures i >= 0 ==> invalid(controls[i]) && forall j :: 0 <= j < i ==> !invalid(controls[j])
  {
    if |controls| == 0 then -1
    else if invalid(controls[0]) then 0
    else
      var k := FirstInvalid(controls[1..], invalid);
      assert forall j :: 1 <= j < |controls| ==> controls[j] == controls[1..][j - 1];
      if k == -1 then -1 else k + 1
  }

  /** `next`: validation first, then a forward step if it passed. */
  function Next(url: string, invalid: string -> bool, touched: set<string>, mode: Option<string>, id: Option<string>)
    : (r: Result<(Option<Move>, set<string>), Error>)
    ensures r.Failure? <==> LastSegment(url) !in Steps
    ensures r.Success? && r.value.0.Some? ==> ValidateStep(url, invalid, touched).value.0
    ensures r.Success? && ValidateStep(url, invalid, touched).value.0 ==> r.value.0 == ChangeStep(Steps, url, Forward, mode, id)
    ensures r.Success? && !ValidateStep(url, invalid, touched).value.0 ==> r.value.0.None?
    ensures r.Success? ==> r.value.1 == ValidateStep(url, invalid, touched).value.1
  {
    var v :- ValidateStep(url, invalid, touched);
    if v.0 then Success((ChangeStep(Steps, url, Forward, mode, id), v.1)) else Success((None, v.1))
  }

  /** `back`: never validates. */
  function Back(url: string, mode: Option<string>, id: Option<string>): (r: Option<Move>)
    ensures r.Some? <==> exists k :: 1 <= k < |Steps| && LastSegment(url) == Steps[k]
    ensures r.Some? ==> exists k :: 1 <= k < |Steps| && LastSegment(url) == Steps[k] && r.value.stored == Steps[k - 1]
    ensures r.Some? ==> r.value.route == Navigate(Some(r.value.stored), mode, id)
  {
    StepsDistinct();
    BackMoves(Steps, url, mode, id);
    ChangeStep(Steps, url, Backward, mode, id)
  }

  /** Going back succeeds exactly from a step after the first, and lands on the one before it. */
  lemma BackMoves(steps: seq<string>, url: string, mode: Option<string>, id: Option<string>)
    requires Distinct(steps)
    ensures ChangeStep(steps, url, Backward, mode, id).Some? <==> exists k :: 1 <= k < |steps| && LastSegment(url) == steps[k]
    ensures ChangeStep(steps, url, Backward, mode, id).Some? ==>
      exists k :: 1 <= k < |steps| && LastSegment(url) == steps[k] && ChangeStep(steps, url, Backward, mode, id).value.stored == steps[k - 1]
  {
    if k :| 1 <= k < |steps| && LastSegment(url) == steps[k] {
      IndexOfDistinct(steps, k);
      BackFromLater(steps, url, mode, id, k);
    } else {
      BackFromStart(steps, url, mode, id);
    }
  }

  /** From the step at position `k >= 1`, going back stores the step at `k - 1`. */
  lemma BackFromLater(steps: seq<string>, url: string, mode: Option<string>, id: Option<string>, k: int)
    requires 1 <= k < |steps| && IndexOf(steps, LastSegment(url)) == k
    ensures ChangeStep(steps, url, Backward, mode, id) == Some(Move(steps[k - 1], Navigate(Some(steps[k - 1]), mode, id)))
  {
    assert Neighbour(k, Backward) == k - 1;
  }

  /** From the first step, or from a URL naming no step, there is nothing to go back to. */
  lemma BackFromStart(steps: seq<string>, url: string, mode: Option<string>, id: Option<string>)
    requires forall k :: 1 <= k < |steps| ==> LastSegment(url) != steps[k]
    ensures ChangeStep(steps, url, Backward, mode, id).None?
  {
    var i := IndexOf(steps, LastSegment(url));
    assert i < 1;
    assert Neighbour(i, Backward) == i - 1;
  }

  /** `skipStep`: a forward move with no validation at all; only the last step stays put. */
  function SkipStep(url: string, mode: Option<string>, id: Option<string>): (r: Option<Move>)
    ensures r.Some? <==> LastSegment(url) != Steps[|Steps| - 1]
    ensures LastSegment(url) !in Steps ==> r.Some? && r.value.stored == Steps[0]
    ensures r.Some? && LastSegment(url) in Steps ==>
      exists k :: 0 <= k < |Steps| - 1 && LastSegment(url) == Steps[k] && r.value.stored == Steps[k + 1]
    ensures r.Some? ==> r.value.route == Navigate(Some(r.value.stored), mode, id)
  {
    ForwardMoves(url, mode, id);
    ChangeStep(Steps, url, Forward, mode, id)
  }

  /** Going forward through the wizard fails from the last step only. */
  lemma ForwardMoves(url: string, mode: Option<string>, id: Option<string>)
    ensures ChangeStep(Steps, url, Forward, mode, id).Some? <==> LastSegment(url) != Steps[|Steps| - 1]
  {
    StepsDistinct();
    if LastSegment(url) == Steps[|Steps| - 1] {
      LastStepStops(Steps, url, mode, id);
    } else if LastSegment(url) in Steps {
      var k :| 0 <= k < |Steps| && Steps[k] == LastSegment(url);
      IndexOfDistinct(Steps, k);
      assert Neighbour(k, Forward) == k + 1;
    }
  }

  /** Skipping and a successful `next` go to the same place. */
  lemma SkipIsUncheckedNext(url: string, invalid: string -> bool, touched: set<string>, mode: Option<string>, id: Option<string>)
    requires LastSegment(url) in Steps
    requires forall c :: !invalid(c)
    ensures Next(url, invalid, touched, mode, id) == Success((SkipStep(url, mode, id), touched))
  {
  }

  // ---------------------------------------------------------------- form values

  datatype DateCheck = DateValid | DateRequired | DatePast

  /**
   * The open-date validator. Only a capsule being sealed needs a date: a
   * missing or empty value is `required`, a date that is not strictly in the
   * future is `past`. `parse` is `new Date(value)`, `None` for an invalid date.
   */
  function CheckOpenDate(kind: Option<string>, value: Option<string>, parse: string -> Option<int>, now: int): (r: DateCheck)
    ensures kind != Some("seal") ==> r == DateValid
    ensures kind == Some("seal") && !Truthy(value) ==> r == DateRequired
    ensures kind == Some("seal") && Truthy(value) ==>
      (r == DateValid <==> parse(value.value).Some? && parse(value.value).value > now)
    ensures kind == Some("seal") && Truthy(value) ==> r != DateRequired
  {
    if kind != Some("seal") then DateValid
    else if !Truthy(value) then DateRequired
    else
      var d := parse(value.value);
      if d.Some? && d.value > now then DateValid else DatePast
  }

  /** A date accepted now was accepted at every earlier moment: validity only expires. */
  lemma OpenDateValidEarlier(kind: Option<string>, value: Option<string>, parse: string -> Option<int>,
                             now: int, earlier: int)
    requires earlier <= now && CheckOpenDate(kind, value, parse, now) == DateValid
    ensures CheckOpenDate(kind, value, parse, earlier) == DateValid
  {
  }

  /** An accepted date for a capsule being sealed is one the server's state getter calls sealed at that moment. */
  lemma OpenDateValidIsSealed(value: Option<string>, parse: string -> Option<int>, now: int)
    requires CheckOpenDate(Some("seal"), value, parse, now) == DateValid
    ensures parse(value.value).Some? && StateAt(parse(value.value), now) == Sealed
  {
  }

  const DefaultTitle: string := "Untitled capsule"

  /** The title shown while editing: the typed title, or the default while it is empty. */
  function DisplayTitle(value: Option<string>): (r: string)
    ensures r != ""
    ensures Truthy(value) ==> r == value.value
    ensures !Truthy(value) ==> r == DefaultTitle
  {
    if Truthy(value) then value.value else DefaultTitle
  }

  /** Feeding the shown title back in changes nothing: the title sync is a fixed point after one step. */
  lemma DisplayTitleStable(value: Option<string>)
    ensures DisplayTitle(Some(DisplayTitle(value))) == DisplayTitle(value)
  {
  }

  /** The default shows exactly for an empty title or one that is literally the default text. */
  lemma DisplayTitleDefault(value: Option<string>)
    ensures DisplayTitle(value) == DefaultTitle <==> !Truthy(value) || value.value == DefaultTitle
  {
  }

  datatype FormState = FormState(
    title: Option<string>,
    visibility: Option<string>,
    receivers: Option<seq<string>>,
    openDate: Option<string>,
    showCountdown: Option<bool>,
    content: Option<string>)

  datatype FormValues = FormValues(
    title: Option<string>,
    visibility: Option<string>,
    receivers: Option<seq<string>>,
    openDate: Option<string>,
    showCountdown: Option<bool>,
    content: Option<string>,
    images: Option<seq<string>>)

  /**
   * `getFormValues`: empty content and a missing or empty open date become
   * `undefined`; a present open date is handed on as the text `new Date`
   * reads; a `null` image list becomes `undefined`.
   */
  function GetFormValues(form: FormState, images: Option<seq<string>>): (r: FormValues)
    ensures r.content.Some? <==> Truthy(form.content)
    ensures r.content.Some? ==> r.content == form.content
    ensures r.openDate.Some? <==> Truthy(form.openDate)
    ensures r.openDate.Some? ==> r.openDate == form.openDate
    ensures r.title == form.title && r.visibility == form.visibility && r.receivers == form.receivers
    ensures r.showCountdown == form.showCountdown && r.images == images
  {
    FormValues(form.title, form.visibility, form.receivers,
               if Truthy(form.openDate) then form.openDate else None,
               form.showCountdown,
               if Truthy(form.content) then form.content else None,
               images)
  }

  /** The form state a set of values would restore, without the images the form does not hold. */
  function AsForm(v: FormValues): FormState {
    FormState(v.title, v.visibility, v.receivers, v.openDate, v.showCountdown, v.content)
  }

  /** Collecting the values is a normalisation: collecting again from its own output changes nothing. */
  lemma GetFormValuesIdempotent(form: FormState, images: Option<seq<string>>)
    ensures GetFormValues(AsForm(GetFormValues(form, images)), images) == GetFormValues(form, images)
  {
  }

  /** A form whose content and open date are both filled in is handed on unchanged. */
  lemma GetFormValuesKeepsFilledForm(form: FormState, images: Option<seq<string>>)
    requires Truthy(form.content) && Truthy(form.openDate)
    ensures AsForm(GetFormValues(form, images)) == form
  {
  }
}

=== FILE: errors.dfy ===
/**
 * The error classes the server throws, reduced to what a caller can observe:
 * the kind of failure and the HTTP status it is answered with.
 */
module Errors {

  datatype Error =
    | NotFound          // NotFoundError: the capsule or image does not exist
    | Forbidden         // 403: the viewer will never be allowed to see this
    | Locked            // 423: allowed (or editable) no longer / not yet
    | ValidationFailed  // ValidationError: the input or the record failed its schema
    | Unexpected        // anything else reaching the generic handler (500)

  function Status(e: Error): (code: int)
    ensures 400 <= code < 600
  {
    match e
    case NotFound => 404
    case Forbidden => 403
    case Locked => 423
    case ValidationFailed => 400
    case Unexpected => 500
  }

  /** Distinct error kinds are distinguishable by their status code alone. */
  lemma StatusInjective(a: Error, b: Error)
    ensures Status(a) == Status(b) ==> a == b
  {
  }
}

=== FILE: files.dfy ===
/**
 * Stored image names. An upload is stored as `<fileId>-<originalname>`;
 * `getFileId` reads the id back as the text before the first dash and
 * validates it before building an id, and `deleteFile` derives the id
 * before it asks the bucket to delete anything.
 */
module Files {
  import opened Wrappers
  import opened Errors
  import opened ObjectIds

  /** `name.split('-')[0]`: everything before the first dash, or the whole name. */
  function PrefixBeforeDash(name: string): (r: string)
    ensures |r| <= |name| && r == name[..|r|]
    ensures forall i :: 0 <= i < |r| ==> r[i] != '-'
    ensures |r| < |name| ==> name[|r|] == '-'
  {
    if |name| == 0 || name[0] == '-' then []
    else [name[0]] + PrefixBeforeDash(name[1..])
  }

  /** `getFileId`: the prefix must be a valid id, or a ValidationError is thrown. */
  function GetFileId(name: string): (r: Result<ObjectId, Error>)
    ensures r.Success? <==> IsValidText(PrefixBeforeDash(name))
    ensures r.Failure? ==> r.error == ValidationFailed
    ensures r.Success? ==> WellFormed(r.value) && |ToText(r.value)| == 24
  {
    var id := PrefixBeforeDash(name);
    if IsValidText(id) then Success(FromText(id)) else Failure(ValidationFailed)
  }

  /** The name an upload is stored under: the new file's id, a dash, the original name. */
  function UploadName(id: ObjectId, original: string): (r: string)
    ensures |r| == |ToText(id)| + 1 + |original|
  {
    ToText(id) + "-" + original
  }

  /** The prefix of a stored name is exactly the id, whatever dashes the original name holds. */
  lemma {:induction false} PrefixOfUploadName(id: ObjectId, original: string)
    requires WellFormed(id)
    ensures PrefixBeforeDash(UploadName(id, original)) == ToText(id)
  {
    TextHasNoDash(id);
    PrefixStopsAtDash(ToText(id), original);
  }

  lemma {:induction false} PrefixStopsAtDash(head: string, tail: string)
    requires forall i :: 0 <= i < |head| ==> head[i] != '-'
    ensures PrefixBeforeDash(head + "-" + tail) == head
  {
    if |head| == 0 {
      assert (head + "-" + tail)[0] == '-';
    } else {
      assert (head + "-" + tail)[1..] == head[1..] + "-" + tail;
      PrefixStopsAtDash(head[1..], tail);
    }
  }

  /** Reading the id back from an upload's name gives the id it was stored under. */
  lemma FileIdRoundTrip(id: ObjectId, original: string)
    requires WellFormed(id)
    ensures GetFileId(UploadName(id, original)) == Success(id)
  {
    PrefixOfUploadName(id, original);
    TextRoundTrip(id);
  }

  /**
   * `deleteFile` against the set of stored file ids: the id is derived and
   * validated first, so an invalid name never reaches the bucket; the bucket
   * itself fails when no file has that id.
   */
  function DeleteFile(stored: set<ObjectId>, name: string): (r: Result<set<ObjectId>, Error>)
    ensures GetFileId(name).Failure? ==> r == Failure(ValidationFailed)
    ensures r.Success? ==> GetFileId(name).Success? && GetFileId(name).value in stored
                           && r.value == stored - {GetFileId(name).value}
    ensures GetFileId(name).Success? && GetFileId(name).value !in stored ==> r == Failure(Unexpected)
    ensures r.Success? ==> |r.value| == |stored| - 1
  {
    var id :- GetFileId(name);
    if id in stored then Success(stored - {id}) else Failure(Unexpected)
  }

  /** Deleting an uploaded image removes exactly the file it was stored as. */
  lemma DeleteUploaded(stored: set<ObjectId>, id: ObjectId, original: string)
    requires WellFormed(id) && id in stored
    ensures DeleteFile(stored, UploadName(id, original)) == Success(stored - {id})
  {
    FileIdRoundTrip(id, original);
  }
}

=== FILE: formdata.dfy ===
/**
 * `createFormData`: how the editor's values become multipart form fields,
 * and what the server's decoders read back from them. `JSON.stringify`,
 * `Date.prototype.toISOString` and `String` of a non-primitive value are
 * parameters of the model.
 */
module FormData {
  import opened Wrappers
  import opened Errors
  import opened ObjectIds
  import opened Js
  import opened Validation

  /** One multipart part: text, or a file (named by its file name). */
  datatype Part = TextPart(text: string) | FilePart(fileName: string)

  datatype FormEntry = FormEntry(key: string, part: Part)

  datatype Encoders = Encoders(
    stringify: JsValue -> string,  // JSON.stringify
    iso: int -> string,            // Date.prototype.toISOString
    other: JsValue -> string)      // String(v) of any other value

  /** JavaScript's string conversion: strings as they are, booleans and integers in their literal form. */
  function TextOf(v: JsValue, enc: Encoders): string {
    match v
    case Str(s) => s
    case Bool(b) => BoolText(b)
    case Num(n) => IntText(n)
    case _ => enc.other(v)
  }

  /** `formData.append(key, v)`: a file stays a file, anything else is converted to text. */
  function AppendPart(key: string, v: JsValue, enc: Encoders): FormEntry {
    if v.FileVal? then FormEntry(key, FilePart(v.fileName)) else FormEntry(key, TextPart(TextOf(v, enc)))
  }

  /** Values that produce no field at all. */
  predicate Skipped(v: JsValue) {
    v == Undefined || v == Null || v == Arr([])
  }

  /** One field per item under the same key, in item order, each appended as it is. */
  function AppendAll(key: string, items: seq<JsValue>, enc: Encoders): (r: seq<FormEntry>)
    ensures |r| == |items| && forall i :: 0 <= i < |r| ==> r[i] == AppendPart(key, items[i], enc)
  {
    if |items| == 0 then [] else [AppendPart(key, items[0], enc)] + AppendAll(key, items[1..], enc)
  }

  /**
   * The fields one property contributes: nothing for a skipped value, one
   * field per item for a list of files, and otherwise a single field holding
   * the file, the ISO text of a date, the JSON of a list or object, or the
   * `String` text of a primitive.
   */
  function EncodeValue(key: string, v: JsValue, enc: Encoders): (r: seq<FormEntry>)
    ensures |r| == 0 <==> Skipped(v)
    ensures forall i :: 0 <= i < |r| ==> r[i].key == key
    ensures v.Arr? && |v.items| > 0 && v.items[0].FileVal? ==>
      |r| == |v.items| && forall i :: 0 <= i < |r| ==> r[i] == AppendPart(key, v.items[i], enc)
    ensures !Skipped(v) && !(v.Arr? && v.items[0].FileVal?) ==> |r| == 1
    ensures v.Arr? && |v.items| > 0 && !v.items[0].FileVal? ==> r == [FormEntry(key, TextPart(enc.stringify(v)))]
    ensures v.FileVal? ==> r == [FormEntry(key, FilePart(v.fileName))]
    ensures v.DateVal? ==> r == [FormEntry(key, TextPart(enc.iso(v.ms)))]
    ensures v.Obj? || v.Oid? ==> r == [FormEntry(key, TextPart(enc.stringify(v)))]
    ensures v.Str? ==> r == [FormEntry(key, TextPart(v.s))]
    ensures v.Bool? ==> r == [FormEntry(key, TextPart(if v.b then "true" else "false"))]
    ensures v.Num? ==> r == [FormEntry(key, TextPart(if v.n < 0 then "-" + NatText(-v.n) else NatText(v.n)))]
  {
    if Skipped(v) then []
    else
      match v
      case Arr(items) =>
        if items[0].FileVal? then AppendAll(key, items, enc)
        else [FormEntry(key, TextPart(enc.stringify(v)))]
      case FileVal(name) => [FormEntry(key, FilePart(name))]
      case DateVal(ms) => [FormEntry(key, TextPart(enc.iso(ms)))]
      case Obj(_) => [FormEntry(key, TextPart(enc.stringify(v)))]
      case Oid(_) => [FormEntry(key, TextPart(enc.stringify(v)))]
      case _ => [FormEntry(key, TextPart(TextOf(v, enc)))]
  }

  /** `createFormData(values)`: the properties in key-enumeration order. */
  function CreateFormData(values: seq<Entry>, enc: Encoders): (r: seq<FormEntry>)
    ensures KeysAmong(r, values)
    ensures AllSkipped(values) ==> r == []
  {
    if |values| == 0 then []
    else
      var head := EncodeValue(values[0].key, values[0].value, enc);
      var rest := CreateFormData(values[1..], enc);
      assert forall j :: 1 <= j < |values| ==> values[j] == values[1..][j - 1];
      head + rest
  }

  /** Every field is named after one of the properties. */
  predicate KeysAmong(r: seq<FormEntry>, values: seq<Entry>) {
    forall i :: 0 <= i < |r| ==> exists j :: 0 <= j < |values| && values[j].key == r[i].key
  }

  predicate AllSkipped(values: seq<Entry>) {
    forall j :: 0 <= j < |values| ==> Skipped(values[j].value)
  }

  lemma CreateFormDataCons(values: seq<Entry>, enc: Encoders)
    requires |values| > 0
    ensures CreateFormData(values, enc) == EncodeValue(values[0].key, values[0].value, enc) + CreateFormData(values[1..], enc)
  {
  }

  /** The concatenation of what `f` makes of each element, in order. */
  function FlatMap<T, U>(xs: seq<T>, f: T -> seq<U>): seq<U> {
    if |xs| == 0 then [] else f(xs[0]) + FlatMap(xs[1..], f)
  }

  lemma {:induction false} FlatMapDistributes<T, U>(a: seq<T>, b: seq<T>, f: T -> seq<U>)
    ensures FlatMap(a + b, f) == FlatMap(a, f) + FlatMap(b, f)
  {
    if |a| == 0 {
      assert a + b == b;
    } else {
      assert (a + b)[0] == a[0] && (a + b)[1..] == a[1..] + b;
      FlatMapDistributes(a[1..], b, f);
    }
  }

  /** The form is each property's fields in turn. */
  lemma {:induction false} CreateFormDataIsFlatMap(values: seq<Entry>, enc: Encoders, f: Entry -> seq<FormEntry>)
    requires forall e :: f(e) == EncodeValue(e.key, e.value, enc)
    ensures CreateFormData(values, enc) == FlatMap(values, f)
  {
    if |values| > 0 {
      CreateFormDataCons(values, enc);
      CreateFormDataIsFlatMap(values[1..], enc, f);
    }
  }

  /** Encoding a concatenation of properties encodes each part in turn. */
  lemma CreateFormDataDistributes(a: seq<Entry>, b: seq<Entry>, enc: Encoders)
    ensures CreateFormData(a + b, enc) == CreateFormData(a, enc) + CreateFormData(b, enc)
  {
    var f := (e: Entry) => EncodeValue(e.key, e.value, enc);
    CreateFormDataIsFlatMap(a + b, enc, f);
    CreateFormDataIsFlatMap(a, enc, f);
    CreateFormDataIsFlatMap(b, enc, f);
    FlatMapDistributes(a, b, f);
  }

  /** Skipped properties leave no trace: removing one does not change the form. */
  lemma SkippedPropertyIsInvisible(a: seq<Entry>, e: Entry, b: seq<Entry>, enc: Encoders)
    requires Skipped(e.value)
    ensures CreateFormData(a + [e] + b, enc) == CreateFormData(a + b, enc)
  {
    var none := CreateFormData([e], enc);
    assert none == EncodeValue(e.key, e.value, enc) + CreateFormData([e][1..], enc);
    assert none == [];
    CreateFormDataDistributes(a + [e], b, enc);
    CreateFormDataDistributes(a, [e], enc);
    CreateFormDataDistributes(a, b, enc);
    assert CreateFormData(a + [e], enc) == CreateFormData(a, enc);
  }

  /** The value the server's multipart parser sees for a text part. */
  function Received(p: Part): JsValue {
    match p
    case TextPart(t) => Str(t)
    case FilePart(n) => FileVal(n)
  }

  /** A boolean sent by the client decodes to the same boolean on the server. */
  lemma BooleanRoundTrip(key: string, b: bool, enc: Encoders)
    ensures var r := EncodeValue(key, Bool(b), enc);
      |r| == 1 && MultipartFormBoolean(Received(r[0].part)) == b
  {
  }

  /**
   * A non-empty list of id strings sent by the client decodes to the same
   * ids on the server, given a JSON parser that reads back the printed
   * array of id texts (JSON round-trips an array of strings).
   */
  lemma ObjectIdListRoundTrip(key: string, ids: seq<ObjectId>, enc: Encoders, jsonParse: string -> Option<JsValue>)
    requires |ids| >= 1 && forall i :: 0 <= i < |ids| ==> WellFormed(ids[i])
    requires var v := Arr(seq(|ids|, i requires 0 <= i < |ids| => Str(ToText(ids[i]))));
      jsonParse(enc.stringify(v)) == Some(v)
    ensures var v := Arr(seq(|ids|, i requires 0 <= i < |ids| => Str(ToText(ids[i]))));
      var r := EncodeValue(key, v, enc);
      |r| == 1 && MultipartFormObjectIdArray(Received(r[0].part), jsonParse) == Success(ids)
  {
    var v := Arr(seq(|ids|, i requires 0 <= i < |ids| => Str(ToText(ids[i]))));
    assert jsonParse(enc.stringify(v)) == Some(v);
    ObjectIdArrayRoundTrip(ids, enc.stringify(v), jsonParse);
  }
}

=== FILE: js.dfy ===
/**
 * JavaScript values as they cross the boundaries of the model: request
 * bodies before validation, form values before encoding, and the plain
 * objects handled by the partial-update helper.
 */
module Js {
  import opened ObjectIds

  datatype JsValue =
    | Undefined
    | Null
    | Bool(b: bool)
    | Num(n: int)
    | Str(s: string)
    | Arr(items: seq<JsValue>)
    | Obj(entries: seq<Entry>)
    | FileVal(fileName: string)
    | DateVal(ms: int)
    | Oid(id: ObjectId)

  /** One own property of an object, in key-enumeration order. */
  datatype Entry = Entry(key: string, value: JsValue)

  function DigitChar(d: nat): char
    requires d < 10
  {
    "0123456789"[d]
  }

  /** Decimal text of a natural number, most significant digit first. */
  function NatText(n: nat): (s: string)
    ensures |s| >= 1
    decreases n
  {
    if n < 10 then [DigitChar(n)] else NatText(n / 10) + [DigitChar(n % 10)]
  }

  /** `String(n)` for an integral number. */
  function IntText(n: int): string {
    if n < 0 then "-" + NatText(-n) else NatText(n)
  }

  /** `String(b)` for a boolean. */
  function BoolText(b: bool): (s: string)
    ensures s == "true" <==> b
  {
    if b then "true" else "false"
  }

  /** The number of UTF-16 code units JavaScript stores for `c`: two for a character outside the Basic Multilingual Plane. */
  function CodeUnits(c: char): (n: nat)
    ensures n == 1 <==> (c as int) < 0x1_0000
    ensures 1 <= n <= 2
  {
    if (c as int) < 0x1_0000 then 1 else 2
  }

  /** A string's `length` in JavaScript: its UTF-16 code units, not its characters. */
  function Utf16Length(s: string): (n: nat)
    ensures |s| <= n <= 2 * |s|
    decreases |s|
  {
    if |s| == 0 then 0 else Utf16Length(s[..|s| - 1]) + CodeUnits(s[|s| - 1])
  }

  /** The length of a concatenation is the sum of the lengths. */
  lemma {:induction false} Utf16LengthAppend(a: string, b: string)
    ensures Utf16Length(a + b) == Utf16Length(a) + Utf16Length(b)
    decreases |b|
  {
    if |b| == 0 {
      assert a + b == a;
    } else {
      var b' := b[..|b| - 1];
      assert (a + b)[..|a + b| - 1] == a + b';
      assert (a + b)[|a + b| - 1] == b[|b| - 1];
      Utf16LengthAppend(a, b');
    }
  }

  /** Within the Basic Multilingual Plane, JavaScript's length is the number of characters. */
  lemma {:induction false} Utf16LengthOfBmp(s: string)
    requires forall i :: 0 <= i < |s| ==> (s[i] as int) < 0x1_0000
    ensures Utf16Length(s) == |s|
    decreases |s|
  {
    if |s| > 0 {
      var s' := s[..|s| - 1];
      assert forall i :: 0 <= i < |s'| ==> s'[i] == s[i];
      Utf16LengthOfBmp(s');
    }
  }

  /** Only characters outside the Basic Multilingual Plane make the two lengths differ. */
  lemma {:induction false} Utf16LengthExceeds(s: string)
    requires Utf16Length(s) > |s|
    ensures exists i :: 0 <= i < |s| && (s[i] as int) >= 0x1_0000
  {
    if forall i :: 0 <= i < |s| ==> (s[i] as int) < 0x1_0000 {
      Utf16LengthOfBmp(s);
    }
  }

  /**
   * The characters `String.prototype.trim` strips: ECMAScript's WhiteSpace
   * (tab, vertical tab, form feed, space, no-break space, the byte order mark
   * and the Unicode space separators) and LineTerminator (line feed, carriage
   * return, line and paragraph separators).
   */
  predicate IsWhiteSpace(c: char) {
    || c == '\t' || c == '\n' || c == '\U{000B}' || c == '\U{000C}' || c == '\r' || c == ' '
    || c == '\U{00A0}' || c == '\U{1680}' || '\U{2000}' <= c <= '\U{200A}' || c == '\U{2028}' || c == '\U{2029}'
    || c == '\U{202F}' || c == '\U{205F}' || c == '\U{3000}' || c == '\U{FEFF}'
  }

  /** Every character of `s` is white space (vacuously so for the empty string). */
  predicate Blank(s: string) {
    forall i :: 0 <= i < |s| ==> IsWhiteSpace(s[i])
  }

  /** `s` with its leading white space removed. */
  function TrimStart(s: string): (r: string)
    ensures |r| <= |s| && r == s[|s| - |r|..]
    ensures Blank(s[..|s| - |r|])
    ensures |r| > 0 ==> !IsWhiteSpace(r[0])
    decreases |s|
  {
    if |s| > 0 && IsWhiteSpace(s[0]) then
      var r := TrimStart(s[1..]);
      assert s[..|s| - |r|][1..] == s[1..][..|s[1..]| - |r|];
      r
    else s
  }

  /** `s` with its trailing white space removed. */
  function TrimEnd(s: string): (r: string)
    ensures |r| <= |s| && r == s[..|r|]
    ensures Blank(s[|r|..])
    ensures |r| > 0 ==> !IsWhiteSpace(r[|r| - 1])
    decreases |s|
  {
    if |s| > 0 && IsWhiteSpace(s[|s| - 1]) then
      var r := TrimEnd(s[..|s| - 1]);
      assert s[|r|..][..|s| - 1 - |r|] == s[..|s| - 1][|r|..];
      r
    else s
  }

  /**
   * `s.trim()`: the infix of `s` that is left once the white space on both
   * ends is cut; it is empty exactly when `s` is blank.
   */
  function Trim(s: string): (r: string)
    ensures exists k :: 0 <= k <= |s| - |r| && r == s[k..k + |r|] && Blank(s[..k]) && Blank(s[k + |r|..])
    ensures |r| > 0 ==> !IsWhiteSpace(r[0]) && !IsWhiteSpace(r[|r| - 1])
    ensures |r| == 0 <==> Blank(s)
  {
    var t := TrimStart(s);
    CutsCompose(s, t, TrimEnd(t));
    TrimEnd(t)
  }

  /** Cutting a blank prefix and then a blank suffix leaves an infix with blank margins. */
  lemma CutsCompose(s: string, t: string, r: string)
    requires |t| <= |s| && t == s[|s| - |t|..] && Blank(s[..|s| - |t|])
    requires |t| > 0 ==> !IsWhiteSpace(t[0])
    requires |r| <= |t| && r == t[..|r|] && Blank(t[|r|..])
    requires |r| > 0 ==> !IsWhiteSpace(r[|r| - 1])
    ensures exists k :: 0 <= k <= |s| - |r| && r == s[k..k + |r|] && Blank(s[..k]) && Blank(s[k + |r|..])
    ensures |r| > 0 ==> !IsWhiteSpace(r[0]) && !IsWhiteSpace(r[|r| - 1])
    ensures |r| == 0 <==> Blank(s)
  {
    var k := |s| - |t|;
    var j := k + |r|;
    assert s[j..] == t[|r|..];
    assert s[k..j] == t[..|r|];
    if |r| > 0 {
      assert r[0] == s[k];
    } else {
      assert |t| == 0;
      assert s == s[..k];
    }
  }

  /** A string without white space at either end is its own trim. */
  lemma TrimKeepsTrimmed(s: string)
    requires |s| == 0 || (!IsWhiteSpace(s[0]) && !IsWhiteSpace(s[|s| - 1]))
    ensures Trim(s) == s
  {
  }

  /** Trimming twice is trimming once. */
  lemma TrimIdempotent(s: string)
    ensures Trim(Trim(s)) == Trim(s)
  {
    TrimKeepsTrimmed(Trim(s));
  }

  /** Leading blank text vanishes under TrimStart. */
  lemma {:induction false} TrimStartSkipsBlank(pad: string, x: string)
    requires Blank(pad)
    ensures TrimStart(pad + x) == TrimStart(x)
    decreases |pad|
  {
    if |pad| > 0 {
      assert (pad + x)[1..] == pad[1..] + x;
      TrimStartSkipsBlank(pad[1..], x);
    } else {
      assert pad + x == x;
    }
  }

  /** TrimStart of a text that does not start blank leaves whatever follows it untouched. */
  lemma {:induction false} TrimStartAppend(x: string, y: string)
    requires !Blank(x)
    ensures TrimStart(x + y) == TrimStart(x) + y
    decreases |x|
  {
    if IsWhiteSpace(x[0]) {
      assert (x + y)[1..] == x[1..] + y;
      assert !Blank(x[1..]) by {
        var j :| 0 <= j < |x| && !IsWhiteSpace(x[j]);
        assert x[1..][j - 1] == x[j];
      }
      TrimStartAppend(x[1..], y);
    }
  }

  /** Trailing blank text vanishes under TrimEnd. */
  lemma {:induction false} TrimEndSkipsBlank(x: string, pad: string)
    requires Blank(pad)
    ensures TrimEnd(x + pad) == TrimEnd(x)
    decreases |pad|
  {
    if |pad| > 0 {
      assert (x + pad)[..|x + pad| - 1] == x + pad[..|pad| - 1];
      TrimEndSkipsBlank(x, pad[..|pad| - 1]);
    } else {
      assert x + pad == x;
    }
  }

  /** White space added on either side does not survive the trim. */
  lemma TrimIgnoresPadding(pad1: string, s: string, pad2: string)
    requires Blank(pad1) && Blank(pad2)
    ensures Trim(pad1 + s + pad2) == Trim(s)
  {
    assert pad1 + s + pad2 == pad1 + (s + pad2);
    TrimStartSkipsBlank(pad1, s + pad2);
    if Blank(s) {
      assert Blank(s + pad2);
    } else {
      TrimStartAppend(s, pad2);
      TrimEndSkipsBlank(TrimStart(s), pad2);
    }
  }

}

=== FILE: listing.dfy ===
/**
 * The listing endpoints: an audience filter, the four-key sort and
 * skip/limit paging, followed by the response projection of every record.
 * `now` is the single `$$NOW` of one aggregation.
 */
module Listing {
  import opened Wrappers
  import opened Errors
  import opened ObjectIds
  import opened CapsuleModel
  import opened Access
  import opened Projection

  datatype UserKind = Draft | Sent | Received
  datatype PublicKind = SealedFeed | OpenedFeed

  datatype Audience =
    | UserAudience(user: UserId, kind: Option<UserKind>)
    | PublicAudience(feed: Option<PublicKind>)

  /** `draftFilter`: the user sends it and it is still unsealed. */
  predicate DraftFilter(c: Capsule, u: UserId, now: Timestamp) {
    u in c.senders && StateAt(c.openDate, now) == Unsealed
  }

  /** `sentFilter`: the user sends it, whatever its state. */
  predicate SentFilter(c: Capsule, u: UserId) {
    u in c.senders
  }

  /** `receivedFilter`: the user receives it and it has opened. */
  predicate ReceivedFilter(c: Capsule, u: UserId, now: Timestamp) {
    u in c.receivers && StateAt(c.openDate, now) == Opened
  }

  /** The public `sealedFilter`: public, sealed, and showing its countdown. */
  predicate PublicSealedFilter(c: Capsule, now: Timestamp) {
    c.visibility.Public? && StateAt(c.openDate, now) == Sealed && c.showCountdown
  }

  /** The public `openedFilter`: public and opened. */
  predicate PublicOpenedFilter(c: Capsule, now: Timestamp) {
    c.visibility.Public? && StateAt(c.openDate, now) == Opened
  }

  /**
   * `filters[type || 'default']` of the two listing endpoints. A user's
   * default listing is what the user sends plus what the user receives once
   * opened; a public listing never shows a draft or a private capsule.
   */
  function Matches(a: Audience, c: Capsule, now: Timestamp): (b: bool)
    ensures a.UserAudience? && a.kind.None? ==>
      (b <==> IsSentBy(c, a.user) || (IsReceivedBy(c, a.user) && StateAt(c.openDate, now) == Opened))
    ensures a.UserAudience? && b ==> IsSentBy(c, a.user) || IsReceivedBy(c, a.user)
    ensures a.PublicAudience? && a.feed.None? ==>
      (b <==> c.visibility.Public? && (StateAt(c.openDate, now) == Opened
                                      || (StateAt(c.openDate, now) == Sealed && c.showCountdown)))
    ensures a.PublicAudience? && b ==> c.visibility.Public? && StateAt(c.openDate, now) != Unsealed
  {
    match a
    case UserAudience(u, kind) =>
      (match kind
       case None => SentFilter(c, u) || ReceivedFilter(c, u, now) || DraftFilter(c, u, now)
       case Some(Draft) => DraftFilter(c, u, now)
       case Some(Sent) => SentFilter(c, u)
       case Some(Received) => ReceivedFilter(c, u, now))
    case PublicAudience(feed) =>
      (match feed
       case None => PublicSealedFilter(c, now) || PublicOpenedFilter(c, now)
       case Some(SealedFeed) => PublicSealedFilter(c, now)
       case Some(OpenedFeed) => PublicOpenedFilter(c, now))
  }

  /** The user's default listing: the drafts are already among the sent capsules. */
  lemma UserDefaultIsSentOrReceived(c: Capsule, u: UserId, now: Timestamp)
    ensures Matches(UserAudience(u, None), c, now) <==>
      Matches(UserAudience(u, Some(Sent)), c, now) || Matches(UserAudience(u, Some(Received)), c, now)
    ensures Matches(UserAudience(u, Some(Draft)), c, now) ==> Matches(UserAudience(u, Some(Sent)), c, now)
  {
  }

  /** Every capsule a listing shows to a user is one that user may also open by id. */
  lemma UserListingIsViewable(c: Capsule, u: UserId, kind: Option<UserKind>, now: Timestamp)
    requires Matches(UserAudience(u, kind), c, now)
    ensures AuthorizeView(c, Some(u), now) == Allow
  {
  }

  /** Every capsule on the public feed may be opened by id by anyone, anonymous viewers included. */
  lemma PublicListingIsViewable(c: Capsule, feed: Option<PublicKind>, viewer: Option<UserId>, now: Timestamp)
    requires Matches(PublicAudience(feed), c, now)
    ensures c.visibility.Public? && StateAt(c.openDate, now) != Unsealed
    ensures AuthorizeView(c, viewer, now) == Allow
  {
  }

  /** The records that pass the audience filter, in stored order. */
  function FilterCapsules(all: seq<Capsule>, a: Audience, now: Timestamp): (r: seq<Capsule>)
    ensures forall c :: c in r <==> c in all && Matches(a, c, now)
    ensures forall c :: multiset(r)[c] == if Matches(a, c, now) then multiset(all)[c] else 0
    ensures |r| <= |all|
  {
    if |all| == 0 then []
    else
      var rest := FilterCapsules(all[1..], a, now);
      assert all == [all[0]] + all[1..];
      if Matches(a, all[0], now) then [all[0]] + rest else rest
  }

  /** The filter keeps or drops one record at a time. */
  lemma FilterCapsulesSingle(c: Capsule, a: Audience, now: Timestamp)
    ensures FilterCapsules([c], a, now) == if Matches(a, c, now) then [c] else []
  {
    assert [c][1..] == [];
  }

  /** The filter works record by record, so it keeps the stored order: filtering a concatenation concatenates the filtered parts. */
  lemma {:induction false} FilterCapsulesDistributes(x: seq<Capsule>, y: seq<Capsule>, a: Audience, now: Timestamp)
    ensures FilterCapsules(x + y, a, now) == FilterCapsules(x, a, now) + FilterCapsules(y, a, now)
    decreases |x|
  {
    if |x| == 0 {
      assert x + y == y;
    } else {
      assert (x + y)[0] == x[0];
      assert (x + y)[1..] == x[1..] + y;
      FilterCapsulesDistributes(x[1..], y, a, now);
    }
  }

  /** -1, 0 or 1 as `a` sorts below, level with or above `b`; a missing value sorts lowest. */
  function CompareOpt(a: Option<int>, b: Option<int>): int {
    if a.None? && b.None? then 0
    else if a.None? then -1
    else if b.None? then 1
    else if a.value < b.value then -1
    else if a.value > b.value then 1
    else 0
  }

  function HasOpenDate(c: Capsule): int {
    if c.openDate.Some? then 1 else 0
  }

  /** `openDateDiff`, in milliseconds: time left until opening, missing without an open date. */
  function OpenDateDiff(c: Capsule, now: Timestamp): Option<int> {
    if c.openDate.Some? then Some(c.openDate.value - now) else None
  }

  /**
   * The `$sort` stage: `hasOpenDate` descending, `openDateDiff` ascending,
   * `sealedAt` descending, `createdAt` descending. Negative means `a` first.
   */
  function Compare(a: Capsule, b: Capsule, now: Timestamp): (r: int)
    ensures -1 <= r <= 1
    ensures r == 0 <==> a.openDate == b.openDate && a.sealedAt == b.sealedAt && a.createdAt == b.createdAt
  {
    if HasOpenDate(a) != HasOpenDate(b) then (if HasOpenDate(a) > HasOpenDate(b) then -1 else 1)
    else if CompareOpt(OpenDateDiff(a, now), OpenDateDiff(b, now)) != 0 then
      CompareOpt(OpenDateDiff(a, now), OpenDateDiff(b, now))
    else if CompareOpt(a.sealedAt, b.sealedAt) != 0 then -CompareOpt(a.sealedAt, b.sealedAt)
    else if a.createdAt != b.createdAt then (if a.createdAt > b.createdAt then -1 else 1)
    else 0
  }

  predicate NotAfter(a: Capsule, b: Capsule, now: Timestamp) {
    Compare(a, b, now) <= 0
  }

  /**
   * The sort order stated on the stored fields: dated capsules first, then
   * the soonest open date, then the latest seal, then the latest creation.
   * It does not depend on `now`.
   */
  lemma NotAfterMeans(a: Capsule, b: Capsule, now: Timestamp)
    ensures NotAfter(a, b, now) <==>
      if a.openDate.Some? != b.openDate.Some? then a.openDate.Some?
      else if a.openDate != b.openDate then a.openDate.value < b.openDate.value
      else if a.sealedAt != b.sealedAt then CompareOpt(a.sealedAt, b.sealedAt) > 0
      else a.createdAt >= b.createdAt
  {
  }

  lemma CompareAntisymmetric(a: Capsule, b: Capsule, now: Timestamp)
    ensures Compare(a, b, now) == -Compare(b, a, now)
  {
  }

  lemma NotAfterTransitive(a: Capsule, b: Capsule, c: Capsule, now: Timestamp)
    requires NotAfter(a, b, now) && NotAfter(b, c, now)
    ensures NotAfter(a, c, now)
  {
    NotAfterMeans(a, b, now);
    NotAfterMeans(b, c, now);
    NotAfterMeans(a, c, now);
  }

  predicate SortedAt(s: seq<Capsule>, now: Timestamp) {
    forall i, j :: 0 <= i < j < |s| ==> NotAfter(s[i], s[j], now)
  }

  /** `x` sorts no later than any element of `s`. */
  predicate Leads(x: Capsule, s: seq<Capsule>, now: Timestamp) {
    forall j :: 0 <= j < |s| ==> NotAfter(x, s[j], now)
  }

  lemma ConsSorted(x: Capsule, s: seq<Capsule>, now: Timestamp)
    requires SortedAt(s, now) && Leads(x, s, now)
    ensures SortedAt([x] + s, now)
  {
    var r := [x] + s;
    forall i, j | 0 <= i < j < |r| ensures NotAfter(r[i], r[j], now) {
      assert r[j] == s[j - 1];
      if i > 0 { assert r[i] == s[i - 1]; }
    }
  }

  lemma SortedSplit(s: seq<Capsule>, now: Timestamp)
    requires SortedAt(s, now) && |s| > 0
    ensures SortedAt(s[1..], now) && Leads(s[0], s[1..], now)
  {
    forall i, j | 0 <= i < j < |s[1..]| ensures NotAfter(s[1..][i], s[1..][j], now) {
      assert s[1..][i] == s[i + 1] && s[1..][j] == s[j + 1];
    }
    forall j | 0 <= j < |s[1..]| ensures NotAfter(s[0], s[1..][j], now) {
      assert s[1..][j] == s[j + 1];
    }
  }

  /** Something that sorts no later than the head of a sorted listing leads all of it. */
  lemma LeadsByHead(x: Capsule, s: seq<Capsule>, now: Timestamp)
    requires SortedAt(s, now) && |s| > 0 && NotAfter(x, s[0], now)
    ensures Leads(x, s, now)
  {
    forall j | 0 <= j < |s| ensures NotAfter(x, s[j], now) {
      if j > 0 { NotAfterTransitive(x, s[0], s[j], now); }
    }
  }

  /** Leading is a property of the multiset of elements. */
  lemma LeadsPermutation(y: Capsule, s: seq<Capsule>, x: Capsule, t: seq<Capsule>, now: Timestamp)
    requires Leads(y, s, now) && NotAfter(y, x, now)
    requires multiset(t) == multiset(s) + multiset{x}
    ensures Leads(y, t, now)
  {
    forall j | 0 <= j < |t| ensures NotAfter(y, t[j], now) {
      assert t[j] in multiset(t);
      if t[j] != x {
        assert t[j] in multiset(s);
        var k :| 0 <= k < |s| && s[k] == t[j];
      }
    }
  }

  function Insert(x: Capsule, s: seq<Capsule>, now: Timestamp): (r: seq<Capsule>)
    requires SortedAt(s, now)
    ensures SortedAt(r, now)
    ensures multiset(r) == multiset(s) + multiset{x}
  {
    if |s| == 0 then [x]
    else if NotAfter(x, s[0], now) then
      LeadsByHead(x, s, now);
      ConsSorted(x, s, now);
      [x] + s
    else
      CompareAntisymmetric(x, s[0], now);
      SortedSplit(s, now);
      var rest := Insert(x, s[1..], now);
      LeadsPermutation(s[0], s[1..], x, rest, now);
      ConsSorted(s[0], rest, now);
      assert s == [s[0]] + s[1..];
      [s[0]] + rest
  }

  /** An insertion sort by `Compare`: an ordered permutation of its input. */
  function SortCapsules(s: seq<Capsule>, now: Timestamp): (r: seq<Capsule>)
    ensures SortedAt(r, now)
    ensures multiset(r) == multiset(s)
  {
    if |s| == 0 then []
    else
      assert s == [s[0]] + s[1..];
      Insert(s[0], SortCapsules(s[1..], now), now)
  }

  /** In a sorted listing, capsules without an open date come last, and dated ones soonest first. */
  lemma SortedListingOrder(s: seq<Capsule>, now: Timestamp, i: int, j: int)
    requires SortedAt(s, now) && 0 <= i < j < |s|
    ensures s[j].openDate.Some? ==> s[i].openDate.Some?
    ensures s[i].openDate.Some? && s[j].openDate.Some? ==> s[i].openDate.value <= s[j].openDate.value
    ensures s[i].openDate == s[j].openDate && s[i].sealedAt == s[j].sealedAt ==> s[i].createdAt >= s[j].createdAt
  {
    NotAfterMeans(s[i], s[j], now);
  }

  /** The window of `s` that skips `skip` items and keeps at most `take`. */
  function Page(s: seq<Capsule>, skip: nat, take: nat): (r: seq<Capsule>)
    ensures |r| == if skip >= |s| then 0 else if |s| - skip < take then |s| - skip else take
    ensures forall i :: 0 <= i < |r| ==> r[i] == s[skip + i]
  {
    if skip >= |s| then []
    else if |s| - skip < take then s[skip..]
    else s[skip..skip + take]
  }

  /** Two consecutive pages together are the page spanning both. */
  lemma PagesTile(s: seq<Capsule>, skip: nat, take1: nat, take2: nat)
    ensures Page(s, skip, take1) + Page(s, skip + take1, take2) == Page(s, skip, take1 + take2)
  {
    var mid := skip + take1;
    if skip >= |s| {
    } else if mid >= |s| {
      assert Page(s, skip, take1) == s[skip..] == Page(s, skip, take1 + take2);
    } else {
      var end := if |s| - skip < take1 + take2 then |s| else skip + take1 + take2;
      assert Page(s, skip, take1) == s[skip..mid];
      assert Page(s, mid, take2) == s[mid..end];
      assert Page(s, skip, take1 + take2) == s[skip..end];
      assert s[skip..mid] + s[mid..end] == s[skip..end];
    }
  }

  datatype Paging = Paging(skip: nat, take: nat)

  /** The `take`/`skip` query parameters: each must be at least 1 when given; defaults 10 and 0. */
  function ParsePaging(take: Option<int>, skip: Option<int>): (r: Result<Paging, Error>)
    ensures r.Failure? <==> (take.Some? && take.value < 1) || (skip.Some? && skip.value < 1)
    ensures r.Failure? ==> r.error == ValidationFailed
    ensures r.Success? ==> r.value.take == (if take.Some? then take.value else 10) && r.value.take >= 1
    ensures r.Success? ==> r.value.skip == (if skip.Some? then skip.value else 0)
  {
    if (take.Some? && take.value < 1) || (skip.Some? && skip.value < 1) then Failure(ValidationFailed)
    else Success(Paging(if skip.Some? then skip.value else 0, if take.Some? then take.value else 10))
  }

  /** The user endpoint's `type`: `draft`, `sent`, `received`, or absent for the default filter. */
  function ParseUserKind(t: Option<string>): (r: Result<Option<UserKind>, Error>)
    ensures r.Failure? <==> t.Some? && t.value != "draft" && t.value != "sent" && t.value != "received"
    ensures r == Success(None) <==> t.None?
  {
    if t.None? then Success(None)
    else if t.value == "draft" then Success(Some(Draft))
    else if t.value == "sent" then Success(Some(Sent))
    else if t.value == "received" then Success(Some(Received))
    else Failure(ValidationFailed)
  }

  /** The public endpoint's `type`: `sealed`, `opened`, or absent for the default filter. */
  function ParsePublicKind(t: Option<string>): (r: Result<Option<PublicKind>, Error>)
    ensures r.Failure? <==> t.Some? && t.value != "sealed" && t.value != "opened"
    ensures r == Success(None) <==> t.None?
  {
    if t.None? then Success(None)
    else if t.value == "sealed" then Success(Some(SealedFeed))
    else if t.value == "opened" then Success(Some(OpenedFeed))
    else Failure(ValidationFailed)
  }

  lemma PageKeepsOrder(s: seq<Capsule>, skip: nat, take: nat, now: Timestamp)
    requires SortedAt(s, now)
    ensures SortedAt(Page(s, skip, take), now)
  {
    var p := Page(s, skip, take);
    forall i, j | 0 <= i < j < |p| ensures NotAfter(p[i], p[j], now) {
      assert p[i] == s[skip + i] && p[j] == s[skip + j];
    }
  }

  lemma PageWithin(s: seq<Capsule>, skip: nat, take: nat)
    ensures forall c :: c in Page(s, skip, take) ==> c in s
  {
    var p := Page(s, skip, take);
    forall c | c in p ensures c in s {
      var i :| 0 <= i < |p| && p[i] == c;
      assert s[skip + i] == c;
    }
  }

  lemma SortKeepsMembers(s: seq<Capsule>, now: Timestamp)
    ensures forall c :: c in SortCapsules(s, now) <==> c in s
  {
    var r := SortCapsules(s, now);
    assert forall c :: c in r <==> c in multiset(r);
    assert forall c :: c in s <==> c in multiset(s);
  }

  /** Every record the audience sees, in listing order, before paging. */
  function SortedMatches(all: seq<Capsule>, a: Audience, now: Timestamp): seq<Capsule> {
    SortCapsules(FilterCapsules(all, a, now), now)
  }

  /** The records of one listing page: filter, sort, skip, limit. */
  function ListCapsules(all: seq<Capsule>, a: Audience, paging: Paging, now: Timestamp): (r: seq<Capsule>)
    ensures forall c :: c in r ==> c in all && Matches(a, c, now)
    ensures |r| <= paging.take
    ensures SortedAt(r, now)
  {
    var sorted := SortedMatches(all, a, now);
    SortKeepsMembers(FilterCapsules(all, a, now), now);
    PageWithin(sorted, paging.skip, paging.take);
    PageKeepsOrder(sorted, paging.skip, paging.take, now);
    Page(sorted, paging.skip, paging.take)
  }

  /** Paging through the whole listing visits exactly the matching records, each as often as it is stored. */
  lemma FullListingIsPermutationOfMatches(all: seq<Capsule>, a: Audience, now: Timestamp)
    ensures var whole := ListCapsules(all, a, Paging(0, |all|), now);
      multiset(whole) == multiset(FilterCapsules(all, a, now))
  {
    var f := FilterCapsules(all, a, now);
    var sorted := SortedMatches(all, a, now);
    assert |sorted| == |f| by {
      assert |multiset(sorted)| == |multiset(f)|;
    }
    assert Page(sorted, 0, |all|) == sorted;
  }

  /** `capsules.map(filterCapsuleResponse)`: the first record the schema rejects fails the whole response. */
  function RespondAll(records: seq<Capsule>, dir: Directory, now: Timestamp): (r: Result<seq<CapsuleData>, Error>)
    ensures r.Success? <==> forall i :: 0 <= i < |records| ==> FilterCapsuleResponse(records[i], dir, now).Success?
    ensures r.Success? ==> |r.value| == |records|
    ensures r.Success? ==> forall i :: 0 <= i < |records| ==> r.value[i] == FilterCapsuleResponse(records[i], dir, now).value
    ensures r.Failure? ==> r.error == ValidationFailed
  {
    if |records| == 0 then Success([])
    else
      var head := FilterCapsuleResponse(records[0], dir, now);
      if head.Failure? then Failure(head.error)
      else
        var rest := RespondAll(records[1..], dir, now);
        assert forall i :: 1 <= i < |records| ==> records[i] == records[1..][i - 1];
        if rest.Failure? then Failure(rest.error)
        else Success([head.value] + rest.value)
  }

  /** Responding to two runs of records in turn is responding to both at once. */
  lemma RespondAllDistributes(x: seq<Capsule>, y: seq<Capsule>, dir: Directory, now: Timestamp)
    ensures RespondAll(x + y, dir, now).Success? <==> RespondAll(x, dir, now).Success? && RespondAll(y, dir, now).Success?
    ensures RespondAll(x + y, dir, now).Success? ==>
      RespondAll(x + y, dir, now).value == RespondAll(x, dir, now).value + RespondAll(y, dir, now).value
  {
    if RespondAll(x, dir, now).Success? && RespondAll(y, dir, now).Success? {
      RespondAllJoins(x, y, dir, now);
    }
    if RespondAll(x + y, dir, now).Success? {
      RespondAllSplits(x, y, dir, now);
    }
  }

  lemma RespondAllJoins(x: seq<Capsule>, y: seq<Capsule>, dir: Directory, now: Timestamp)
    requires RespondAll(x, dir, now).Success? && RespondAll(y, dir, now).Success?
    ensures RespondAll(x + y, dir, now).Success?
    ensures RespondAll(x + y, dir, now).value == RespondAll(x, dir, now).value + RespondAll(y, dir, now).value
  {
    var xy := x + y;
    var rx, ry := RespondAll(x, dir, now).value, RespondAll(y, dir, now).value;
    forall i | 0 <= i < |xy| ensures FilterCapsuleResponse(xy[i], dir, now).Success? {
      if i < |x| { assert xy[i] == x[i]; } else { assert xy[i] == y[i - |x|]; }
    }
    var l := RespondAll(xy, dir, now).value;
    forall i | 0 <= i < |l| ensures l[i] == (rx + ry)[i] {
      if i < |x| {
        assert xy[i] == x[i] && (rx + ry)[i] == rx[i];
      } else {
        assert xy[i] == y[i - |x|] && (rx + ry)[i] == ry[i - |x|];
      }
    }
    assert l == rx + ry;
  }

  lemma RespondAllSplits(x: seq<Capsule>, y: seq<Capsule>, dir: Directory, now: Timestamp)
    requires RespondAll(x + y, dir, now).Success?
    ensures RespondAll(x, dir, now).Success? && RespondAll(y, dir, now).Success?
  {
    var xy := x + y;
    forall i | 0 <= i < |x| ensures FilterCapsuleResponse(x[i], dir, now).Success? {
      assert xy[i] == x[i];
    }
    forall i | 0 <= i < |y| ensures FilterCapsuleResponse(y[i], dir, now).Success? {
      assert xy[|x| + i] == y[i];
    }
  }

  lemma RespondedFromListing(records: seq<Capsule>, a: Audience, dir: Directory, now: Timestamp)
    requires forall c :: c in records ==> Matches(a, c, now)
    ensures RespondAll(records, dir, now).Success? ==> forall i :: 0 <= i < |records| ==>
      && Matches(a, records[i], now)
      && Tag(RespondAll(records, dir, now).value[i]) == StateAt(records[i].openDate, now)
      && RespondAll(records, dir, now).value[i].visibility == records[i].visibility
  {
    forall i | 0 <= i < |records| ensures Matches(a, records[i], now) {
      assert records[i] in records;
    }
  }

  lemma UserKindText(kind: Option<string>)
    ensures kind == Some("received") && ParseUserKind(kind).Success? ==> ParseUserKind(kind).value == Some(Received)
    ensures kind == Some("draft") && ParseUserKind(kind).Success? ==> ParseUserKind(kind).value == Some(Draft)
  {
  }

  lemma PublicKindText(feed: Option<string>)
    ensures feed == Some("sealed") && ParsePublicKind(feed).Success? ==> ParsePublicKind(feed).value == Some(SealedFeed)
  {
  }

  /** Every response item is of the variant for state `s`. */
  predicate AllTagged(items: seq<CapsuleData>, s: State) {
    forall i :: 0 <= i < |items| ==> Tag(items[i]) == s
  }

  /** The states the response of a user listing reports, by listing kind. */
  lemma UserResponseStates(records: seq<Capsule>, u: UserId, k: Option<UserKind>, dir: Directory, now: Timestamp)
    requires forall c :: c in records ==> Matches(UserAudience(u, k), c, now)
    ensures var r := RespondAll(records, dir, now);
      r.Success? ==>
        && (k == Some(Received) ==> AllTagged(r.value, Opened))
        && (k == Some(Draft) ==> AllTagged(r.value, Unsealed))
  {
    var r := RespondAll(records, dir, now);
    if r.Success? && k.Some? && k.value != Sent {
      var a := UserAudience(u, k);
      RespondedFromListing(records, a, dir, now);
      var s := if k == Some(Received) then Opened else Unsealed;
      forall i | 0 <= i < |r.value| ensures Tag(r.value[i]) == s {
        assert Matches(a, records[i], now);
      }
    }
  }

  /** Every response of a public listing is public and past drafting; the sealed feed is all sealed. */
  lemma PublicResponseStates(records: seq<Capsule>, k: Option<PublicKind>, dir: Directory, now: Timestamp)
    requires forall c :: c in records ==> Matches(PublicAudience(k), c, now)
    ensures var r := RespondAll(records, dir, now);
      r.Success? ==>
        && (forall i :: 0 <= i < |r.value| ==> r.value[i].visibility.Public? && Tag(r.value[i]) != Unsealed)
        && (k == Some(SealedFeed) ==> AllTagged(r.value, Sealed))
  {
    RespondedFromListing(records, PublicAudience(k), dir, now);
  }

  /** The records one page of a listing shows, or nothing when the parameters are rejected. */
  predicate ValidUserQuery(kind: Option<string>, take: Option<int>, skip: Option<int>) {
    ParseUserKind(kind).Success? && ParsePaging(take, skip).Success?
  }

  predicate ValidPublicQuery(feed: Option<string>, take: Option<int>, skip: Option<int>) {
    ParsePublicKind(feed).Success? && ParsePaging(take, skip).Success?
  }

  /** `getUserCapsules` for an authenticated user: the projection of one page of the user's listing. */
  function GetUserCapsules(all: seq<Capsule>, dir: Directory, user: UserId, kind: Option<string>, take: Option<int>,
                           skip: Option<int>, now: Timestamp): (r: Result<seq<CapsuleData>, Error>)
    ensures !ValidUserQuery(kind, take, skip) ==> r == Failure(ValidationFailed)
    ensures ValidUserQuery(kind, take, skip) ==>
      var page := ListCapsules(all, UserAudience(user, ParseUserKind(kind).value), ParsePaging(take, skip).value, now);
      && (r.Success? <==> forall i :: 0 <= i < |page| ==> FilterCapsuleResponse(page[i], dir, now).Success?)
      && (r.Success? ==> |r.value| == |page|
                         && forall i :: 0 <= i < |page| ==> r.value[i] == FilterCapsuleResponse(page[i], dir, now).value)
    ensures r.Failure? ==> r.error == ValidationFailed
    ensures r.Success? ==> |r.value| <= ParsePaging(take, skip).value.take
    ensures r.Success? && kind == Some("received") ==> AllTagged(r.value, Opened)
    ensures r.Success? && kind == Some("draft") ==> AllTagged(r.value, Unsealed)
  {
    var k := ParseUserKind(kind);
    var paging := ParsePaging(take, skip);
    if k.Failure? || paging.Failure? then Failure(ValidationFailed)
    else
      var records := ListCapsules(all, UserAudience(user, k.value), paging.value, now);
      UserKindText(kind);
      UserResponseStates(records, user, k.value, dir, now);
      var r := RespondAll(records, dir, now);
      assert kind == Some("received") ==> k.value == Some(Received);
      assert kind == Some("draft") ==> k.value == Some(Draft);
      r
  }

  /** `getPublicCapsules`, open to anonymous callers: the projection of one page of the public feed. */
  function GetPublicCapsules(all: seq<Capsule>, dir: Directory, feed: Option<string>, take: Option<int>,
                             skip: Option<int>, now: Timestamp): (r: Result<seq<CapsuleData>, Error>)
    ensures !ValidPublicQuery(feed, take, skip) ==> r == Failure(ValidationFailed)
    ensures ValidPublicQuery(feed, take, skip) ==>
      var page := ListCapsules(all, PublicAudience(ParsePublicKind(feed).value), ParsePaging(take, skip).value, now);
      && (r.Success? <==> forall i :: 0 <= i < |page| ==> FilterCapsuleResponse(page[i], dir, now).Success?)
      && (r.Success? ==> |r.value| == |page|
                         && forall i :: 0 <= i < |page| ==> r.value[i] == FilterCapsuleResponse(page[i], dir, now).value)
    ensures r.Failure? ==> r.error == ValidationFailed
    ensures r.Success? ==> |r.value| <= ParsePaging(take, skip).value.take
    ensures r.Success? ==> forall i :: 0 <= i < |r.value| ==>
      r.value[i].visibility.Public? && Tag(r.value[i]) != Unsealed
    ensures r.Success? && feed == Some("sealed") ==> AllTagged(r.value, Sealed)
  {
    var k := ParsePublicKind(feed);
    var paging := ParsePaging(take, skip);
    if k.Failure? || paging.Failure? then Failure(ValidationFailed)
    else
      var records := ListCapsules(all, PublicAudience(k.value), paging.value, now);
      PublicKindText(feed);
      PublicResponseStates(records, k.value, dir, now);
      var r := RespondAll(records, dir, now);
      assert feed == Some("sealed") ==> k.value == Some(SealedFeed);
      r
  }

  /** Every item a user's listing returns is exactly what that user gets by opening the capsule by id. */
  lemma UserListingItemsOpenById(all: seq<Capsule>, dir: Directory, user: UserId, kind: Option<string>,
                                 take: Option<int>, skip: Option<int>, now: Timestamp, i: int)
    requires GetUserCapsules(all, dir, user, kind, take, skip, now).Success?
    requires 0 <= i < |GetUserCapsules(all, dir, user, kind, take, skip, now).value|
    ensures exists c :: (c in all &&
      GetCapsuleById(Some(c), dir, Some(user), now) == Success(GetUserCapsules(all, dir, user, kind, take, skip, now).value[i]))
  {
    var k := ParseUserKind(kind).value;
    var page := ListCapsules(all, UserAudience(user, k), ParsePaging(take, skip).value, now);
    var c := page[i];
    assert c in page;
    UserListingIsViewable(c, user, k, now);
  }

  /** Every item of the public feed is exactly what any viewer, anonymous or not, gets by opening the capsule by id. */
  lemma PublicListingItemsOpenById(all: seq<Capsule>, dir: Directory, feed: Option<string>, take: Option<int>,
                                   skip: Option<int>, now: Timestamp, viewer: Option<UserId>, i: int)
    requires GetPublicCapsules(all, dir, feed, take, skip, now).Success?
    requires 0 <= i < |GetPublicCapsules(all, dir, feed, take, skip, now).value|
    ensures exists c :: (c in all &&
      GetCapsuleById(Some(c), dir, viewer, now) == Success(GetPublicCapsules(all, dir, feed, take, skip, now).value[i]))
  {
    var k := ParsePublicKind(feed).value;
    var page := ListCapsules(all, PublicAudience(k), ParsePaging(take, skip).value, now);
    var c := page[i];
    assert c in page;
    PublicListingIsViewable(c, k, viewer, now);
  }

  /** A valid public request for `take` items from position `from` responds with the projection of that page. */
  lemma PublicPageAt(all: seq<Capsule>, dir: Directory, feed: Option<string>, take: int, skip: Option<int>,
                     from: nat, now: Timestamp)
    requires ParsePublicKind(feed).Success? && take >= 1
    requires if skip.Some? then skip.value == from && from >= 1 else from == 0
    ensures GetPublicCapsules(all, dir, feed, Some(take), skip, now)
            == RespondAll(Page(SortedMatches(all, PublicAudience(ParsePublicKind(feed).value), now), from, take), dir, now)
  {
    assert ParsePaging(Some(take), skip).value == Paging(from, take);
  }

  /** A valid user request for `take` items from position `from` responds with the projection of that page. */
  lemma UserPageAt(all: seq<Capsule>, dir: Directory, user: UserId, kind: Option<string>, take: int, skip: Option<int>,
                   from: nat, now: Timestamp)
    requires ParseUserKind(kind).Success? && take >= 1
    requires if skip.Some? then skip.value == from && from >= 1 else from == 0
    ensures GetUserCapsules(all, dir, user, kind, Some(take), skip, now)
            == RespondAll(Page(SortedMatches(all, UserAudience(user, ParseUserKind(kind).value), now), from, take), dir, now)
  {
    assert ParsePaging(Some(take), skip).value == Paging(from, take);
  }

  /** The responses to two adjacent pages of `s` combine into the response to the page spanning both. */
  lemma RespondedPagesTile(s: seq<Capsule>, from: nat, take1: nat, take2: nat, mid: nat, total: nat,
                           dir: Directory, now: Timestamp)
    requires mid == from + take1 && total == take1 + take2
    ensures RespondAll(Page(s, from, total), dir, now).Success?
            <==> RespondAll(Page(s, from, take1), dir, now).Success? && RespondAll(Page(s, mid, take2), dir, now).Success?
    ensures && RespondAll(Page(s, from, total), dir, now).Success?
            && RespondAll(Page(s, from, take1), dir, now).Success?
            && RespondAll(Page(s, mid, take2), dir, now).Success?
            ==>
              RespondAll(Page(s, from, total), dir, now).value
              == RespondAll(Page(s, from, take1), dir, now).value + RespondAll(Page(s, mid, take2), dir, now).value
  {
    var x, y, z := Page(s, from, take1), Page(s, mid, take2), Page(s, from, total);
    PagesTile(s, from, take1, take2);
    assert x + y == z;
    RespondAllDistributes(x, y, dir, now);
  }

  /**
   * Paging through the public feed: the page of `take1` items at `skip`
   * followed by the page of `take2` items right after it (starting at
   * `from + take1`, where `from` is the position `skip` denotes) is the page
   * of `take1 + take2` items at `skip`; the combined request fails iff one
   * of the two does.
   */
  lemma PublicPagesTile(all: seq<Capsule>, dir: Directory, feed: Option<string>, skip: Option<int>, from: nat,
                        take1: int, take2: int, mid: int, total: int,
                        now: Timestamp)
    requires ParsePublicKind(feed).Success? && take1 >= 1 && take2 >= 1
    requires if skip.Some? then skip.value == from && from >= 1 else from == 0
    requires mid == from + take1 && total == take1 + take2
    ensures GetPublicCapsules(all, dir, feed, Some(total), skip, now).Success?
            <==> GetPublicCapsules(all, dir, feed, Some(take1), skip, now).Success?
                 && GetPublicCapsules(all, dir, feed, Some(take2), Some(mid), now).Success?
    ensures && GetPublicCapsules(all, dir, feed, Some(total), skip, now).Success?
            && GetPublicCapsules(all, dir, feed, Some(take1), skip, now).Success?
            && GetPublicCapsules(all, dir, feed, Some(take2), Some(mid), now).Success?
            ==>
              GetPublicCapsules(all, dir, feed, Some(total), skip, now).value
              == GetPublicCapsules(all, dir, feed, Some(take1), skip, now).value
                 + GetPublicCapsules(all, dir, feed, Some(take2), Some(mid), now).value
  {
    var s := SortedMatches(all, PublicAudience(ParsePublicKind(feed).value), now);
    PublicPageAt(all, dir, feed, take1, skip, from, now);
    PublicPageAt(all, dir, feed, take2, Some(mid), mid, now);
    PublicPageAt(all, dir, feed, total, skip, from, now);
    RespondedPagesTile(s, from, take1, take2, mid, total, dir, now);
  }

  /** The same paging law for a user's listing. */
  lemma UserPagesTile(all: seq<Capsule>, dir: Directory, user: UserId, kind: Option<string>, skip: Option<int>,
                      from: nat, take1: int, take2: int, mid: int, total: int,
                      now: Timestamp)
    requires ParseUserKind(kind).Success? && take1 >= 1 && take2 >= 1
    requires if skip.Some? then skip.value == from && from >= 1 else from == 0
    requires mid == from + take1 && total == take1 + take2
    ensures GetUserCapsules(all, dir, user, kind, Some(total), skip, now).Success?
            <==> GetUserCapsules(all, dir, user, kind, Some(take1), skip, now).Success?
                 && GetUserCapsules(all, dir, user, kind, Some(take2), Some(mid), now).Success?
    ensures && GetUserCapsules(all, dir, user, kind, Some(total), skip, now).Success?
            && GetUserCapsules(all, dir, user, kind, Some(take1), skip, now).Success?
            && GetUserCapsules(all, dir, user, kind, Some(take2), Some(mid), now).Success?
            ==>
              GetUserCapsules(all, dir, user, kind, Some(total), skip, now).value
              == GetUserCapsules(all, dir, user, kind, Some(take1), skip, now).value
                 + GetUserCapsules(all, dir, user, kind, Some(take2), Some(mid), now).value
  {
    var s := SortedMatches(all, UserAudience(user, ParseUserKind(kind).value), now);
    UserPageAt(all, dir, user, kind, take1, skip, from, now);
    UserPageAt(all, dir, user, kind, take2, Some(mid), mid, now);
    UserPageAt(all, dir, user, kind, total, skip, from, now);
    RespondedPagesTile(s, from, take1, take2, mid, total, dir, now);
  }

}

=== FILE: mutation.dfy ===
/**
 * The create, edit and delete handlers: who may change a capsule, when, and
 * what the stored record looks like afterwards. Values arrive already
 * validated; an absent optional value is `None`.
 */
module Mutation {
  import opened Wrappers
  import opened Errors
  import opened ObjectIds
  import opened CapsuleModel
  import opened Js

  datatype CreateValues = CreateValues(
    title: string,
    openDate: Option<Timestamp>,
    showCountdown: Option<bool>,
    visibility: Visibility,
    content: Option<string>,
    images: Option<seq<Image>>,
    collaborators: Option<seq<UserId>>,
    receivers: Option<seq<UserId>>
  )

  datatype EditValues = EditValues(
    title: Option<string>,
    openDate: Option<Timestamp>,
    showCountdown: Option<bool>,
    visibility: Option<Visibility>,
    content: Option<string>,
    images: Option<seq<Image>>,
    collaborators: Option<seq<UserId>>,
    receivers: Option<seq<UserId>>
  )

  /** The senders a create or an edit stores: the caller first, then every collaborator in the given order. */
  function SenderList(caller: UserId, collaborators: Option<seq<UserId>>): seq<UserId> {
    [caller] + collaborators.GetOr([])
  }

  /**
   * The schema's `required` check on a title at save time: the empty title
   * fails, and Mongoose's own validation error is none of the classes the
   * error handler recognises, so the request ends in a 500.
   */
  function CheckTitle(c: Capsule): (r: Result<Capsule, Error>)
    ensures r.Success? <==> |c.title| > 0
    ensures r.Success? ==> r.value == c
    ensures r.Failure? ==> r.error == Unexpected
  {
    if |c.title| == 0 then Failure(Unexpected) else Success(c)
  }

  /**
   * `createCapsule`: a new record with the caller as first sender and the
   * schema defaults, saved at `now`. The title setter trims, so a title of
   * nothing but white space fails the save. A new record's `openDate` counts
   * as modified exactly when one was supplied.
   */
  function CreateCapsule(caller: UserId, values: CreateValues, newId: ObjectId, now: Timestamp)
    : (r: Result<Capsule, Error>)
    ensures r.Success? <==> !Blank(values.title)
    ensures r.Failure? ==> r.error == Unexpected
    ensures r.Success? ==>
      var c := r.value;
      && |c.senders| >= 1 && c.senders[0] == caller && c.senders[1..] == values.collaborators.GetOr([])
      && IsSentBy(c, caller)
      && c.id == newId && c.createdAt == now
      && c.title == Trim(values.title) && |c.title| > 0
      && c.visibility == values.visibility && c.content == values.content
      && c.openDate == values.openDate
      && (c.showCountdown <==> values.showCountdown == Some(true))
      && c.images == values.images.GetOr([]) && c.receivers == values.receivers.GetOr([])
      && (c.sealedAt.Some? <==> c.openDate.Some?)
      && (c.sealedAt.Some? ==> c.sealedAt.value == now)
      && (values.openDate.None? ==> StateAt(c.openDate, now) == Unsealed)
  {
    var record := Capsule(
      newId, Trim(values.title), values.content, values.images.GetOr([]), values.visibility,
      values.openDate, None, values.showCountdown.GetOr(false),
      SenderList(caller, values.collaborators), values.receivers.GetOr([]), now);
    CheckTitle(PreSave(record, values.openDate.Some?, now))
  }

  /**
   * The partial update of an edit: each supplied field overwrites the stored
   * one (a title trimmed by its setter), every other field stays, and the
   * senders are always replaced by the caller and the collaborators.
   */
  function ApplyEdit(c: Capsule, caller: UserId, values: EditValues): (e: Capsule)
    ensures e.id == c.id && e.createdAt == c.createdAt && e.sealedAt == c.sealedAt
    ensures e.senders == SenderList(caller, values.collaborators)
    ensures e.title == if values.title.Some? then Trim(values.title.value) else c.title
    ensures values.content.Some? ==> e.content == values.content
    ensures values.content.None? ==> e.content == c.content
    ensures values.openDate.Some? ==> e.openDate == values.openDate
    ensures values.openDate.None? ==> e.openDate == c.openDate
    ensures e.visibility == if values.visibility.Some? then values.visibility.value else c.visibility
    ensures e.showCountdown == if values.showCountdown.Some? then values.showCountdown.value else c.showCountdown
    ensures e.images == if values.images.Some? then values.images.value else c.images
    ensures e.receivers == if values.receivers.Some? then values.receivers.value else c.receivers
  {
    c.(
      title := EditedTitle(c, values),
      openDate := if values.openDate.Some? then values.openDate else c.openDate,
      showCountdown := values.showCountdown.GetOr(c.showCountdown),
      visibility := values.visibility.GetOr(c.visibility),
      content := if values.content.Some? then values.content else c.content,
      images := values.images.GetOr(c.images),
      receivers := values.receivers.GetOr(c.receivers),
      senders := SenderList(caller, values.collaborators)
    )
  }

  /** An edit that supplies nothing changes the stored record in its senders alone. */
  lemma ApplyEmptyEdit(c: Capsule, caller: UserId)
    ensures ApplyEdit(c, caller, EditValues(None, None, None, None, None, None, None, None)) == c.(senders := [caller])
  {
    assert SenderList(caller, None) == [caller];
  }

  /** The title an edit would store: the trimmed new title if one is supplied, the stored one otherwise. */
  function EditedTitle(c: Capsule, values: EditValues): string {
    if values.title.Some? then Trim(values.title.value) else c.title
  }

  /**
   * `editCapsule`: 404 for a missing capsule, then 403 for a non-sender,
   * then 423 unless the capsule is still unsealed; otherwise the partial
   * update is applied and saved, stamping `sealedAt` if `openDate` changed,
   * and the save fails (500) when the resulting title is empty.
   */
  function EditCapsule(stored: Option<Capsule>, caller: UserId, values: EditValues, now: Timestamp)
    : (r: Result<Capsule, Error>)
    ensures stored.None? ==> r == Failure(NotFound)
    ensures stored.Some? && !IsSentBy(stored.value, caller) ==> r == Failure(Forbidden)
    ensures stored.Some? && IsSentBy(stored.value, caller) && StateAt(stored.value.openDate, now) != Unsealed
            ==> r == Failure(Locked)
    ensures (stored.Some? && IsSentBy(stored.value, caller) && StateAt(stored.value.openDate, now) == Unsealed
             && |EditedTitle(stored.value, values)| == 0) ==> r == Failure(Unexpected)
    ensures r.Success? <==>
      && stored.Some? && IsSentBy(stored.value, caller) && StateAt(stored.value.openDate, now) == Unsealed
      && (values.title.Some? ==> !Blank(values.title.value))
      && (values.title.None? ==> |stored.value.title| > 0)
    ensures r.Success? ==>
      var old_ := stored.value; var c := r.value;
      && c.id == old_.id && c.createdAt == old_.createdAt
      && c.senders == SenderList(caller, values.collaborators)
      && (values.title.Some? ==> c.title == Trim(values.title.value)) && (values.title.None? ==> c.title == old_.title)
      && (values.content.Some? ==> c.content == values.content) && (values.content.None? ==> c.content == old_.content)
      && (values.openDate.Some? ==> c.openDate == values.openDate && c.sealedAt == Some(now))
      && (values.openDate.None? ==> c.openDate == old_.openDate && c.sealedAt == old_.sealedAt)
      && (values.visibility.Some? ==> c.visibility == values.visibility.value)
      && (values.visibility.None? ==> c.visibility == old_.visibility)
      && (values.showCountdown.Some? ==> c.showCountdown == values.showCountdown.value)
      && (values.showCountdown.None? ==> c.showCountdown == old_.showCountdown)
      && (values.images.Some? ==> c.images == values.images.value) && (values.images.None? ==> c.images == old_.images)
      && (values.receivers.Some? ==> c.receivers == values.receivers.value)
      && (values.receivers.None? ==> c.receivers == old_.receivers)
  {
    if stored.None? then Failure(NotFound)
    else if !IsSentBy(stored.value, caller) then Failure(Forbidden)
    else if StateAt(stored.value.openDate, now) != Unsealed then Failure(Locked)
    else
      var updated := ApplyEdit(stored.value, caller, values);
      CheckTitle(PreSave(updated, updated.openDate != stored.value.openDate, now))
  }

  /** An edit that supplies nothing but the caller still rewrites `senders` to the caller alone, provided the stored title survives the save. */
  lemma EditOverwritesSenders(c: Capsule, caller: UserId, now: Timestamp)
    requires IsSentBy(c, caller) && StateAt(c.openDate, now) == Unsealed
    ensures var none := EditValues(None, None, None, None, None, None, None, None);
      EditCapsule(Some(c), caller, none, now) == if |c.title| == 0 then Failure(Unexpected) else Success(c.(senders := [caller]))
  {
    ApplyEmptyEdit(c, caller);
  }


  /**
   * A capsule created without an open date is a draft its creator can edit
   * at once; the edit fails only on a blank new title.
   */
  lemma CreatedDraftIsEditable(caller: UserId, values: CreateValues, newId: ObjectId, now: Timestamp,
                               edit: EditValues, later: Timestamp)
    requires CreateCapsule(caller, values, newId, now).Success? && values.openDate.None?
    ensures var c := CreateCapsule(caller, values, newId, now).value;
      EditCapsule(Some(c), caller, edit, later).Success? <==> (edit.title.Some? ==> !Blank(edit.title.value))
  {
    var c := CreateCapsule(caller, values, newId, now).value;
    assert c.senders[0] == caller;
  }

  /** Every title a create or an edit stores is already trimmed, so the trim setter never changes it again. */
  lemma StoredTitlesStayTrimmed(stored: Capsule, caller: UserId, values: EditValues, now: Timestamp)
    requires stored.title == Trim(stored.title)
    requires EditCapsule(Some(stored), caller, values, now).Success?
    ensures var e := EditCapsule(Some(stored), caller, values, now).value; e.title == Trim(e.title) && |e.title| > 0
  {
    if values.title.Some? {
      TrimIdempotent(values.title.value);
    }
  }

  /** A created title is trimmed too. */
  lemma CreatedTitleIsTrimmed(caller: UserId, values: CreateValues, newId: ObjectId, now: Timestamp)
    requires CreateCapsule(caller, values, newId, now).Success?
    ensures var c := CreateCapsule(caller, values, newId, now).value; c.title == Trim(c.title)
  {
    TrimIdempotent(values.title);
  }

  /** Sealing a draft: the edited record is sealed from that moment, with `sealedAt` the edit's own time. */
  lemma SealingDraftStampsSealedAt(c: Capsule, caller: UserId, values: EditValues, now: Timestamp)
    requires EditCapsule(Some(c), caller, values, now).Success?
    requires values.openDate.Some? && values.openDate.value >= now
    ensures var e := EditCapsule(Some(c), caller, values, now).value;
      e.sealedAt == Some(now) && StateAt(e.openDate, now) == Sealed
  {
  }

  /** Once sealed or opened, no edit by anyone succeeds, whatever is supplied. */
  lemma NoEditAfterSealing(c: Capsule, caller: UserId, values: EditValues, now: Timestamp)
    requires c.openDate.Some?
    ensures EditCapsule(Some(c), caller, values, now).Failure?
    ensures IsSentBy(c, caller) ==> EditCapsule(Some(c), caller, values, now) == Failure(Locked)
  {
  }

  /** `deleteCapsule`: 404 for a missing capsule, 403 for a non-sender, and no lifecycle check at all. */
  function DeleteCapsule(stored: Option<Capsule>, caller: UserId): (r: Result<ObjectId, Error>)
    ensures stored.None? ==> r == Failure(NotFound)
    ensures stored.Some? && !IsSentBy(stored.value, caller) ==> r == Failure(Forbidden)
    ensures r.Success? <==> stored.Some? && IsSentBy(stored.value, caller)
    ensures r.Success? ==> r.value == stored.value.id
  {
    if stored.None? then Failure(NotFound)
    else if !IsSentBy(stored.value, caller) then Failure(Forbidden)
    else Success(stored.value.id)
  }

  /** The outcome of a delete does not depend on the open date, hence not on the lifecycle state. */
  lemma DeleteIgnoresLifecycle(c: Capsule, caller: UserId, openDate: Option<Timestamp>, sealedAt: Option<Timestamp>)
    ensures DeleteCapsule(Some(c), caller) == DeleteCapsule(Some(c.(openDate := openDate, sealedAt := sealedAt)), caller)
  {
  }

  /** Delete is strictly broader than edit: every permitted edit's caller may delete, and a sender may delete a sealed capsule it can no longer edit. */
  lemma DeleteBroaderThanEdit(c: Capsule, caller: UserId, values: EditValues, now: Timestamp)
    ensures EditCapsule(Some(c), caller, values, now).Success? ==> DeleteCapsule(Some(c), caller).Success?
    ensures IsSentBy(c, caller) && c.openDate.Some? ==>
      EditCapsule(Some(c), caller, values, now) == Failure(Locked) && DeleteCapsule(Some(c), caller).Success?
  {
  }
}

=== FILE: objectid.dfy ===
/**
 * Object ids, represented by their canonical text: 24 lower-case hexadecimal
 * digits. `ObjectId.isValid` on a string accepts exactly the 24-digit
 * hexadecimal strings (either case); constructing an id from such a string
 * and printing it back yields the lower-case form.
 */
module ObjectIds {

  datatype ObjectId = ObjectId(hex: string)

  predicate IsHexDigit(c: char) {
    ('0' <= c <= '9') || ('a' <= c <= 'f') || ('A' <= c <= 'F')
  }

  predicate IsLowerHexDigit(c: char) {
    ('0' <= c <= '9') || ('a' <= c <= 'f')
  }

  /** `Types.ObjectId.isValid(s)` for a string argument. */
  predicate IsValidText(s: string) {
    |s| == 24 && forall i :: 0 <= i < |s| ==> IsHexDigit(s[i])
  }

  /** An id as the store produces it: canonical lower-case text. */
  predicate WellFormed(id: ObjectId) {
    |id.hex| == 24 && forall i :: 0 <= i < |id.hex| ==> IsLowerHexDigit(id.hex[i])
  }

  function LowerHex(c: char): (d: char)
    ensures IsHexDigit(c) ==> IsLowerHexDigit(d)
    ensures IsLowerHexDigit(c) ==> d == c
  {
    if 'A' <= c <= 'F' then (c as int - 'A' as int + 'a' as int) as char else c
  }

  /** `new Types.ObjectId(s)` for a valid string. */
  function FromText(s: string): (id: ObjectId)
    requires IsValidText(s)
    ensures WellFormed(id)
    ensures |id.hex| == |s| && forall i :: 0 <= i < |s| ==> id.hex[i] == LowerHex(s[i])
  {
    ObjectId(seq(|s|, i requires 0 <= i < |s| => LowerHex(s[i])))
  }

  /** The textual form of an id: its hex digits as stored. */
  function ToText(id: ObjectId): string {
    id.hex
  }

  /** Printing a well-formed id and reading it back gives the same id. */
  lemma TextRoundTrip(id: ObjectId)
    requires WellFormed(id)
    ensures IsValidText(ToText(id))
    ensures FromText(ToText(id)) == id
  {
    var s := ToText(id);
    assert forall i :: 0 <= i < |s| ==> IsHexDigit(s[i]) by {
      forall i | 0 <= i < |s| ensures IsHexDigit(s[i]) {
        assert IsLowerHexDigit(id.hex[i]);
      }
    }
    var r := FromText(s);
    assert r.hex == id.hex;
  }

  /** The text of a well-formed id never contains a dash. */
  lemma TextHasNoDash(id: ObjectId)
    requires WellFormed(id)
    ensures forall i :: 0 <= i < |ToText(id)| ==> ToText(id)[i] != '-'
  {
    forall i | 0 <= i < |ToText(id)| ensures ToText(id)[i] != '-' {
      assert IsLowerHexDigit(id.hex[i]);
    }
  }
}

=== FILE: partial.dfy ===
/**
 * `onlyDefinedValues`: drops the own properties whose value is `undefined`
 * from a plain object, keeping every other property, in order.
 */
module PartialUpdate {
  import opened Js

  function OnlyDefinedValues(entries: seq<Entry>): (r: seq<Entry>)
    ensures forall e :: e in r <==> e in entries && e.value != Undefined
    ensures |r| <= |entries|
  {
    if |entries| == 0 then []
    else if entries[0].value == Undefined then OnlyDefinedValues(entries[1..])
    else [entries[0]] + OnlyDefinedValues(entries[1..])
  }

  /** The helper works property by property: it distributes over concatenation, so order is kept. */
  lemma {:induction false} OnlyDefinedValuesDistributes(a: seq<Entry>, b: seq<Entry>)
    ensures OnlyDefinedValues(a + b) == OnlyDefinedValues(a) + OnlyDefinedValues(b)
    decreases |a|
  {
    if |a| == 0 {
      assert a + b == b;
    } else {
      assert (a + b)[1..] == a[1..] + b;
      OnlyDefinedValuesDistributes(a[1..], b);
    }
  }

  /** An object with no `undefined` value is returned as it is. */
  lemma {:induction false} OnlyDefinedValuesKeepsDefined(entries: seq<Entry>)
    requires forall i :: 0 <= i < |entries| ==> entries[i].value != Undefined
    ensures OnlyDefinedValues(entries) == entries
    decreases |entries|
  {
    if |entries| > 0 {
      OnlyDefinedValuesKeepsDefined(entries[1..]);
    }
  }

  /** Applying the helper twice is the same as applying it once. */
  lemma OnlyDefinedValuesIdempotent(entries: seq<Entry>)
    ensures OnlyDefinedValues(OnlyDefinedValues(entries)) == OnlyDefinedValues(entries)
  {
    var r := OnlyDefinedValues(entries);
    assert forall i :: 0 <= i < |r| ==> r[i].value != Undefined by {
      forall i | 0 <= i < |r| ensures r[i].value != Undefined {
        assert r[i] in r;
      }
    }
    OnlyDefinedValuesKeepsDefined(r);
  }
}

=== FILE: projection.dfy ===
/**
 * The response schemas: what a capsule, an image and a user look like when
 * they leave the server. A capsule response is a union tagged by the
 * lifecycle state, and each variant is a strict allow-list of fields.
 */
module Projection {
  import opened Wrappers
  import opened Errors
  import opened ObjectIds
  import opened CapsuleModel
  import opened Access

  /** An image as disclosed: its name and type, never its size. */
  datatype ImageData = ImageData(name: string, mimeType: string)

  datatype CapsuleData =
    | UnsealedData(id: ObjectId, visibility: Visibility, senders: seq<UserData>, receivers: seq<UserData>,
                   showCountdown: bool, title: string, content: Option<string>, images: seq<ImageData>)
    | SealedData(id: ObjectId, visibility: Visibility, senders: seq<UserData>, receivers: seq<UserData>,
                 openDate: Timestamp)
    | OpenedData(id: ObjectId, visibility: Visibility, senders: seq<UserData>, receivers: seq<UserData>,
                 title: string, content: Option<string>, images: seq<ImageData>,
                 openDate: Timestamp, sealedAt: Timestamp)

  /** The names of the fields a response carries. */
  datatype Field =
    | IdField | StateField | VisibilityField | SendersField | ReceiversField | ShowCountdownField
    | TitleField | ContentField | ImagesField | OpenDateField | SealedAtField

  /** The `state` discriminator of a response. */
  function Tag(r: CapsuleData): State {
    match r
    case UnsealedData(_, _, _, _, _, _, _, _) => Unsealed
    case SealedData(_, _, _, _, _) => Sealed
    case OpenedData(_, _, _, _, _, _, _, _, _) => Opened
  }

  /** The fields present in a response; an absent optional `content` is not present. */
  function Fields(r: CapsuleData): set<Field> {
    var common := {IdField, StateField, VisibilityField, SendersField, ReceiversField};
    match r
    case UnsealedData(_, _, _, _, _, _, content, _) =>
      common + {ShowCountdownField, TitleField, ImagesField} + (if content.Some? then {ContentField} else {})
    case SealedData(_, _, _, _, _) =>
      common + {OpenDateField}
    case OpenedData(_, _, _, _, _, content, _, _, _) =>
      common + {TitleField, ImagesField, OpenDateField, SealedAtField} + (if content.Some? then {ContentField} else {})
  }

  function ImageDataOf(i: Image): ImageData {
    ImageData(i.name, i.mimeType)
  }

  function ProjectImages(images: seq<Image>): seq<ImageData> {
    seq(|images|, k requires 0 <= k < |images| => ImageDataOf(images[k]))
  }

  /** A user record as the lookup projects it; the schema leaves both names optional. */
  datatype User = User(id: UserId, username: string, firstName: Option<string>, lastName: Option<string>,
                       image: Option<Image>)

  datatype UserData = UserData(id: UserId, username: string, firstName: string, lastName: string,
                               image: Option<ImageData>)

  /** `userResponseSchema`: first and last name are required, the image is optional and loses its size. */
  function ParseUser(u: User): (r: Result<UserData, Error>)
    ensures r.Success? <==> Named(u)
    ensures r.Failure? ==> r.error == ValidationFailed
    ensures r.Success? ==>
      && r.value.id == u.id && r.value.username == u.username
      && u.firstName == Some(r.value.firstName) && u.lastName == Some(r.value.lastName)
      && (r.value.image.Some? <==> u.image.Some?)
      && (u.image.Some? ==> r.value.image.value.name == u.image.value.name
                            && r.value.image.value.mimeType == u.image.value.mimeType)
  {
    if u.firstName.None? || u.lastName.None? then Failure(ValidationFailed)
    else
      Success(UserData(u.id, u.username, u.firstName.value, u.lastName.value,
                       if u.image.Some? then Some(ImageDataOf(u.image.value)) else None))
  }

  predicate Named(u: User) {
    u.firstName.Some? && u.lastName.Some?
  }

  /** The user collection at lookup time: the users that still exist, by id. */
  type Directory = map<UserId, User>

  /** Some id of the list still names an existing user. */
  predicate AnyExists(ids: seq<UserId>, dir: Directory) {
    exists i :: 0 <= i < |ids| && ids[i] in dir
  }

  /** Every id of the list that names an existing user names one with both names. */
  predicate AllNamed(ids: seq<UserId>, dir: Directory) {
    forall i :: 0 <= i < |ids| && ids[i] in dir ==> Named(dir[ids[i]])
  }

  /**
   * `populate` (or `$lookup`) followed by `z.array(userResponseSchema)`: ids
   * whose user no longer exists are dropped, the others become their user
   * records in id order, and every record must pass the user schema.
   */
  function ProjectUsers(ids: seq<UserId>, dir: Directory): (r: Result<seq<UserData>, Error>)
    ensures r.Success? <==> AllNamed(ids, dir)
    ensures r.Failure? ==> r.error == ValidationFailed
    ensures r.Success? ==> |r.value| <= |ids|
    ensures r.Success? ==> (|r.value| == 0 <==> !AnyExists(ids, dir))
    decreases |ids|
  {
    if |ids| == 0 then Success([])
    else
      var rest := ProjectUsers(ids[1..], dir);
      assert forall i :: 1 <= i < |ids| ==> ids[i] == ids[1..][i - 1];
      if ids[0] !in dir then rest
      else if !Named(dir[ids[0]]) then Failure(ValidationFailed)
      else if rest.Failure? then rest
      else Success([ParseUser(dir[ids[0]]).value] + rest.value)
  }

  /** One id: a deleted user vanishes, an existing one is parsed by the user schema. */
  lemma ProjectUsersSingle(id: UserId, dir: Directory)
    ensures id !in dir ==> ProjectUsers([id], dir) == Success([])
    ensures id in dir && Named(dir[id]) ==> ProjectUsers([id], dir) == Success([ParseUser(dir[id]).value])
    ensures id in dir && !Named(dir[id]) ==> ProjectUsers([id], dir) == Failure(ValidationFailed)
  {
    assert [id][1..] == [];
    assert ProjectUsers([id][1..], dir) == Success([]);
    if id in dir && Named(dir[id]) {
      var u := ParseUser(dir[id]).value;
      assert [u] + [] == [u];
    }
  }

  /** The lookup works id by id: a concatenation of id lists projects to the concatenation of the projections. */
  lemma {:induction false} ProjectUsersDistributes(a: seq<UserId>, b: seq<UserId>, dir: Directory)
    ensures ProjectUsers(a + b, dir).Success? <==> ProjectUsers(a, dir).Success? && ProjectUsers(b, dir).Success?
    ensures ProjectUsers(a + b, dir).Success? ==>
      ProjectUsers(a + b, dir).value == ProjectUsers(a, dir).value + ProjectUsers(b, dir).value
    decreases |a|
  {
    if |a| == 0 {
      assert a + b == b;
    } else {
      assert (a + b)[0] == a[0];
      assert (a + b)[1..] == a[1..] + b;
      ProjectUsersDistributes(a[1..], b, dir);
    }
  }

  /** When every user still exists and is named, the projection keeps the ids' order, one user per id. */
  lemma {:induction false} ProjectUsersAllPresent(ids: seq<UserId>, dir: Directory)
    requires forall i :: 0 <= i < |ids| ==> ids[i] in dir && Named(dir[ids[i]])
    ensures ProjectUsers(ids, dir).Success?
    ensures |ProjectUsers(ids, dir).value| == |ids|
    ensures forall i :: 0 <= i < |ids| ==> ProjectUsers(ids, dir).value[i] == ParseUser(dir[ids[i]]).value
    decreases |ids|
  {
    if |ids| > 0 {
      assert forall i :: 1 <= i < |ids| ==> ids[i] == ids[1..][i - 1];
      ProjectUsersAllPresent(ids[1..], dir);
    }
  }

  /** Every field a response discloses carries the record's own value. */
  predicate Discloses(r: CapsuleData, c: Capsule, dir: Directory) {
    && r.id == c.id && r.visibility == c.visibility
    && ProjectUsers(c.senders, dir) == Success(r.senders) && ProjectUsers(c.receivers, dir) == Success(r.receivers)
    && (r.UnsealedData? ==>
          r.showCountdown == c.showCountdown && r.title == c.title && r.content == c.content
          && r.images == ProjectImages(c.images))
    && (r.SealedData? ==> c.openDate == Some(r.openDate))
    && (r.OpenedData? ==>
          r.title == c.title && r.content == c.content && r.images == ProjectImages(c.images)
          && c.openDate == Some(r.openDate) && c.sealedAt == Some(r.sealedAt))
  }

  /**
   * `filterCapsuleResponse`: the record, with its derived state and its
   * populated senders and receivers, parsed against the response union. A
   * record the variant rejects raises a validation error; no partial object
   * is returned.
   */
  function FilterCapsuleResponse(c: Capsule, dir: Directory, now: Timestamp): (r: Result<CapsuleData, Error>)
    ensures r.Failure? <==>
      || !AnyExists(c.senders, dir)
      || !AllNamed(c.senders, dir) || !AllNamed(c.receivers, dir)
      || (StateAt(c.openDate, now) == Opened && c.sealedAt.None?)
    ensures r.Failure? ==> r.error == ValidationFailed
    ensures r.Success? ==> Tag(r.value) == StateAt(c.openDate, now) && Discloses(r.value, c, dir)
  {
    var senders := ProjectUsers(c.senders, dir);
    var receivers := ProjectUsers(c.receivers, dir);
    if senders.Failure? || receivers.Failure? || |senders.value| == 0 then Failure(ValidationFailed)
    else
      match StateAt(c.openDate, now)
      case Unsealed =>
        Success(UnsealedData(c.id, c.visibility, senders.value, receivers.value, c.showCountdown, c.title, c.content,
                             ProjectImages(c.images)))
      case Sealed =>
        Success(SealedData(c.id, c.visibility, senders.value, receivers.value, c.openDate.value))
      case Opened =>
        if c.sealedAt.None? then Failure(ValidationFailed)
        else
          Success(OpenedData(c.id, c.visibility, senders.value, receivers.value, c.title, c.content,
                             ProjectImages(c.images), c.openDate.value, c.sealedAt.value))
  }

  /** A capsule whose only sender registered without a first name cannot be shown to anyone. */
  lemma NamelessSenderBreaksResponse(c: Capsule, dir: Directory, now: Timestamp)
    requires |c.senders| >= 1 && c.senders[0] in dir && dir[c.senders[0]].firstName.None?
    ensures FilterCapsuleResponse(c, dir, now) == Failure(ValidationFailed)
  {
  }

  /** Deleting every sender's account makes the capsule unrepresentable, whatever its state. */
  lemma DeletedSendersBreakResponse(c: Capsule, dir: Directory, now: Timestamp)
    requires forall i :: 0 <= i < |c.senders| ==> c.senders[i] !in dir
    ensures FilterCapsuleResponse(c, dir, now) == Failure(ValidationFailed)
  {
  }

  /** A sealed response carries exactly the identity, audience and open date: never title, content or images. */
  lemma SealedNeverDisclosesContent(c: Capsule, dir: Directory, now: Timestamp)
    requires StateAt(c.openDate, now) == Sealed
    requires FilterCapsuleResponse(c, dir, now).Success?
    ensures Fields(FilterCapsuleResponse(c, dir, now).value)
            == {IdField, StateField, VisibilityField, SendersField, ReceiversField, OpenDateField}
    ensures TitleField !in Fields(FilterCapsuleResponse(c, dir, now).value)
    ensures ContentField !in Fields(FilterCapsuleResponse(c, dir, now).value)
    ensures ImagesField !in Fields(FilterCapsuleResponse(c, dir, now).value)
  {
  }

  /** Unsealed responses never carry an open date or seal time; opened ones never carry `showCountdown`. */
  lemma VariantAllowLists(c: Capsule, dir: Directory, now: Timestamp)
    requires FilterCapsuleResponse(c, dir, now).Success?
    ensures var r := FilterCapsuleResponse(c, dir, now).value;
      && (Tag(r) == Unsealed ==> OpenDateField !in Fields(r) && SealedAtField !in Fields(r))
      && (Tag(r) == Opened ==> ShowCountdownField !in Fields(r) && SealedAtField in Fields(r))
      && (ContentField in Fields(r) <==> Tag(r) != Sealed && c.content.Some?)
  {
    var r := FilterCapsuleResponse(c, dir, now).value;
    assert !r.SealedData? ==> r.content == c.content;
    FieldsByVariant(r);
  }

  /** The fields of each response variant, independent of the record it came from. */
  lemma FieldsByVariant(r: CapsuleData)
    ensures Tag(r) == Unsealed ==> OpenDateField !in Fields(r) && SealedAtField !in Fields(r)
    ensures Tag(r) == Opened ==> ShowCountdownField !in Fields(r) && SealedAtField in Fields(r)
    ensures ContentField in Fields(r) <==> !r.SealedData? && r.content.Some?
  {
  }

  /** Images are disclosed in order, by name and type only. */
  lemma ImagesDisclosedByNameAndType(c: Capsule, dir: Directory, now: Timestamp)
    requires FilterCapsuleResponse(c, dir, now).Success?
    requires !FilterCapsuleResponse(c, dir, now).value.SealedData?
    ensures var imgs := FilterCapsuleResponse(c, dir, now).value.images;
      |imgs| == |c.images| &&
      forall k :: 0 <= k < |imgs| ==> imgs[k].name == c.images[k].name && imgs[k].mimeType == c.images[k].mimeType
  {
  }

  /** `getCapsuleById`: not found, then the view matrix, then the projection. */
  function GetCapsuleById(stored: Option<Capsule>, dir: Directory, viewer: Option<UserId>, now: Timestamp)
    : (r: Result<CapsuleData, Error>)
    ensures stored.None? ==> r == Failure(NotFound)
    ensures stored.Some? && AuthorizeView(stored.value, viewer, now).Deny?
            ==> r == Failure(AuthorizeView(stored.value, viewer, now).error)
    ensures r.Success? ==> stored.Some? && AuthorizeView(stored.value, viewer, now) == Allow
                           && Tag(r.value) == StateAt(stored.value.openDate, now)
                           && Discloses(r.value, stored.value, dir)
    ensures stored.Some? && AuthorizeView(stored.value, viewer, now) == Allow
            ==> r == FilterCapsuleResponse(stored.value, dir, now)
  {
    if stored.None? then Failure(NotFound)
    else
      match AuthorizeView(stored.value, viewer, now)
      case Deny(e) => Failure(e)
      case Allow => FilterCapsuleResponse(stored.value, dir, now)
  }

  /** Whoever asks, a sealed capsule's response never discloses its title, content or images. */
  lemma SealedViewHidesContentFromEveryone(c: Capsule, dir: Directory, viewer: Option<UserId>, now: Timestamp)
    requires StateAt(c.openDate, now) == Sealed
    ensures GetCapsuleById(Some(c), dir, viewer, now).Success? ==>
      var fs := Fields(GetCapsuleById(Some(c), dir, viewer, now).value);
      TitleField !in fs && ContentField !in fs && ImagesField !in fs
  {
  }
}

=== FILE: router.dfy ===
/**
 * The vanilla client's path router. A route pattern is compiled by turning
 * every `:name` (a colon and the run of non-slash characters after it) into
 * a capture of one or more non-slash characters, anchored at both ends.
 * Routes are tried in declaration order and the first match is rendered with
 * its captures bound to the parameter names.
 */
module Router {
  import opened Wrappers

  /** A compiled pattern element: a literal character, or a named capture `([^/]+)`. */
  datatype Token = Lit(c: char) | Param(name: string)

  /** A non-empty run of non-slash characters: what `[^/]+` can match. */
  predicate Segment(s: string) {
    |s| >= 1 && forall j :: 0 <= j < |s| ==> s[j] != '/'
  }

  /** The length of the longest slash-free prefix of `s`. */
  function Run(s: string): (n: nat)
    ensures n <= |s|
    ensures forall i :: 0 <= i < n ==> s[i] != '/'
    ensures n < |s| ==> s[n] == '/'
  {
    if |s| == 0 || s[0] == '/' then 0 else 1 + Run(s[1..])
  }

  /**
   * Every capture is followed by a literal slash or by the end of the
   * pattern, and every name is a segment: the shape compiled patterns have.
   */
  predicate WellFormed(t: seq<Token>) {
    |t| == 0 ||
    ((t[0].Param? ==> Segment(t[0].name) && (|t| == 1 || t[1] == Lit('/'))) && WellFormed(t[1..]))
  }

  /** The pattern text a token sequence was compiled from. */
  function Render(t: seq<Token>): string {
    if |t| == 0 then ""
    else (match t[0] case Lit(c) => [c] case Param(n) => ":" + n) + Render(t[1..])
  }

  /** The `createRoute` replacement: `/:([^/]+)/g` scanned left to right. */
  function Compile(p: string): (r: seq<Token>)
    ensures |p| > 0 && p[0] == '/' ==> |r| > 0 && r[0] == Lit('/')
    ensures |r| == 0 <==> |p| == 0
    decreases |p|
  {
    if |p| == 0 then []
    else if p[0] == ':' && Run(p[1..]) > 0 then
      var k := Run(p[1..]);
      [Param(p[1..1 + k])] + Compile(p[1 + k..])
    else
      [Lit(p[0])] + Compile(p[1..])
  }

  /** A colon with a non-empty run after it compiles to one capture of that run. */
  lemma ParamCompiles(p: string, k: nat)
    requires |p| > 0 && p[0] == ':' && k == Run(p[1..]) > 0
    ensures Compile(p) == [Param(p[1..1 + k])] + Compile(p[1 + k..])
  {
  }

  /** The captured name is a segment, and what follows it starts with a slash. */
  lemma ParamText(p: string, k: nat)
    requires |p| > 0 && p[0] == ':' && k == Run(p[1..]) > 0
    ensures Segment(p[1..1 + k])
    ensures p == ":" + p[1..1 + k] + p[1 + k..]
    ensures |p[1 + k..]| > 0 ==> p[1 + k] == '/'
  {
    var tail := p[1..];
    var name := p[1..1 + k];
    forall j | 0 <= j < |name| ensures name[j] != '/' {
      assert name[j] == tail[j];
    }
    if 1 + k < |p| {
      assert p[1 + k] == tail[k];
    }
    assert name == tail[..k] && tail[k..] == p[1 + k..];
    assert tail == name + p[1 + k..];
    assert p == [p[0]] + tail;
  }

  /** Every compiled pattern has the shape the matcher relies on. */
  lemma {:induction false} CompileWellFormed(p: string)
    ensures WellFormed(Compile(p))
    decreases |p|
  {
    if |p| > 0 {
      var r := Compile(p);
      if p[0] == ':' && Run(p[1..]) > 0 {
        var k := Run(p[1..]);
        ParamCompiles(p, k);
        ParamText(p, k);
        var rest := p[1 + k..];
        CompileWellFormed(rest);
        assert r[1..] == Compile(rest);
        assert |rest| > 0 ==> Compile(rest)[0] == Lit('/');
      } else {
        CompileWellFormed(p[1..]);
        assert r[1..] == Compile(p[1..]);
      }
    }
  }

  /** Rendering a capture step: the name after a colon, then the rest. */
  lemma RenderParamStep(p: string, name: string, rest: string)
    requires p == ":" + name + rest
    requires Compile(p) == [Param(name)] + Compile(rest) && Render(Compile(rest)) == rest
    ensures Render(Compile(p)) == p
  {
    var t := Compile(rest);
    assert ([Param(name)] + t)[1..] == t;
  }

  /** Rendering a literal step: the character, then the rest. */
  lemma RenderLitStep(p: string)
    requires |p| > 0 && Compile(p) == [Lit(p[0])] + Compile(p[1..]) && Render(Compile(p[1..])) == p[1..]
    ensures Render(Compile(p)) == p
  {
    var t := Compile(p[1..]);
    assert ([Lit(p[0])] + t)[1..] == t;
    assert p == [p[0]] + p[1..];
  }

  /** Compiling loses nothing: rendering the tokens gives the pattern back. */
  lemma {:induction false} CompileRenders(p: string)
    ensures Render(Compile(p)) == p
    decreases |p|
  {
    if |p| > 0 {
      if p[0] == ':' && Run(p[1..]) > 0 {
        var k := Run(p[1..]);
        ParamCompiles(p, k);
        ParamText(p, k);
        CompileRenders(p[1 + k..]);
        RenderParamStep(p, p[1..1 + k], p[1 + k..]);
      } else {
        CompileRenders(p[1..]);
        RenderLitStep(p);
      }
    }
  }

  function ParamCount(t: seq<Token>): nat {
    if |t| == 0 then 0 else (if t[0].Param? then 1 else 0) + ParamCount(t[1..])
  }

  /** The parameter names of a pattern, left to right: the `params` list of a route. */
  function ParamNames(t: seq<Token>): (r: seq<string>)
    ensures |r| == ParamCount(t)
  {
    if |t| == 0 then []
    else if t[0].Param? then [t[0].name] + ParamNames(t[1..])
    else ParamNames(t[1..])
  }

  predicate ValidCaptures(caps: seq<string>) {
    forall i :: 0 <= i < |caps| ==> Segment(caps[i])
  }

  /** The path a pattern denotes once each capture is replaced by its text. */
  function Fill(t: seq<Token>, caps: seq<string>): string
    requires |caps| == ParamCount(t)
  {
    if |t| == 0 then ""
    else match t[0]
      case Lit(c) => [c] + Fill(t[1..], caps)
      case Param(_) => caps[0] + Fill(t[1..], caps[1..])
  }

  /** `path.match(regex)`: the captured groups, or `None` when the anchored pattern does not match. */
  function MatchPath(t: seq<Token>, path: string): (r: Option<seq<string>>)
    ensures r.Some? ==> |r.value| == ParamCount(t) && ValidCaptures(r.value) && Fill(t, r.value) == path
  {
    if |t| == 0 then (if |path| == 0 then Some([]) else None)
    else match t[0]
      case Lit(c) =>
        if |path| > 0 && path[0] == c then
          var r := MatchPath(t[1..], path[1..]);
          assert r.Some? ==> path == [c] + path[1..];
          r
        else None
      case Param(_) =>
        var k := Run(path);
        if k == 0 then None
        else
          var rest := MatchPath(t[1..], path[k..]);
          if rest.None? then None
          else
            var caps := [path[..k]] + rest.value;
            assert caps[1..] == rest.value;
            assert path == path[..k] + path[k..];
            Some(caps)
  }

  lemma RunOfSegment(a: string, b: string)
    requires forall j :: 0 <= j < |a| ==> a[j] != '/'
    requires |b| == 0 || b[0] == '/'
    ensures Run(a + b) == |a|
  {
    if |a| > 0 {
      assert (a + b)[1..] == a[1..] + b;
      RunOfSegment(a[1..], b);
    } else {
      assert a + b == b;
    }
  }

  /**
   * Any way of filling a compiled pattern with segments is the way the
   * matcher finds: the greedy captures are the only captures possible, so
   * the matcher accepts exactly the paths the anchored regular expression does.
   */
  lemma {:induction false} MatchComplete(t: seq<Token>, caps: seq<string>)
    requires WellFormed(t) && |caps| == ParamCount(t) && ValidCaptures(caps)
    ensures MatchPath(t, Fill(t, caps)) == Some(caps)
  {
    if |t| > 0 {
      match t[0]
      case Lit(c) =>
        var path := Fill(t, caps);
        assert path[1..] == Fill(t[1..], caps);
        MatchComplete(t[1..], caps);
      case Param(_) =>
        var tail := Fill(t[1..], caps[1..]);
        assert ValidCaptures(caps[1..]) by {
          forall i | 0 <= i < |caps[1..]| ensures Segment(caps[1..][i]) { assert caps[1..][i] == caps[i + 1]; }
        }
        assert |tail| == 0 || tail[0] == '/' by {
          if |t| > 1 {
            assert t[1] == Lit('/');
          }
        }
        assert Segment(caps[0]);
        RunOfSegment(caps[0], tail);
        var path := caps[0] + tail;
        assert path[..|caps[0]|] == caps[0];
        assert path[|caps[0]|..] == tail;
        MatchComplete(t[1..], caps[1..]);
        assert [caps[0]] + caps[1..] == caps;
    }
  }

  /** A capture never matches the empty string and never spans a slash. */
  lemma CapturesAreSegments(p: string, path: string, i: int)
    requires MatchPath(Compile(p), path).Some? && 0 <= i < |MatchPath(Compile(p), path).value|
    ensures |MatchPath(Compile(p), path).value[i]| >= 1
    ensures forall j :: 0 <= j < |MatchPath(Compile(p), path).value[i]| ==> MatchPath(Compile(p), path).value[i][j] != '/'
  {
  }

  /** `params[name] = match[index + 1]` for each name in order. */
  function ParamMap(names: seq<string>, caps: seq<string>): (m: map<string, string>)
    requires |names| == |caps|
    ensures forall k :: k in m <==> k in names
  {
    if |names| == 0 then map[]
    else
      var m := ParamMap(names[1..], caps[1..]);
      assert names == [names[0]] + names[1..];
      if names[0] in m then m else m[names[0] := caps[0]]
  }

  /** A name bound more than once keeps the capture of its last occurrence. */
  lemma {:induction false} ParamMapLast(names: seq<string>, caps: seq<string>, i: int)
    requires |names| == |caps| && 0 <= i < |names| && LastOccurrence(names, i)
    ensures names[i] in ParamMap(names, caps) && ParamMap(names, caps)[names[i]] == caps[i]
  {
    var m := ParamMap(names[1..], caps[1..]);
    if i == 0 {
      assert names[0] !in names[1..] by {
        forall j | 0 <= j < |names[1..]| ensures names[1..][j] != names[0] {
          assert names[1..][j] == names[j + 1];
        }
      }
    } else {
      assert names[1..][i - 1] == names[i] && caps[1..][i - 1] == caps[i];
      assert LastOccurrence(names[1..], i - 1) by {
        forall j | i - 1 < j < |names[1..]| ensures names[1..][j] != names[1..][i - 1] {
          assert names[1..][j] == names[j + 1];
        }
      }
      ParamMapLast(names[1..], caps[1..], i - 1);
    }
  }

  /** No later name repeats `names[i]`. */
  predicate LastOccurrence(names: seq<string>, i: int)
    requires 0 <= i < |names|
  {
    forall j :: i < j < |names| ==> names[j] != names[i]
  }

  /** Which route `handleRoute` renders for a path. */
  datatype Routing = Routed(index: nat, params: map<string, string>) | NotFound

  /** Whether the compiled pattern `p` matches the whole path. */
  predicate RouteMatches(p: string, path: string) {
    MatchPath(Compile(p), path).Some?
  }

  /** No pattern from index `lo` up to (not including) `hi` matches the path. */
  predicate Misses(patterns: seq<string>, path: string, lo: int, hi: int)
    requires 0 <= lo <= hi <= |patterns|
  {
    forall j :: lo <= j < hi ==> !RouteMatches(patterns[j], path)
  }

  lemma MissesStep(patterns: seq<string>, path: string, lo: int, hi: int)
    requires 0 <= lo < hi <= |patterns| && !RouteMatches(patterns[lo], path)
    ensures Misses(patterns, path, lo, hi) <==> Misses(patterns, path, lo + 1, hi)
  {
  }

  function HandleFrom(patterns: seq<string>, path: string, start: nat): (r: Routing)
    requires start <= |patterns|
    ensures r.Routed? ==> start <= r.index < |patterns| && RouteMatches(patterns[r.index], path)
    ensures r.Routed? ==> Misses(patterns, path, start, r.index)
    ensures r.Routed? ==>
      r.params == ParamMap(ParamNames(Compile(patterns[r.index])), MatchPath(Compile(patterns[r.index]), path).value)
    ensures r.NotFound? <==> Misses(patterns, path, start, |patterns|)
    decreases |patterns| - start
  {
    if start == |patterns| then NotFound
    else
      var t := Compile(patterns[start]);
      var m := MatchPath(t, path);
      if m.Some? then Routed(start, ParamMap(ParamNames(t), m.value))
      else
        var r := HandleFrom(patterns, path, start + 1);
        MissesStep(patterns, path, start, if r.Routed? then r.index else |patterns|);
        r
  }

  /** `handleRoute`: the first route whose pattern matches, else the not-found handler. */
  function HandleRoute(patterns: seq<string>, path: string): (r: Routing)
    ensures r.Routed? ==> r.index < |patterns| && RouteMatches(patterns[r.index], path)
    ensures r.Routed? ==> Misses(patterns, path, 0, r.index)
    ensures r.Routed? ==>
      r.params == ParamMap(ParamNames(Compile(patterns[r.index])), MatchPath(Compile(patterns[r.index]), path).value)
    ensures r.NotFound? <==> Misses(patterns, path, 0, |patterns|)
  {
    HandleFrom(patterns, path, 0)
  }

  /** Adding routes after the one a path reaches never changes where it goes. */
  lemma {:induction false} LaterRoutesNeverConsulted(patterns: seq<string>, more: seq<string>, path: string, start: nat)
    requires start <= |patterns|
    requires HandleFrom(patterns, path, start).Routed?
    ensures HandleFrom(patterns + more, path, start) == HandleFrom(patterns, path, start)
    decreases |patterns| - start
  {
    assert (patterns + more)[start] == patterns[start];
    if MatchPath(Compile(patterns[start]), path).None? {
      LaterRoutesNeverConsulted(patterns, more, path, start + 1);
    }
  }

  // ---------------------------------------------------------------- the client's route table

  /** The routes of `main.ts`, in declaration order. */
  const MainRoutes: seq<string> := [
    "/", "/sent", "/received", "/capsule/:id", "/capsule/create", "/capsule/edit",
    "/profile", "/profile/edit", "/auth/register", "/auth/log-in"]

  function Lits(p: string): (t: seq<Token>)
    ensures |t| == |p| && ParamCount(t) == 0
  {
    if |p| == 0 then [] else [Lit(p[0])] + Lits(p[1..])
  }

  lemma {:induction false} CompileLiteralPrefix(p: string, q: string)
    requires forall i :: 0 <= i < |p| ==> p[i] != ':'
    ensures Compile(p + q) == Lits(p) + Compile(q)
  {
    if |p| > 0 {
      assert (p + q)[0] == p[0];
      assert (p + q)[1..] == p[1..] + q;
      CompileLiteralPrefix(p[1..], q);
    } else {
      assert p + q == q;
    }
  }

  lemma {:induction false} LiteralMatch(p: string, t: seq<Token>, path: string)
    ensures MatchPath(Lits(p) + t, path) ==
      if |path| >= |p| && path[..|p|] == p then MatchPath(t, path[|p|..]) else None
  {
    if |p| > 0 {
      assert (Lits(p) + t)[1..] == Lits(p[1..]) + t;
      if |path| > 0 && path[0] == p[0] {
        LiteralMatch(p[1..], t, path[1..]);
        assert |path| >= |p| && path[..|p|] == p <==> |path[1..]| >= |p[1..]| && path[1..][..|p[1..]|] == p[1..];
        if |path| >= |p| {
          assert path[1..][|p[1..]|..] == path[|p|..];
        }
      }
    } else {
      assert Lits(p) + t == t;
    }
  }

  lemma LiteralRoute(p: string, path: string)
    requires forall i :: 0 <= i < |p| ==> p[i] != ':'
    ensures MatchPath(Compile(p), path).Some? <==> path == p
  {
    CompileLiteralPrefix(p, "");
    assert p + "" == p;
    LiteralMatch(p, [], path);
    assert Lits(p) + [] == Lits(p);
  }

  /** A literal prefix followed by one capture that runs to the end of the pattern. */
  lemma ParamRouteShape(prefix: string, name: string)
    requires forall i :: 0 <= i < |prefix| ==> prefix[i] != ':'
    requires Segment(name)
    ensures Compile(prefix + ":" + name) == Lits(prefix) + [Param(name)]
  {
    CompileLiteralPrefix(prefix, ":" + name);
    assert prefix + ":" + name == prefix + (":" + name);
    SingleParam(name);
  }

  /** A colon and a segment compile to one capture. */
  lemma SingleParam(name: string)
    requires Segment(name)
    ensures Compile(":" + name) == [Param(name)]
  {
    var p := ":" + name;
    assert p[1..] == name && name + "" == name;
    RunOfSegment(name, "");
    var k := |name|;
    ParamCompiles(p, k);
    assert p[1..1 + k] == name && p[1 + k..] == "";
  }

  lemma ParamRouteMatches(pattern: string, prefix: string, name: string, path: string, id: string)
    requires forall i :: 0 <= i < |prefix| ==> prefix[i] != ':'
    requires Segment(name) && Segment(id)
    requires pattern == prefix + ":" + name && path == prefix + id
    ensures MatchPath(Compile(pattern), path) == Some([id])
    ensures ParamNames(Compile(pattern)) == [name]
  {
    ParamRouteShape(prefix, name);
    LiteralMatch(prefix, [Param(name)], path);
    assert path[..|prefix|] == prefix && path[|prefix|..] == id;
    assert Fill([Param(name)], [id]) == id;
    MatchComplete([Param(name)], [id]);
    ParamNamesOfLits(prefix, [Param(name)]);
  }

  lemma SkipMiss(routes: seq<string>, path: string, i: nat)
    requires i < |routes| && MatchPath(Compile(routes[i]), path).None?
    ensures HandleFrom(routes, path, i) == HandleFrom(routes, path, i + 1)
  {
  }

  lemma TakeMatch(routes: seq<string>, path: string, i: nat)
    requires i < |routes| && MatchPath(Compile(routes[i]), path).Some?
    ensures HandleFrom(routes, path, i)
            == Routed(i, ParamMap(ParamNames(Compile(routes[i])), MatchPath(Compile(routes[i]), path).value))
  {
  }

  lemma EarlyRoutesMiss(routes: seq<string>, path: string)
    requires routes == MainRoutes && |path| > 9
    ensures MatchPath(Compile(routes[0]), path).None?
    ensures MatchPath(Compile(routes[1]), path).None?
    ensures MatchPath(Compile(routes[2]), path).None?
  {
    EarlyRouteTexts(routes);
    ShortRouteMisses(routes[0], path);
    ShortRouteMisses(routes[1], path);
    ShortRouteMisses(routes[2], path);
  }

  lemma EarlyRouteTexts(routes: seq<string>)
    requires routes == MainRoutes
    ensures routes[0] == "/" && routes[1] == "/sent" && routes[2] == "/received"
  {
  }

  lemma ShortRouteText(p: string)
    requires p == "/" || p == "/sent" || p == "/received"
    ensures |p| <= 9 && forall i :: 0 <= i < |p| ==> p[i] != ':'
  {
  }

  lemma ShortRouteMisses(p: string, path: string)
    requires p == "/" || p == "/sent" || p == "/received"
    requires |path| > 9
    ensures MatchPath(Compile(p), path).None?
  {
    ShortRouteText(p);
    LiteralRoute(p, path);
  }

  /**
   * With the client's route table, `/capsule/create` and `/capsule/edit` are
   * taken by the earlier `/capsule/:id`, which receives the word as its id.
   */
  lemma CreateAndEditShadowed(routes: seq<string>, id: string)
    requires routes == MainRoutes
    requires id == "create" || id == "edit"
    ensures HandleRoute(routes, "/capsule/" + id) == Routed(3, map["id" := id])
  {
    var path := "/capsule/" + id;
    PassEarlyRoutes(routes, id);
    IdRouteCaptures(routes, id);
    TakeMatch(routes, path, 3);
    var name := "id";
    assert ParamMap([name], [id]) == map[name := id] by {
      assert LastOccurrence([name], 0);
    }
  }

  lemma PassEarlyRoutes(routes: seq<string>, id: string)
    requires routes == MainRoutes
    requires id == "create" || id == "edit"
    ensures HandleFrom(routes, "/capsule/" + id, 0) == HandleFrom(routes, "/capsule/" + id, 3)
  {
    var path := "/capsule/" + id;
    EarlyRoutesMiss(routes, path);
    SkipMiss(routes, path, 0);
    SkipMiss(routes, path, 1);
    SkipMiss(routes, path, 2);
  }

  lemma IdRouteCaptures(routes: seq<string>, id: string)
    requires routes == MainRoutes
    requires id == "create" || id == "edit"
    ensures MatchPath(Compile(routes[3]), "/capsule/" + id) == Some([id])
    ensures ParamNames(Compile(routes[3])) == ["id"]
  {
    var path := "/capsule/" + id;
    var prefix, name := "/capsule/", "id";
    CapsulePrefixHasNoColon(prefix);
    IdRouteSegments(name, id);
    IdRouteText(routes, prefix, name);
    ParamRouteMatches(routes[3], prefix, name, path, id);
  }

  lemma CapsulePrefixHasNoColon(prefix: string)
    requires prefix == "/capsule/"
    ensures forall i :: 0 <= i < |prefix| ==> prefix[i] != ':'
  {
  }

  lemma IdRouteSegments(name: string, id: string)
    requires name == "id" && (id == "create" || id == "edit")
    ensures Segment(name) && Segment(id)
  {
  }

  lemma IdRouteText(routes: seq<string>, prefix: string, name: string)
    requires routes == MainRoutes && prefix == "/capsule/" && name == "id"
    ensures routes[3] == prefix + ":" + name
  {
  }

  lemma {:induction false} ParamNamesOfLits(p: string, t: seq<Token>)
    ensures ParamNames(Lits(p) + t) == ParamNames(t)
  {
    if |p| > 0 {
      assert (Lits(p) + t)[1..] == Lits(p[1..]) + t;
      ParamNamesOfLits(p[1..], t);
    } else {
      assert Lits(p) + t == t;
    }
  }
}

=== FILE: toast.dfy ===
/**
 * The toast list: `error` appends one error toast, `close` removes toasts by
 * id. The uuid of a new toast is a parameter; the three-second automatic
 * close is left to the caller.
 */
module Toasts {

  datatype Kind = ErrorKind
  datatype Icon = AlertCircle

  datatype Toast = Toast(message: string, id: string, kind: Kind, icon: Icon, color: string)

  /** `close(id)`: every toast with that id goes, the rest keep their order. */
  function Close(toasts: seq<Toast>, id: string): (r: seq<Toast>)
    ensures forall t :: t in r <==> t in toasts && t.id != id
    ensures |r| <= |toasts|
    ensures (forall i :: 0 <= i < |toasts| ==> toasts[i].id != id) ==> r == toasts
  {
    if |toasts| == 0 then []
    else
      var rest := Close(toasts[1..], id);
      assert toasts == [toasts[0]] + toasts[1..];
      if toasts[0].id == id then rest else [toasts[0]] + rest
  }

  /** `error({message})`: a toast of kind error, with the alert icon and the bright warning colour, at the end. */
  function Error(toasts: seq<Toast>, message: string, freshId: string): (r: seq<Toast>)
    ensures |r| == |toasts| + 1 && r[..|toasts|] == toasts
    ensures r[|toasts|] == Toast(message, freshId, ErrorKind, AlertCircle, "warning-bright")
  {
    toasts + [Toast(message, freshId, ErrorKind, AlertCircle, "warning-bright")]
  }

  /** Closing a freshly raised toast restores the list it was added to. */
  lemma {:induction false} CloseUndoesError(toasts: seq<Toast>, message: string, freshId: string)
    requires forall i :: 0 <= i < |toasts| ==> toasts[i].id != freshId
    ensures Close(Error(toasts, message, freshId), freshId) == toasts
  {
    CloseDistributes(toasts, [Toast(message, freshId, ErrorKind, AlertCircle, "warning-bright")], freshId);
    assert Close([Toast(message, freshId, ErrorKind, AlertCircle, "warning-bright")], freshId) == [];
  }

  lemma {:induction false} CloseDistributes(a: seq<Toast>, b: seq<Toast>, id: string)
    ensures Close(a + b, id) == Close(a, id) + Close(b, id)
  {
    if |a| == 0 {
      assert a + b == b;
    } else {
      assert (a + b)[1..] == a[1..] + b;
      CloseDistributes(a[1..], b, id);
    }
  }

  /** Closing twice is closing once. */
  lemma CloseIdempotent(toasts: seq<Toast>, id: string)
    ensures Close(Close(toasts, id), id) == Close(toasts, id)
  {
    var r := Close(toasts, id);
    assert forall i :: 0 <= i < |r| ==> r[i] in r;
  }

  /** Closing two different ids gives the same list in either order. */
  lemma {:induction false} CloseCommutes(toasts: seq<Toast>, id: string, other: string)
    requires other != id
    ensures Close(Close(toasts, id), other) == Close(Close(toasts, other), id)
  {
    if |toasts| > 0 {
      CloseCommutes(toasts[1..], id, other);
    }
  }

  /** A first error on an empty list yields exactly that one toast. */
  lemma FirstError(message: string, freshId: string)
    ensures var r := Error([], message, freshId);
      |r| == 1 && r[0].message == message && r[0].kind == ErrorKind && r[0].icon == AlertCircle
      && r[0].color == "warning-bright"
  {
  }
}

=== FILE: validation.dfy ===
/**
 * The request-value schemas of the server: password and username rules, the
 * object-id, multipart boolean and multipart object-id-array decoders, and
 * `validate`, which turns a schema's verdict into a value or a 400.
 */
module Validation {
  import opened Wrappers
  import opened Errors
  import opened ObjectIds
  import opened Js

  // ---------------------------------------------------------------- passwords

  /** The password rules in the order the schema checks them; every failing rule is reported. */
  datatype PasswordIssue =
    | PasswordTooShort
    | PasswordTooLong
    | NoUppercase
    | NoLowercase
    | NoDigit
    | NoSpecial

  /** The four character classes a password must draw from. */
  datatype CharClass = Upper | Lower | Digit | Special

  /** `[A-Z]`, `[a-z]`, `\d` and `[!@#$%^&*]`. */
  predicate InClass(c: char, k: CharClass) {
    match k
    case Upper => 'A' <= c <= 'Z'
    case Lower => 'a' <= c <= 'z'
    case Digit => '0' <= c <= '9'
    case Special => c == '!' || c == '@' || c == '#' || c == '$' || c == '%' || c == '^' || c == '&' || c == '*'
  }

  /** The regular expression for class `k` finds a match somewhere in `p`. */
  predicate HasClass(p: string, k: CharClass) {
    exists i :: 0 <= i < |p| && InClass(p[i], k)
  }

  /** The issues `passwordSchema` reports for `p`, in check order; lengths are JavaScript's UTF-16 lengths. */
  function PasswordIssues(p: string): (r: seq<PasswordIssue>)
    ensures |r| == 0 <==>
      8 <= Utf16Length(p) <= 20 && HasClass(p, Upper) && HasClass(p, Lower) && HasClass(p, Digit) && HasClass(p, Special)
    ensures PasswordTooShort in r <==> Utf16Length(p) < 8
    ensures PasswordTooLong in r <==> Utf16Length(p) > 20
    ensures NoUppercase in r <==> !HasClass(p, Upper)
    ensures NoLowercase in r <==> !HasClass(p, Lower)
    ensures NoDigit in r <==> !HasClass(p, Digit)
    ensures NoSpecial in r <==> !HasClass(p, Special)
  {
    IssuesOf(Utf16Length(p), HasClass(p, Upper), HasClass(p, Lower), HasClass(p, Digit), HasClass(p, Special))
  }

  /** The report for a password of length `len` with the given classes present. */
  function IssuesOf(len: nat, upper: bool, lower: bool, digit: bool, special: bool): (r: seq<PasswordIssue>)
    ensures |r| == 0 <==> 8 <= len <= 20 && upper && lower && digit && special
    ensures PasswordTooShort in r <==> len < 8
    ensures PasswordTooLong in r <==> len > 20
    ensures NoUppercase in r <==> !upper
    ensures NoLowercase in r <==> !lower
    ensures NoDigit in r <==> !digit
    ensures NoSpecial in r <==> !special
  {
    Flag(len < 8, PasswordTooShort) + Flag(len > 20, PasswordTooLong) + Flag(!upper, NoUppercase)
    + Flag(!lower, NoLowercase) + Flag(!digit, NoDigit) + Flag(!special, NoSpecial)
  }

  /** `issue` alone when `raised`, nothing otherwise. */
  function Flag(raised: bool, issue: PasswordIssue): (r: seq<PasswordIssue>)
    ensures |r| == if raised then 1 else 0
    ensures forall x :: x in r <==> raised && x == issue
  {
    if raised then [issue] else []
  }

  predicate PasswordAccepted(p: string) {
    |PasswordIssues(p)| == 0
  }

  lemma HasClassExtend(p: string, i: int, k: CharClass)
    requires 0 <= i < |p|
    ensures HasClass(p[..i + 1], k) <==> HasClass(p[..i], k) || InClass(p[i], k)
  {
    if HasClass(p[..i + 1], k) && !InClass(p[i], k) {
      var j :| 0 <= j < i + 1 && InClass(p[..i + 1][j], k);
      assert p[..i][j] == p[j];
    }
    if HasClass(p[..i], k) {
      var j :| 0 <= j < i && InClass(p[..i][j], k);
      assert p[..i + 1][j] == p[j];
    }
    if InClass(p[i], k) {
      assert p[..i + 1][i] == p[i];
    }
  }

  /** One pass over the password, as the four character-class tests do between them. */
  method CheckPassword(p: string) returns (issues: seq<PasswordIssue>)
    ensures issues == PasswordIssues(p)
  {
    var upper, lower, digit, special := false, false, false, false;
    var units := 0;
    var i := 0;
    while i < |p|
      invariant 0 <= i <= |p|
      invariant units == Utf16Length(p[..i])
      invariant upper == HasClass(p[..i], Upper)
      invariant lower == HasClass(p[..i], Lower)
      invariant digit == HasClass(p[..i], Digit)
      invariant special == HasClass(p[..i], Special)
    {
      HasClassExtend(p, i, Upper);
      HasClassExtend(p, i, Lower);
      HasClassExtend(p, i, Digit);
      HasClassExtend(p, i, Special);
      var c := p[i];
      assert p[..i + 1][..i] == p[..i];
      units := units + CodeUnits(c);
      upper := upper || InClass(c, Upper);
      lower := lower || InClass(c, Lower);
      digit := digit || InClass(c, Digit);
      special := special || InClass(c, Special);
      i := i + 1;
    }
    assert p[..i] == p;
    issues := IssuesOf(units, upper, lower, digit, special);
  }

  /** Appending characters never repairs a password that is too long. */
  lemma LongPasswordStaysRejected(p: string, extra: string)
    requires Utf16Length(p) > 20
    ensures !PasswordAccepted(p + extra)
  {
    Utf16LengthAppend(p, extra);
    assert PasswordTooLong in PasswordIssues(p + extra);
  }

  /** Appending characters never removes a character class a password already has. */
  lemma ClassesSurviveAppending(p: string, extra: string, k: CharClass)
    requires HasClass(p, k)
    ensures HasClass(p + extra, k)
  {
    var i :| 0 <= i < |p| && InClass(p[i], k);
    assert (p + extra)[i] == p[i];
  }

  // ---------------------------------------------------------------- usernames

  datatype UsernameIssue = UsernameTooShort | UsernameTooLong

  /** The issues `usernameSchema` reports: only the UTF-16 length is constrained. */
  function UsernameIssues(u: string): (r: seq<UsernameIssue>)
    ensures |r| == 0 <==> 3 <= Utf16Length(u) <= 30
    ensures |r| <= 1
    ensures UsernameTooShort in r <==> Utf16Length(u) < 3
    ensures UsernameTooLong in r <==> Utf16Length(u) > 30
  {
    var n := Utf16Length(u);
    if n < 3 then [UsernameTooShort] else if n > 30 then [UsernameTooLong] else []
  }

  predicate UsernameAccepted(u: string) {
    |UsernameIssues(u)| == 0
  }

  /** For text in the Basic Multilingual Plane the bounds are plain character counts. */
  lemma UsernameBoundsOfBmp(u: string)
    requires forall i :: 0 <= i < |u| ==> (u[i] as int) < 0x1_0000
    ensures UsernameAccepted(u) <==> 3 <= |u| <= 30
  {
    Utf16LengthOfBmp(u);
  }

  /** A username is rejected as too long only if appending cannot cure it, and an accepted one fits within 30 characters. */
  lemma UsernameLengthMonotone(u: string, extra: string)
    ensures !UsernameAccepted(u) && Utf16Length(u) >= 3 ==> !UsernameAccepted(u + extra)
    ensures UsernameAccepted(u) ==> |u| <= 30
  {
    Utf16LengthAppend(u, extra);
  }

  // ---------------------------------------------------------------- object ids

  /** `objectIdSchema`: a valid id string becomes an id, an id passes, anything else is rejected. */
  function ParseObjectId(v: JsValue): (r: Result<ObjectId, Error>)
    ensures r.Success? <==> (v.Str? && IsValidText(v.s)) || v.Oid?
    ensures r.Failure? ==> r.error == ValidationFailed
    ensures r.Success? && v.Str? ==> WellFormed(r.value) && ToText(r.value) == FromText(v.s).hex
    ensures v.Oid? ==> r == Success(v.id)
  {
    match v
    case Str(s) => if IsValidText(s) then Success(FromText(s)) else Failure(ValidationFailed)
    case Oid(id) => Success(id)
    case _ => Failure(ValidationFailed)
  }

  /** A well-formed id survives being sent as its text. */
  lemma ObjectIdTextRoundTrip(id: ObjectId)
    requires WellFormed(id)
    ensures ParseObjectId(Str(ToText(id))) == Success(id)
  {
    TextRoundTrip(id);
  }

  // ---------------------------------------------------------------- multipart booleans

  /** `multipartFormBoolean`: a form field is true exactly when it is the text `true`. */
  function MultipartFormBoolean(v: JsValue): (b: bool)
    ensures b ==> v.Str?
    ensures v.Str? ==> (b <==> v.s == "true")
  {
    match v
    case Str(s) => s == "true"
    case _ => false
  }

  /** `multipartFormBoolean.optional()`: an absent field stays absent. */
  function OptionalBoolean(v: JsValue): (r: Option<bool>)
    ensures r.None? <==> v == Undefined
    ensures r.Some? ==> (r.value <==> v == Str("true"))
  {
    if v == Undefined then None else Some(MultipartFormBoolean(v))
  }

  /** A real boolean `true` that was not sent as text decodes to false. */
  lemma NonStringTrueIsFalse()
    ensures !MultipartFormBoolean(Bool(true))
    ensures OptionalBoolean(Bool(true)) == Some(false)
  {
  }

  // ---------------------------------------------------------------- multipart id arrays

  /** `z.array(objectIdSchema)` element by element. */
  function ParseObjectIds(items: seq<JsValue>): (r: Result<seq<ObjectId>, Error>)
    ensures r.Success? <==> forall i :: 0 <= i < |items| ==> ParseObjectId(items[i]).Success?
    ensures r.Success? ==> |r.value| == |items|
    ensures r.Success? ==> forall i :: 0 <= i < |items| ==> r.value[i] == ParseObjectId(items[i]).value
    ensures r.Failure? ==> r.error == ValidationFailed
  {
    if |items| == 0 then Success([])
    else
      var head := ParseObjectId(items[0]);
      var rest := ParseObjectIds(items[1..]);
      assert forall i :: 1 <= i < |items| ==> items[i] == items[1..][i - 1];
      if head.Failure? then Failure(head.error)
      else if rest.Failure? then Failure(rest.error)
      else Success([head.value] + rest.value)
  }

  /**
   * `multipartFormObjectIdArray`: a string is first given to `JSON.parse`
   * (`jsonParse`, `None` when it throws, which escapes the schema as an
   * unexpected error); the value must then be a non-empty array of ids.
   */
  function MultipartFormObjectIdArray(v: JsValue, jsonParse: string -> Option<JsValue>): (r: Result<seq<ObjectId>, Error>)
    ensures v.Str? && jsonParse(v.s).None? ==> r == Failure(Unexpected)
    ensures r.Success? ==> |r.value| >= 1
    ensures var decoded := if v.Str? then jsonParse(v.s) else Some(v);
      decoded.Some? ==>
        (r.Success? <==> decoded.value.Arr? && |decoded.value.items| >= 1
                         && ParseObjectIds(decoded.value.items).Success?)
  {
    var decoded := if v.Str? then jsonParse(v.s) else Some(v);
    if decoded.None? then Failure(Unexpected)
    else if !decoded.value.Arr? || |decoded.value.items| < 1 then Failure(ValidationFailed)
    else ParseObjectIds(decoded.value.items)
  }

  /** `.optional()` on the id array: an absent field stays absent and is never parsed. */
  function OptionalObjectIdArray(v: JsValue, jsonParse: string -> Option<JsValue>): (r: Result<Option<seq<ObjectId>>, Error>)
    ensures v == Undefined ==> r == Success(None)
    ensures v != Undefined ==> (r.Success? <==> MultipartFormObjectIdArray(v, jsonParse).Success?)
    ensures r.Success? && r.value.Some? ==> |r.value.value| >= 1
  {
    if v == Undefined then Success(None)
    else
      var ids :- MultipartFormObjectIdArray(v, jsonParse);
      Success(Some(ids))
  }

  /** Ids sent as a JSON array of their texts decode to the same ids, whatever parser honours that text. */
  lemma ObjectIdArrayRoundTrip(ids: seq<ObjectId>, text: string, jsonParse: string -> Option<JsValue>)
    requires |ids| >= 1 && forall i :: 0 <= i < |ids| ==> WellFormed(ids[i])
    requires jsonParse(text) == Some(Arr(seq(|ids|, i requires 0 <= i < |ids| => Str(ToText(ids[i])))))
    ensures MultipartFormObjectIdArray(Str(text), jsonParse) == Success(ids)
  {
    var items := seq(|ids|, i requires 0 <= i < |ids| => Str(ToText(ids[i])));
    forall i | 0 <= i < |ids| ensures ParseObjectId(items[i]) == Success(ids[i]) {
      ObjectIdTextRoundTrip(ids[i]);
    }
    var r := ParseObjectIds(items);
    assert r.value == ids;
  }

  // ---------------------------------------------------------------- validate

  /**
   * `validate(schema, values)`: without a schema there is nothing to check
   * (`null`); a rejected value throws ValidationError; otherwise the parsed
   * data. A schema is a function from the raw value to its verdict.
   */
  function Validate<T>(schema: Option<JsValue -> Result<T, Error>>, values: JsValue): (r: Result<Option<T>, Error>)
    ensures schema.None? ==> r == Success(None)
    ensures schema.Some? ==> (r.Success? <==> schema.value(values).Success?)
    ensures schema.Some? && r.Success? ==> r.value == Some(schema.value(values).value)
    ensures r.Failure? ==> r.error == schema.value(values).error
  {
    if schema.None? then Success(None)
    else
      var parsed := schema.value(values);
      if parsed.Failure? then Failure(parsed.error) else Success(Some(parsed.value))
  }

  /** Validating a route parameter with the id schema: a well-formed id's text is turned back into that id. */
  lemma ValidateIdParam(id: ObjectId)
    requires WellFormed(id)
    ensures Validate(Some(ParseObjectId), Str(ToText(id))) == Success(Some(id))
  {
    ObjectIdTextRoundTrip(id);
  }

  /** Validation is all or nothing: an id parameter that is not id text never yields a value. */
  lemma ValidateRejectsBadId(s: string)
    requires !IsValidText(s)
    ensures Validate(Some(ParseObjectId), Str(s)) == Failure(ValidationFailed)
  {
  }
}

=== FILE: wrappers.dfy ===
/** Failure-compatible wrappers shared by every module of the model. */
module Wrappers {

  /** An optional value: `None` stands for JavaScript's `undefined` / `null`. */
  datatype Option<+T> = None | Some(value: T) {
    function GetOr(default: T): T {
      match this
      case Some(v) => v
      case None => default
    }
  }

  /** The outcome of an operation that either returns a value or throws. */
  datatype Result<+T, +E> = Success(value: T) | Failure(error: E) {
    predicate IsFailure() {
      Failure?
    }

    function PropagateFailure<U>(): Result<U, E>
      requires Failure?
    {
      Failure(error)
    }

    function Extract(): T
      requires Success?
    {
      value
    }
  }
}
